=== FILE: README.md ===
# Spring–mass cloth simulation: a Dafny model of its core

The program simulates a cloth as a grid of point masses joined by springs.
It runs with Verlet integration, gravity and a drifting wind, and it can
tear springs that are stretched too far. Two engines are modelled:

- **The newer engine** (`simulation.SpringMassSystem`). It keeps a
  column × row grid of masses and a list of springs. For parallel work it
  cuts the grid into near-square tiles (`splitArray`) and the spring list
  into chunks (`splitList`). Each tile is walked by a row-major iterator
  that can also hand out each cell's right and bottom neighbours. A step
  runs `iterationCount` passes: solve spring forces, optionally break
  over-long springs, then move every mass that is not fixed or selected.
  Gravity and wind apply only on the last pass. A renderer works on a copy
  (`createCopy`) and brings it up to date with `updateFromOriginal`. That
  call copies positions and flags, drains the original's log of broken
  springs, and removes their counterparts from the copy.
- **The older engine** (`springmass.SpringMassSystem`). Each mass owns an
  adjacency list of springs. A fork/join task (`MyTask`) computes the
  forces on all movable masses by divide and conquer. `stepMultithreaded`
  then moves those masses and caps them at the bottom of the screen.
- **The wind** (`WindSimulator`). A counter of steps decides each step.
  Every `stepsUntilDirectionChanged` steps it draws a new target force and
  direction. On the other steps it moves the current force and direction
  linearly towards the target, in `stepsUntilDirectionAdjusted` equal
  increments.

Files:

| file | module | contents |
|---|---|---|
| common.dfy | Common | `Option`, 3-vectors over reals, `List.indexOf` and `List.remove(Object)` as `IndexOf` and `RemoveFirst` |
| tiling.dfy | Tiling | `splitArray`, the tile layout and its coverage and disjointness, the edge-flag and normal-bounds findings |
| slice_iteration.dfy | SliceIteration | the two slice iterators as one class |
| chunking.dfy | Chunking | `splitList` and the list form of `forEachParallel` |
| springs.dfy | Springs | mass grid and spring list as values: breakage, copying springs through the mass mapping, removing a drained log |
| simulation.dfy | Simulation | the newer engine as a class: `step`, `applyForces`, `removeBrokenSprings`, `createCopy`, `updateFromOriginal`, `getNearestMass`, `addSpring` |
| legacy.dfy | Legacy | the older engine as a class: list of masses, adjacency lists, `MyTask`, `stepMultithreaded` |
| wind.dfy | Wind | `WindSimulator` as a class and the convergence of its nudges |

Modelling choices:

- In the newer engine a mass is named by its grid coordinate, and a spring
  by its two endpoint coordinates. Springs are equal exactly when they join
  the same masses in the same order. The mass mapping of `createCopy` is
  therefore a map from coordinates to coordinates.
- In the older engine a mass is an identity (`MassId`). Its state and its
  adjacency list are entries of two maps.
- Thread pools, latches and the fork/join pool run their tasks one after
  the other, in submission order.
- Vectors have real components. The force of a spring
  (`Spring.calcForce`), the wind force on a mass (`calculateWindForce`)
  and the older engine's neighbour force (`Mass.calculateNeighbourForces`)
  are function parameters. So are the random draws of the wind
  (`Wind.Draw`) and the distance of a point to a spring
  (`Spring.distanceTo`).

## Model

Paths below are relative to the repository root.

| member | source | states |
|---|---|---|
| Common.IndexOf | src/main/java/de/codesourcery/springmass/simulation/SpringMassSystem.java:283 | the position `List.remove(Object)` removes at: an index holding x with no x before it |
| Common.RemoveFirst | src/main/java/de/codesourcery/springmass/simulation/SpringMassSystem.java:283 | `List.remove(Object)`: unchanged when x is absent; otherwise the element at the first index holding x is dropped and the elements before and after it keep their order, so the length falls by one and the multiset loses exactly one x |
| Common.RemoveFirstOnly | src/main/java/de/codesourcery/springmass/springmass/SpringMassSystem.java:101-105 | removing the only occurrence leaves none, and the count of every other element is unchanged |
| Tiling.TileSize | src/main/java/de/codesourcery/springmass/simulation/SpringMassSystem.java:693-698 | the tile side is the least positive s with s·s ≥ forkJoinBatchCount (ceil of the square root, at least 1) |
| Tiling.BandBounds | src/main/java/de/codesourcery/springmass/simulation/SpringMassSystem.java:700-710 | band b starts at b·size and is non-empty; it is `size` long, or the rest for the last partial band; it ends inside the grid, and it ends at the grid's edge exactly when it is the last band |
| Tiling.BandOf | src/main/java/de/codesourcery/springmass/simulation/SpringMassSystem.java:700-710 | every coordinate below n lies in band c / size |
| Tiling.BandUnique | src/main/java/de/codesourcery/springmass/simulation/SpringMassSystem.java:700-710 | a coordinate lies in no other band |
| Tiling.TilesAt | src/main/java/de/codesourcery/springmass/simulation/SpringMassSystem.java:712-735 | the tile list has rows·cols entries; entry k is the tile of row band k / cols and column band k % cols (row band by row band, left to right) |
| Tiling.TilesUpToAt | src/main/java/de/codesourcery/springmass/simulation/SpringMassSystem.java:712-735 | the same indexing for the first n row bands |
| Tiling.TilesLength | src/main/java/de/codesourcery/springmass/simulation/SpringMassSystem.java:712-735 | number of tiles = row bands × column bands |
| Tiling.TilesUpToLength | src/main/java/de/codesourcery/springmass/simulation/SpringMassSystem.java:712-735 | number of tiles in the first n row bands |
| Tiling.TileShape | src/main/java/de/codesourcery/springmass/simulation/SpringMassSystem.java:712-735 | each tile is a non-empty rectangle in the grid; it is horizSize or horizRest wide and vertSize or vertRest high; it is flagged as at the right (bottom) edge iff it reaches the last column (row), i.e. iff it is the last tile of its row band (column band); its neighbour reads stay in the grid |
| Tiling.TileOfCell | src/main/java/de/codesourcery/springmass/simulation/SpringMassSystem.java:712-735 | every cell lies in the tile (y / size, x / size) and in no other |
| Tiling.TilesInGrid | src/main/java/de/codesourcery/springmass/simulation/SpringMassSystem.java:691-736 | every tile is non-empty, inside the grid and safe for the neighbour iterator |
| Tiling.TilesCoverGrid | src/main/java/de/codesourcery/springmass/simulation/SpringMassSystem.java:691-736 | every cell of [0,cols)×[0,rows) lies in some tile |
| Tiling.CellCovered | src/main/java/de/codesourcery/springmass/simulation/SpringMassSystem.java:691-736 | one cell of the grid lies in some tile |
| Tiling.TilesDisjoint | src/main/java/de/codesourcery/springmass/simulation/SpringMassSystem.java:691-736 | no cell lies in two tiles |
| Tiling.SplitArray | src/main/java/de/codesourcery/springmass/simulation/SpringMassSystem.java:691-736 | the loops return exactly the tile list `Tiles` (with corrected edge flags, see Findings), whose partition properties are the lemmas above |
| Tiling.SplitRow | src/main/java/de/codesourcery/springmass/simulation/SpringMassSystem.java:715-722 | the inner loop returns the tiles of one row band, left to right |
| Tiling.RightEdgeAsWrittenNeverSet | src/main/java/de/codesourcery/springmass/simulation/SpringMassSystem.java:717 | the source's formula never flags a full-width tile as at the right edge |
| Tiling.RightEdgeAsWrittenUnsafe | src/main/java/de/codesourcery/springmass/simulation/SpringMassSystem.java:717 | when the width is a multiple of the tile size, the last column tile ends at the grid's edge unflagged, so its neighbour reads leave the grid |
| Tiling.RightEdgeAsWrittenExample | src/main/java/de/codesourcery/springmass/simulation/SpringMassSystem.java:717 | a concrete instance: a 2×2 grid with one batch |
| Tiling.BottomEdgeAsWrittenHidesNeighbour | src/main/java/de/codesourcery/springmass/simulation/SpringMassSystem.java:714 | with a partial last row band, the source flags the last full band as bottom edge, although a band lies below it |
| Tiling.SliceNormalReadsInGrid | src/main/java/de/codesourcery/springmass/simulation/SpringMassSystem.java:457-501 | with the bounds passed in their named order, the normal of a tile cell reads only cells inside the tile's end bounds and the grid |
| Tiling.NormalReadsAsWrittenOutsideGrid | src/main/java/de/codesourcery/springmass/simulation/SpringMassSystem.java:444-455 | with the bounds swapped as written, a 1×3 grid with four batches reads cell (1, 1) outside the grid; the tile is taken with the corrected flags (Findings :714), which changes nothing here because calculateNormals reads only the tile's bounds |
| Tiling.TileSizeOfFour | src/main/java/de/codesourcery/springmass/simulation/SpringMassSystem.java:693 | four batches give tiles of side 2 |
| Tiling.FirstTileOfOneByThree | src/main/java/de/codesourcery/springmass/simulation/SpringMassSystem.java:712-722 | the first tile of a 1×3 grid with side 2 is [0,1)×[0,2) with the corrected flags (Findings :714): right edge only |
| Tiling.OneByThreeFirstTileAsWritten | src/main/java/de/codesourcery/springmass/simulation/SpringMassSystem.java:712-722 | as written, the same tile is also flagged bottom edge, since 0 + 2 >= 2 at :714 |
| Tiling.TopLeftAsWritten | src/main/java/de/codesourcery/springmass/simulation/SpringMassSystem.java:712-735 | in a grid narrower than one tile and between one and two tiles high, the source flags the top-left tile at the right edge (rest tile) and at the bottom edge (:714) |
| SliceIteration.CellsLength | src/main/java/de/codesourcery/springmass/simulation/SpringMassSystem.java:129-133 | a slice yields width·height cells |
| SliceIteration.CellIndex | src/main/java/de/codesourcery/springmass/simulation/SpringMassSystem.java:135-156 | cell (x, y) is yielded at position (y − yStart)·width + (x − xStart) |
| SliceIteration.CellsInSlice | src/main/java/de/codesourcery/springmass/simulation/SpringMassSystem.java:135-156 | every yielded cell lies in the slice |
| SliceIteration.CellsCoverSlice | src/main/java/de/codesourcery/springmass/simulation/SpringMassSystem.java:135-156 | every cell of the slice is yielded |
| SliceIteration.CellsDistinct | src/main/java/de/codesourcery/springmass/simulation/SpringMassSystem.java:135-156 | no cell is yielded twice |
| SliceIteration.CellsRowMajor | src/main/java/de/codesourcery/springmass/simulation/SpringMassSystem.java:150-154 | x varies fastest: the next cell is one to the right, or the start of the next row |
| SliceIteration.VisitInSlice | src/main/java/de/codesourcery/springmass/simulation/SpringMassSystem.java:137 | the k-th visit reads a cell of the slice |
| SliceIteration.SliceIterator.constructor | src/main/java/de/codesourcery/springmass/simulation/SpringMassSystem.java:120-126 | starts at (xStart, yStart) with nothing yielded |
| SliceIteration.SliceIterator.HasNext | src/main/java/de/codesourcery/springmass/simulation/SpringMassSystem.java:129-133 | true iff fewer than width·height cells have been yielded |
| SliceIteration.SliceIterator.Next | src/main/java/de/codesourcery/springmass/simulation/SpringMassSystem.java:135-156 | yields the next cell in row-major order; the right neighbour is null iff the slice is flagged right edge and x+1 == xEnd, otherwise array[x+1][y]; the bottom neighbour likewise with y |
| SliceIteration.SliceIterator.RightNeighbour | src/main/java/de/codesourcery/springmass/simulation/SpringMassSystem.java:162 | the right neighbour of the last cell yielded |
| SliceIteration.SliceIterator.BottomNeighbour | src/main/java/de/codesourcery/springmass/simulation/SpringMassSystem.java:165 | the bottom neighbour of the last cell yielded |
| SliceIteration.SliceMasses | src/main/java/de/codesourcery/springmass/simulation/SpringMassSystem.java:116-199 | one mass per cell of the slice |
| SliceIteration.Walk | src/main/java/de/codesourcery/springmass/simulation/SpringMassSystem.java:116-199 | iterating until hasNext is false yields the masses of the slice's cells in row-major order, each once |
| Chunking.SplitList | src/main/java/de/codesourcery/springmass/simulation/SpringMassSystem.java:738-751 | the chunks concatenate to the list; each is non-empty, at most chunkSize long, and all but the last are exactly chunkSize long |
| Chunking.FlattenSnoc | src/main/java/de/codesourcery/springmass/simulation/SpringMassSystem.java:743-749 | appending a chunk appends its elements |
| Chunking.ChunkSizeAsWrittenStalls | src/main/java/de/codesourcery/springmass/simulation/SpringMassSystem.java:659 | with fewer elements than batches the source's chunk size is 0, which splitList cannot accept |
| Chunking.ChunkSize | src/main/java/de/codesourcery/springmass/simulation/SpringMassSystem.java:659 | the corrected chunk size is at least 1 and equals the source's whenever that is positive |
| Chunking.ForEachParallel | src/main/java/de/codesourcery/springmass/simulation/SpringMassSystem.java:657-672 | run chunk by chunk, with the corrected chunk size (Findings :659), the task reaches every element once, in list order |
| Springs.AllInSubset | src/main/java/de/codesourcery/springmass/simulation/SpringMassSystem.java:524-538 | springs taken from a list of the grid's springs are springs of the grid |
| Springs.Survivors | src/main/java/de/codesourcery/springmass/simulation/SpringMassSystem.java:528-537 | the kept list is no longer than the old one |
| Springs.BrokenSprings | src/main/java/de/codesourcery/springmass/simulation/SpringMassSystem.java:528-537 | the logged list is no longer than the old one |
| Springs.BreakagePartition | src/main/java/de/codesourcery/springmass/simulation/SpringMassSystem.java:524-538 | kept and logged springs together are exactly the old springs (as multisets and in number) |
| Springs.BreakageShrinks | src/main/java/de/codesourcery/springmass/simulation/SpringMassSystem.java:524-538 | every survivor was in the list before, and survivors plus broken springs are as many as the list |
| Springs.BreakageInGrid | src/main/java/de/codesourcery/springmass/simulation/SpringMassSystem.java:524-538 | kept and logged springs join masses of the grid |
| Springs.BreakageMembership | src/main/java/de/codesourcery/springmass/simulation/SpringMassSystem.java:531 | a spring is removed iff its squared length exceeds the squared maximum and neither end is selected; it is logged iff it is removed |
| Springs.BreakageKeepsOrder | src/main/java/de/codesourcery/springmass/simulation/SpringMassSystem.java:528-537 | filtering a concatenation filters each part in place: survivors keep their order and the log is in scan order |
| Springs.MapSprings | src/main/java/de/codesourcery/springmass/simulation/SpringMassSystem.java:232-237 | the copied list has the same length, and entry i joins the copies of entry i's masses |
| Springs.MapSpringsSnoc | src/main/java/de/codesourcery/springmass/simulation/SpringMassSystem.java:232-237 | copying one more spring appends its copy |
| Springs.MapSpringsIdentity | src/main/java/de/codesourcery/springmass/simulation/SpringMassSystem.java:215-237 | through a mapping that sends each coordinate to itself, the copied list is the list itself |
| Springs.RemoveEachSnoc | src/main/java/de/codesourcery/springmass/simulation/SpringMassSystem.java:277-284 | removing one more logged spring removes its first occurrence from the result |
| Springs.RemoveEachCounts | src/main/java/de/codesourcery/springmass/simulation/SpringMassSystem.java:277-284 | removing a log takes away one occurrence per logged spring: the multiset difference |
| Springs.RemoveEachRemoves | src/main/java/de/codesourcery/springmass/simulation/SpringMassSystem.java:277-284 | in a list without repeats every logged spring is gone afterwards and every other spring stays |
| Springs.RemoveEachShrinks | src/main/java/de/codesourcery/springmass/simulation/SpringMassSystem.java:277-284 | removal never adds a spring |
| Simulation.SpringContribution | src/main/java/de/codesourcery/springmass/simulation/SpringMassSystem.java:616-623 | a spring's force is added at m1, subtracted at m2, and nothing elsewhere |
| Simulation.SpringForceUntouched | src/main/java/de/codesourcery/springmass/simulation/SpringMassSystem.java:616-623 | springs that do not touch a mass add no force to it |
| Simulation.Integrate | src/main/java/de/codesourcery/springmass/simulation/SpringMassSystem.java:635-653 | the previous position becomes the pre-update position and y ends at or above minY; mass and flags are kept |
| Simulation.MassAfter | src/main/java/de/codesourcery/springmass/simulation/SpringMassSystem.java:596-655 | a fixed or selected mass is left as it is; any other is integrated, with previous = old current and y ≥ minY |
| Simulation.PassSchedule | src/main/java/de/codesourcery/springmass/simulation/SpringMassSystem.java:391-408 | iterationCount passes run (none if it is not positive); all break springs iff maxSpringLength > 0; gravity and wind (if enabled) apply on the last pass only |
| Simulation.GridAfter | src/main/java/de/codesourcery/springmass/simulation/SpringMassSystem.java:571-594 | the grid after one application of forces keeps the grid's shape and non-zero masses |
| Simulation.GridAfterUnique | src/main/java/de/codesourcery/springmass/simulation/SpringMassSystem.java:571-594 | a grid that agrees with `MassAfter` at every mass is `GridAfter` |
| Simulation.RunPass | src/main/java/de/codesourcery/springmass/simulation/SpringMassSystem.java:393-408 | one loop turn on values, breaking springs first and then moving the masses, keeps the state well formed (same shape, non-zero masses, springs between masses of the grid) |
| Simulation.RunFrom | src/main/java/de/codesourcery/springmass/simulation/SpringMassSystem.java:391-408 | the passes from count down to 1 keep the state well formed |
| Simulation.RunPassKeeps | src/main/java/de/codesourcery/springmass/simulation/SpringMassSystem.java:393-408 | one pass keeps flags, fixed and selected masses, moves springs only into the log (same total length), leaves every other mass at y ≥ minY, and touches no spring when the pass does not break springs |
| Simulation.RunFromKeeps | src/main/java/de/codesourcery/springmass/simulation/SpringMassSystem.java:391-408 | a whole step keeps flags and fixed or selected masses, moves springs only into the log, leaves every other mass at y ≥ minY after at least one pass, and with maxSpringLength ≤ 0 leaves the springs and the log alone; with no passes it changes nothing |
| Simulation.SpringMassSystem.constructor | src/main/java/de/codesourcery/springmass/simulation/SpringMassSystem.java:290-315 | a system over the given grid with no springs, an empty log and a fresh wind simulator whose state is `Wind.InitialState` of the wind parameters and the draw |
| Simulation.SpringMassSystem.AddSpring | src/main/java/de/codesourcery/springmass/simulation/SpringMassSystem.java:359-362 | appends the spring to the list and changes nothing else |
| Simulation.SpringMassSystem.RemoveBrokenSprings | src/main/java/de/codesourcery/springmass/simulation/SpringMassSystem.java:524-538 | the list becomes its survivors and the log gains the broken springs in scan order; every remaining spring was there before and list plus log keep their total length; the grid is unchanged |
| Simulation.ScanBroken | src/main/java/de/codesourcery/springmass/simulation/SpringMassSystem.java:528-537 | the scan keeps exactly the survivors and drops exactly the broken springs, each list in scan order |
| Simulation.SpringMassSystem.SolveConstraints | src/main/java/de/codesourcery/springmass/simulation/SpringMassSystem.java:540-569 | with the corrected chunk size (Findings :659), every spring's force is computed once, on the current grid, in list order |
| Simulation.SpringMassSystem.GetNearestMass | src/main/java/de/codesourcery/springmass/simulation/SpringMassSystem.java:336-353 | null iff every mass is farther than the maximum; otherwise a mass at the least squared distance, strictly nearer than every mass scanned before it (y outer, x inner) |
| Simulation.NearestInRow | src/main/java/de/codesourcery/springmass/simulation/SpringMassSystem.java:342-350 | after scanning row y the candidate is a nearest mass of rows 0..y and strictly nearer than every mass scanned before it |
| Simulation.SpringMassSystem.ApplyForcesTo | src/main/java/de/codesourcery/springmass/simulation/SpringMassSystem.java:596-655 | the masses of one slice become their MassAfter values; every other mass and every other field is unchanged |
| Simulation.PassOverSlice | src/main/java/de/codesourcery/springmass/simulation/SpringMassSystem.java:596-655 | the iterator loop leaves each mass of the slice at its MassAfter value and every other mass as it was |
| Simulation.VisitNext | src/main/java/de/codesourcery/springmass/simulation/SpringMassSystem.java:609-653 | one turn of the iterator loop advances the iterator by exactly one cell and extends the finished part of the slice by that cell |
| Simulation.IntegrateMass | src/main/java/de/codesourcery/springmass/simulation/SpringMassSystem.java:616-653 | the loop body for one movable mass computes its MassAfter value from the neighbours the iterator handed out |
| Simulation.SumSpringForces | src/main/java/de/codesourcery/springmass/simulation/SpringMassSystem.java:615-623 | the sum of the spring contributions at one mass |
| Simulation.SpringMassSystem.ApplyForces | src/main/java/de/codesourcery/springmass/simulation/SpringMassSystem.java:571-594 | after all slices, every mass of the grid is its MassAfter value of the grid before the pass |
| Simulation.SpringMassSystem.Step | src/main/java/de/codesourcery/springmass/simulation/SpringMassSystem.java:381-416 | the wind state becomes `Wind.StepState` of the old one, and the wind force of every pass is `WindOf` that new state (the wind steps at :389 before `applyForces` reads `getCurrentWindVector` at :601); the grid, springs and log become `RunFrom` of the old ones: the iterationCount passes of `PassAt` run from count = iterationCount down to 1, each dropping broken springs and then moving every mass; the log records exactly those passes; fixed and selected masses are unchanged; after at least one pass every other mass has y ≥ minY; springs only leave the list, each into the log; without a positive maximum length nothing breaks |
| Simulation.SpringMassSystem.Iterate | src/main/java/de/codesourcery/springmass/simulation/SpringMassSystem.java:391-408 | one turn of the loop is `RunPass` of the pass at count: the springs become the survivors on the grid before the pass (when springs can break), the log gains the broken ones in scan order, and the grid becomes `GridAfter` of the old grid under the surviving springs with gravity and wind only when count is 1; it logs that pass; flags never change and fixed or selected masses keep their state; every other mass ends at y ≥ minY |
| Simulation.SpringMassSystem.CreateCopy | src/main/java/de/codesourcery/springmass/simulation/SpringMassSystem.java:202-244 | a fresh system over an equal grid; the mapping covers exactly the grid's coordinates, sends each to the same coordinate and is injective; the copy's springs are the springs mapped, in the same order; the copy points back to the original and its wind state equals the original's |
| Simulation.CopyGrid | src/main/java/de/codesourcery/springmass/simulation/SpringMassSystem.java:207-224 | the copied grid equals the original and the mapping covers exactly the grid's coordinates, sending each to itself |
| Simulation.SpringMassSystem.UpdateFromOriginal | src/main/java/de/codesourcery/springmass/simulation/SpringMassSystem.java:246-288 | every copy mass takes the original's position and flags (keeping its previous position and mass); the original's log is emptied; the copy's springs lose the mapped counterpart of each drained spring; with an empty log the springs are unchanged, so a second call removes nothing |
| Simulation.RemoveMapped | src/main/java/de/codesourcery/springmass/simulation/SpringMassSystem.java:277-284 | the removal loop removes the first occurrence of each mapped logged spring |
| Simulation.SyncGrid | src/main/java/de/codesourcery/springmass/simulation/SpringMassSystem.java:256-264 | the copy loop gives each clone the original's position and flags |
| Simulation.SameShapeAllIn | src/main/java/de/codesourcery/springmass/simulation/SpringMassSystem.java:256-264 | springs of one grid are springs of any grid of the same size |
| Simulation.SliceDoneWrite | src/main/java/de/codesourcery/springmass/simulation/SpringMassSystem.java:608-653 | integrating one more cell of the slice extends the processed prefix |
| Simulation.SliceDoneSkip | src/main/java/de/codesourcery/springmass/simulation/SpringMassSystem.java:611-613 | skipping a fixed or selected cell extends the processed prefix |
| Simulation.CoveredSnoc | src/main/java/de/codesourcery/springmass/simulation/SpringMassSystem.java:679-682 | after one more slice, a cell is covered iff it was covered or lies in the new slice |
| Legacy.ColumnsLength | src/main/java/de/codesourcery/springmass/springmass/SpringMassSystem.java:43-49 | the list of masses has cols·rows entries |
| Legacy.ColumnsAt | src/main/java/de/codesourcery/springmass/springmass/SpringMassSystem.java:43-49 | the mass of column x, row y sits at position x·rows + y (x outer, y inner) |
| Legacy.ColumnsIn | src/main/java/de/codesourcery/springmass/springmass/SpringMassSystem.java:43-49 | every listed mass is a mass of the grid |
| Legacy.ListMasses | src/main/java/de/codesourcery/springmass/springmass/SpringMassSystem.java:43-49 | the constructor's loops build the column-by-column list |
| Legacy.SpringMassSystem.constructor | src/main/java/de/codesourcery/springmass/springmass/SpringMassSystem.java:40-50 | `masses` is the grid listed column by column (Columns, so mass (x, y) sits at x·rows + y by ColumnsAt) and has cols·rows entries |
| Legacy.Direct | src/main/java/de/codesourcery/springmass/springmass/SpringMassSystem.java:280-290 | every result names a mass of the list, carrying that mass's neighbour force |
| Legacy.DirectAppend | src/main/java/de/codesourcery/springmass/springmass/SpringMassSystem.java:272-275 | the results for two halves, concatenated, are the results for the whole |
| Legacy.DirectContents | src/main/java/de/codesourcery/springmass/springmass/SpringMassSystem.java:280-290 | a mass has a result iff it is in the list and neither fixed nor selected |
| Legacy.DirectDistinct | src/main/java/de/codesourcery/springmass/springmass/SpringMassSystem.java:280-290 | a list without repeated masses gives results without repeated masses |
| Legacy.Compute | src/main/java/de/codesourcery/springmass/springmass/SpringMassSystem.java:262-278 | the divide-and-conquer task returns the same sequence as computeDirectly on the whole list: the movable masses in list order; with the correction of Findings :264-275 it computes a list of fewer than two masses directly, so it terminates for every batch size |
| Legacy.ComputeStallsBelowTwo | src/main/java/de/codesourcery/springmass/springmass/SpringMassSystem.java:264-275 | with a batch size of at most 1, a task of at most one mass is split and its second subtask is the task itself |
| Legacy.ComputeDirectly | src/main/java/de/codesourcery/springmass/springmass/SpringMassSystem.java:280-290 | the loop returns the in-order results for the movable masses |
| Legacy.Update | src/main/java/de/codesourcery/springmass/springmass/SpringMassSystem.java:153-172 | one mass's update: previous becomes the old current, y ends at most at yResolution, mass and flags are kept |
| Legacy.ApplyResults | src/main/java/de/codesourcery/springmass/springmass/SpringMassSystem.java:150-173 | applying results keeps the set of masses and every mass's mass and flags |
| Legacy.ApplyResultsElsewhere | src/main/java/de/codesourcery/springmass/springmass/SpringMassSystem.java:150-173 | a mass without a result keeps its state |
| Legacy.ApplyResultsOnce | src/main/java/de/codesourcery/springmass/springmass/SpringMassSystem.java:150-173 | a mass with exactly one result is updated once, from its state before the step |
| Legacy.ApplyAll | src/main/java/de/codesourcery/springmass/springmass/SpringMassSystem.java:150-173 | the loop over the task results applies them one after the other |
| Legacy.StepFacts | src/main/java/de/codesourcery/springmass/springmass/SpringMassSystem.java:131-174 | fixed and selected masses keep their state; with no mass listed twice, every movable mass gets previous = old current and y ≤ yResolution |
| Legacy.RemoveFromBoth | src/main/java/de/codesourcery/springmass/springmass/SpringMassSystem.java:101-105 | only the two endpoints' lists change |
| Legacy.RemoveFromBothCounts | src/main/java/de/codesourcery/springmass/springmass/SpringMassSystem.java:101-105 | each endpoint's list loses exactly one occurrence of the spring (one list loses two when both ends are one mass) |
| Legacy.RemoveFromBothRemoves | src/main/java/de/codesourcery/springmass/springmass/SpringMassSystem.java:101-105 | a spring listed at most once at each end is in neither list afterwards |
| Legacy.AdjacencyKeys | src/main/java/de/codesourcery/springmass/springmass/SpringMassSystem.java:131-174 | moving masses does not disturb the adjacency lists' reference to existing masses |
| Legacy.RemoveKeepsAdjacency | src/main/java/de/codesourcery/springmass/springmass/SpringMassSystem.java:101-105 | removing a spring from a list keeps every list's springs among the masses |
| Legacy.SpringMassSystem.GetNearestMass | src/main/java/de/codesourcery/springmass/springmass/SpringMassSystem.java:57-71 | null iff every mass is farther than the maximum; otherwise the first mass in list order that attains the least squared distance |
| Legacy.SpringMassSystem.GetSprings | src/main/java/de/codesourcery/springmass/springmass/SpringMassSystem.java:92-99 | exactly the union of all masses' adjacency lists |
| Legacy.SpringMassSystem.GetIntersectingSprings | src/main/java/de/codesourcery/springmass/springmass/SpringMassSystem.java:73-90 | a spring is returned iff it is in some mass's adjacency list, its endpoints' x straddle xCoordinate, and it lies within maxDistance of the point |
| Legacy.SpringMassSystem.AddSpring | src/main/java/de/codesourcery/springmass/springmass/SpringMassSystem.java:107-109 | appends the spring to m1's list only; getSprings then reports it |
| Legacy.SpringMassSystem.RemoveSpring | src/main/java/de/codesourcery/springmass/springmass/SpringMassSystem.java:101-105 | the adjacency lists become RemoveFromBoth's; nothing else changes |
| Legacy.SpringMassSystem.StepMultithreaded | src/main/java/de/codesourcery/springmass/springmass/SpringMassSystem.java:131-174 | the state becomes the task's results applied in order; fixed and selected masses never change; with no mass listed twice, every movable mass gets previous = old current and y ≤ yResolution |
| Wind.DrawnForceInRange | src/main/java/de/codesourcery/springmass/springmass/WindSimulator.java:84 | for a draw in [0,1) and minForce ≤ maxForce the desired force lies in [minForce, maxForce], below maxForce when minForce < maxForce |
| Wind.WindSimulator.constructor | src/main/java/de/codesourcery/springmass/springmass/WindSimulator.java:23-27 | its state is `InitialState`: zero fields and step count 0, then one retarget; zeroed when disabled, drawn target and increments when enabled |
| Wind.WindSimulator.Set | src/main/java/de/codesourcery/springmass/springmass/WindSimulator.java:29-42 | every state field equals the other simulator's |
| Wind.WindSimulator.Step | src/main/java/de/codesourcery/springmass/springmass/WindSimulator.java:44-56 | its state becomes `StepState` of the old state; stepCount grows by exactly 1; disabled, nothing else changes; enabled, it retargets iff the new stepCount is a multiple of stepsUntilDirectionChanged and nudges otherwise |
| Wind.WindSimulator.StepDirectionAndForce | src/main/java/de/codesourcery/springmass/springmass/WindSimulator.java:58-68 | the force moves by its increment only while more than 0.01 from the target; the direction only while its squared distance exceeds 0.0001; nothing else changes |
| Wind.WindSimulator.GenerateNewDirectionAndForce | src/main/java/de/codesourcery/springmass/springmass/WindSimulator.java:70-109 | disabled: forces, directions and increments are zeroed; enabled: the target is drawn and the increments are (desired − current)/N |
| Wind.StepsOnlyNudge | src/main/java/de/codesourcery/springmass/springmass/WindSimulator.java:44-68 | steps of an enabled simulator with no retarget among them move force and direction exactly as `ForceAfter` and `DirectionAfter` of that many nudges and change neither target nor increments |
| Wind.RetargetReached | src/main/java/de/codesourcery/springmass/springmass/WindSimulator.java:44-106 | N steps after a retarget, with no other retarget among them: the direction is within 0.0001 (squared distance) of the drawn one, and exactly the drawn one when each of the N direction increments is longer than the tolerance; the force is exactly the drawn force when it was more than 0.01·N away |
| Wind.LerpFacts | src/main/java/de/codesourcery/springmass/springmass/WindSimulator.java:85 | c0 + j·(d − c0)/N lies between c0 and d for 0 ≤ j ≤ N and reaches d at j = N |
| Wind.ForceSettled | src/main/java/de/codesourcery/springmass/springmass/WindSimulator.java:60-63 | once within tolerance the force no longer moves |
| Wind.ForceConverges | src/main/java/de/codesourcery/springmass/springmass/WindSimulator.java:58-68 | after a retarget the force stays between its start and the target (no overshoot) and is within 0.01 of it after N nudges |
| Wind.ForceReachesTarget | src/main/java/de/codesourcery/springmass/springmass/WindSimulator.java:58-68 | when the target is farther than 0.01·N, the force equals the target exactly after N nudges |
| Wind.ScaledSquare | src/main/java/de/codesourcery/springmass/springmass/WindSimulator.java:64 | the squared distance scales with the square of the factor |
| Wind.LerpComponentBetween | src/main/java/de/codesourcery/springmass/springmass/WindSimulator.java:102-106 | one component of the interpolated direction lies between start and target |
| Wind.LerpComponent | src/main/java/de/codesourcery/springmass/springmass/WindSimulator.java:102-106 | after j of n equal steps one component of the interpolated direction is exactly n - j steps short of the target |
| Wind.LerpDirectionStep | src/main/java/de/codesourcery/springmass/springmass/WindSimulator.java:102-106 | adding the step to the j-th interpolated direction gives the (j + 1)-th |
| Wind.LerpDirectionFacts | src/main/java/de/codesourcery/springmass/springmass/WindSimulator.java:102-106 | the interpolated direction lies between start and target componentwise and its distance to the target shrinks with j |
| Wind.DirectionSettled | src/main/java/de/codesourcery/springmass/springmass/WindSimulator.java:64-67 | once within tolerance the direction no longer moves |
| Wind.DirectionConverges | src/main/java/de/codesourcery/springmass/springmass/WindSimulator.java:58-68 | after a retarget the direction stays componentwise between its start and the target and is within 0.0001 (squared distance) after N nudges |
| Wind.DirectionReachesTarget | src/main/java/de/codesourcery/springmass/springmass/WindSimulator.java:58-68 | when each of the N equal direction increments is longer than the tolerance (squared length above 0.0001), no nudge is skipped and the direction equals the target exactly after N nudges |

## Left out

- Floating point: vectors and forces are reals. Rounding, overflow, NaN and infinities are not modelled, nor is the float division by a zero step count in the wind.
- The speed clamp (`clampMagnitudeInPlace` in both engines) needs a square root and is left out. The positions it would shorten are therefore not those of the program.
- The spring force (`Spring.calcForce`) and the older engine's `Mass.calculateNeighbourForces` are function parameters. So is the wind force on a mass: `getCurrentWindVector` followed by `calculateWindForce` (normalisation and cross products) is a parameter `windFor` of the wind's current direction and force, which `Step` applies to the wind state it has just advanced.
- The newer engine refers to `WindSimulator` by its unqualified name, that is, a class of its own package `de.codesourcery.springmass.simulation`. That class is not part of this model; `springmass/WindSimulator.java` stands in for it.
- The newer engine's constructor sizes its work queue as `forkJoinBatchCount * 2`, which throws `IllegalArgumentException` when `ceil(cpuCount * loadFactor)` is 0 or less (simulation/SpringMassSystem.java:303). The model has no constructor failure: `Valid` and the constructor require `batchCount >= 1` instead.
- Wind.WindSimulator.Step: when the wind is enabled, the requires `stepsUntilDirectionChanged != 0` excludes Java's `ArithmeticException` from `stepCount % 0` (WindSimulator.java:49); the thrown exception is not modelled.
- `java.util.Random` and `SphericalCoordinates.toUnitVector` are replaced by a `Draw` value: a force draw and a unit direction.
- `calculateNormals` and `calculateAveragedNormal` compute vectors with cross products and normalisation. Only the cells they read are modelled (`NormalReadsAt`).
- Threads, `ThreadPoolExecutor`, `CountDownLatch`, the fork/join pool, `ReentrantLock`, `synchronized`, lock timeouts and `destroy` are left out. Tasks run one after the other. A pass of `applyForces` reads the grid as it was before the pass. The source's tasks may see neighbours already moved by another thread; that race is not modelled.
- The newer engine keeps each mass's own spring list (`mass.springs`), maintained by the unseen `Mass` and `Spring` classes. The model derives a mass's springs from the system's spring list instead.
- `Mass`, `Spring`, `Vector3`, `Vector4`, `VectorUtils`, `SimulationParameters` and `WindParameters` are not part of this model beyond the fields read. `copyPositionAndFlagsFrom` is taken to copy the current position and the fixed and selected flags. `createCopyWithoutSprings` is taken to copy the whole mass state. `Mass.addSpring` is taken to append to that mass's list.
- Masses have non-zero mass, and the newer engine's integration time step is non-zero. Division by zero is outside the model.
- `stepSingleThreaded` in the older engine is never called by `step`, which calls `stepMultithreaded`.
- `RenderPanel` (drawing, frame pacing, lighting) and all logging are left out.
- Java's 32-bit `int` wrap-around of `stepCount` is not modelled; the counter is unbounded.
- `SpringMassSystem.solveConstraints` stores each spring's force in the spring for `applyForces` to read. The model computes the forces (`SolveConstraints`) but `MassAfter` recomputes `calcForce` on the same grid instead of reading them back. Both see the grid as it was before the pass, so the forces agree.
- Legacy.SpringMassSystem.StepMultithreaded: the previous-position and yResolution guarantees are stated only when no mass is listed twice. A mass listed twice is updated twice, and only its last update is described by `ApplyResults`.

## Findings

| source | as written | input that shows it | evidently intended | confidence | as-written member | corrected member |
|---|---|---|---|---|---|---|
| src/main/java/de/codesourcery/springmass/simulation/SpringMassSystem.java:717 | `isAtRightEdge = x + horizRest >= xEnd` is never true for a full-width tile. When the column count is a multiple of the tile side there is no remainder tile, so the last column tile is unflagged and the neighbour iterator reads `array[xEnd][y]` | 2×2 grid, forkJoinBatchCount 1 (tile side 1): tile [1,2)×[0,1) is unflagged and reads column 2 | flag a tile as right edge exactly when it ends at the last column | high (not executed) | Tiling.RightEdgeAsWrittenUnsafe, Tiling.RightEdgeAsWrittenExample | Tiling.TileShape |
| src/main/java/de/codesourcery/springmass/simulation/SpringMassSystem.java:714 | `isAtBottomEdge = y + vertSize >= yEnd` flags the last full row band even when a partial band (vertRest > 0) lies below it | 1×3 grid, tile side 2: band [0,2) is flagged bottom edge although row 2 exists, so its bottom neighbours are reported as null | flag a band as bottom edge exactly when it ends at the last row | medium (not executed) | Tiling.BottomEdgeAsWrittenHidesNeighbour | Tiling.TileShape |
| src/main/java/de/codesourcery/springmass/simulation/SpringMassSystem.java:659 | `chunkSize = data.size() / forkJoinBatchCount` is 0 when there are fewer elements than batches, and splitList's loop then never advances | 3 springs, forkJoinBatchCount 4 | a chunk size of at least 1 | high (not executed) | Chunking.ChunkSizeAsWrittenStalls | Chunking.ChunkSize |
| src/main/java/de/codesourcery/springmass/simulation/SpringMassSystem.java:452 | `calculateAveragedNormal(x, y, xEnd, yEnd)` passes the x bound for the parameter named rowCount and the y bound for columnCount | 1×3 grid, forkJoinBatchCount 4: cell (0, 1) of tile [0,1)×[0,2) reads cell (1, 1), outside the grid | pass (yEnd, xEnd) for (rowCount, columnCount) | high (not executed) | Tiling.NormalReadsAsWrittenOutsideGrid | Tiling.SliceNormalReadsInGrid |
| src/main/java/de/codesourcery/springmass/springmass/SpringMassSystem.java:264-275 | `MyTask.compute` computes directly only when `len < forkJoinBatchSize`, otherwise it splits at `len / 2`. With a batch size of at most 1, a list of at most one mass is split into an empty task and a task over the same list, so the recursion never ends | forkJoinBatchSize 1, a list of one mass: the second subtask is again the one-mass list | compute directly whenever the list has fewer than two masses or fewer than the batch size | medium (not executed) | Legacy.ComputeStallsBelowTwo | Legacy.Compute |

=== FILE: chunking.dfy ===
/**
 * Chunking of a list for parallel work (splitList and the list form of
 * forEachParallel). The worker pool is modelled as running the chunks one
 * after the other, in order.
 */
module Chunking {

  /** The chunks put back together, in order. */
  function Flatten<T>(chunks: seq<seq<T>>): seq<T> {
    if chunks == [] then [] else Flatten(chunks[..|chunks| - 1]) + chunks[|chunks| - 1]
  }

  lemma FlattenSnoc<T>(chunks: seq<seq<T>>, c: seq<T>)
    ensures Flatten(chunks + [c]) == Flatten(chunks) + c
  {
    assert (chunks + [c])[..|chunks|] == chunks;
  }

  /**
   * splitList: cuts the list into consecutive chunks of chunkSize elements,
   * the last one possibly shorter. With chunkSize < 1 and a non-empty list
   * the source's loop never advances, so that case is excluded.
   */
  method SplitList<T>(list: seq<T>, chunkSize: int) returns (chunks: seq<seq<T>>)
    requires chunkSize >= 1 || |list| == 0
    ensures Flatten(chunks) == list
    ensures forall i :: 0 <= i < |chunks| ==> 0 < |chunks[i]| <= chunkSize
    ensures forall i :: 0 <= i < |chunks| - 1 ==> |chunks[i]| == chunkSize
  {
    chunks := [];
    var listSize := |list|;
    var currentIndex := 0;
    while currentIndex < listSize
      invariant 0 <= currentIndex
      invariant currentIndex < listSize ==> Flatten(chunks) == list[..currentIndex]
      invariant currentIndex >= listSize ==> Flatten(chunks) == list
      invariant forall i :: 0 <= i < |chunks| ==> 0 < |chunks[i]| <= chunkSize
      invariant forall i :: 0 <= i < |chunks| - 1 ==> |chunks[i]| == chunkSize
      invariant currentIndex < listSize ==> forall i :: 0 <= i < |chunks| ==> |chunks[i]| == chunkSize
      decreases listSize - currentIndex
    {
      var end := currentIndex + chunkSize;
      if end > listSize {
        end := listSize;
      }
      FlattenSnoc(chunks, list[currentIndex..end]);
      assert list[..end] == list[..currentIndex] + list[currentIndex..end];
      assert end == listSize ==> list[..end] == list;
      chunks := chunks + [list[currentIndex..end]];
      currentIndex := currentIndex + chunkSize;
    }
  }

  /** The chunk size forEachParallel computes (line 659): size / forkJoinBatchCount. */
  function ChunkSizeAsWritten(size: nat, batchCount: int): int
    requires batchCount >= 1
  {
    size / batchCount
  }

  /**
   * With fewer elements than batches the chunk size is 0, which splitList
   * cannot accept: its loop would add empty chunks forever.
   */
  lemma ChunkSizeAsWrittenStalls(size: nat, batchCount: int)
    requires 0 < size < batchCount
    ensures ChunkSizeAsWritten(size, batchCount) == 0
    ensures !(ChunkSizeAsWritten(size, batchCount) >= 1 || size == 0)
  {
  }

  /** The chunk size raised to at least 1; unchanged whenever the source's is positive. */
  function ChunkSize(size: nat, batchCount: int): (r: int)
    requires batchCount >= 1
    ensures r >= 1
    ensures ChunkSizeAsWritten(size, batchCount) >= 1 ==> r == ChunkSizeAsWritten(size, batchCount)
  {
    var c := size / batchCount;
    if c < 1 then 1 else c
  }

  /**
   * forEachParallel over a list with each task applying `f` to its chunk:
   * run sequentially, chunk by chunk, the results are exactly `f` applied to
   * every element in list order, so the chunk boundaries do not matter.
   */
  method ForEachParallel<T, R>(data: seq<T>, batchCount: int, f: T -> R) returns (out: seq<R>)
    requires batchCount >= 1
    ensures |out| == |data|
    ensures forall i :: 0 <= i < |data| ==> out[i] == f(data[i])
  {
    var chunkSize := ChunkSize(|data|, batchCount);
    var chunks := SplitList(data, chunkSize);
    out := [];
    var i := 0;
    while i < |chunks|
      invariant 0 <= i <= |chunks|
      invariant |out| == |Flatten(chunks[..i])|
      invariant forall j :: 0 <= j < |out| ==> out[j] == f(Flatten(chunks[..i])[j])
    {
      var chunk := chunks[i];
      var done := Flatten(chunks[..i]);
      var j := 0;
      while j < |chunk|
        invariant 0 <= j <= |chunk|
        invariant |out| == |done| + j
        invariant forall k :: 0 <= k < |out| ==> out[k] == f((done + chunk)[k])
      {
        out := out + [f(chunk[j])];
        j := j + 1;
      }
      assert chunks[..i + 1] == chunks[..i] + [chunk];
      FlattenSnoc(chunks[..i], chunk);
      i := i + 1;
    }
    assert chunks[..i] == chunks;
  }
}

=== FILE: common.dfy ===
/**
 * Values shared by every part of the model: an optional value (Java's
 * nullable reference), three-component vectors over the reals (the
 * simulation's Vector3/Vector4 without floating point), removal of the
 * first equal element of a list (java.util.List.remove(Object)) and
 * two facts about Euclidean division that index arithmetic needs.
 */
module Common {

  datatype Option<T> = None | Some(value: T)

  /** A 3D vector; reals stand in for the source's float/double. */
  datatype Vec3 = Vec3(x: real, y: real, z: real)

  const Zero: Vec3 := Vec3(0.0, 0.0, 0.0)

  function Add(a: Vec3, b: Vec3): Vec3 { Vec3(a.x + b.x, a.y + b.y, a.z + b.z) }

  function Sub(a: Vec3, b: Vec3): Vec3 { Vec3(a.x - b.x, a.y - b.y, a.z - b.z) }

  function Scale(a: Vec3, k: real): Vec3 { Vec3(a.x * k, a.y * k, a.z * k) }

  function Dot(a: Vec3, b: Vec3): real { a.x * b.x + a.y * b.y + a.z * b.z }

  /** Squared Euclidean distance (Vector3.dst2). */
  function SquaredDistance(a: Vec3, b: Vec3): real { Dot(Sub(a, b), Sub(a, b)) }

  /** The position of the first element equal to `x` (java.util.List.indexOf). */
  function IndexOf<T(==)>(xs: seq<T>, x: T): (i: nat)
    requires x in xs
    ensures i < |xs| && xs[i] == x && x !in xs[..i]
  {
    if xs[0] == x then 0
    else
      assert xs == [xs[0]] + xs[1..];
      1 + IndexOf(xs[1..], x)
  }

  /**
   * Removes the first element equal to `x`, as java.util.List.remove(Object):
   * find its first position, then drop the element there, keeping the rest
   * in order.
   */
  function RemoveFirst<T(==)>(xs: seq<T>, x: T): (r: seq<T>)
    ensures x !in xs ==> r == xs
    ensures x in xs ==> exists i :: 0 <= i < |xs| && xs[i] == x && x !in xs[..i] && r == xs[..i] + xs[i + 1..]
    ensures x in xs ==> |r| == |xs| - 1
    ensures multiset(r) == multiset(xs) - multiset{x}
  {
    if x in xs then
      var i := IndexOf(xs, x);
      RemoveAtCount(xs, i);
      xs[..i] + xs[i + 1..]
    else xs
  }

  /** Dropping the element at i takes exactly that element away from the multiset. */
  lemma RemoveAtCount<T>(xs: seq<T>, i: nat)
    requires i < |xs|
    ensures multiset(xs[..i] + xs[i + 1..]) == multiset(xs) - multiset{xs[i]}
  {
    assert xs == xs[..i] + [xs[i]] + xs[i + 1..];
  }

  /** Taking away B and then one more element x takes away B plus x. */
  lemma SubtractInTurn<T>(r: multiset<T>, before: multiset<T>, a: multiset<T>, b: multiset<T>, bx: multiset<T>, x: T)
    requires r == before - multiset{x} && before == a - b && bx == b + multiset{x}
    ensures r == a - bx
  {
    forall y
      ensures r[y] == (a - bx)[y]
    {
    }
  }

  /** Number of occurrences of `x` in `xs`. */
  function Occurrences<T(==)>(xs: seq<T>, x: T): nat { multiset(xs)[x] }

  /** Removing the only occurrence leaves none behind. */
  lemma RemoveFirstOnly<T>(xs: seq<T>, x: T)
    requires Occurrences(xs, x) <= 1
    ensures x !in RemoveFirst(xs, x)
    ensures forall y :: y != x ==> Occurrences(RemoveFirst(xs, x), y) == Occurrences(xs, y)
  {
    var r := RemoveFirst(xs, x);
    assert multiset(r)[x] == 0;
  }

  /** Quotient and remainder of q*d + r by d, for 0 <= r < d. */
  lemma DivModOf(q: int, r: int, d: int)
    requires d > 0 && 0 <= r < d
    ensures (q * d + r) / d == q && (q * d + r) % d == r
  {
    var n := q * d + r;
    var q', r' := n / d, n % d;
    assert q' * d + r' == q * d + r;
    assert (q' - q) * d == r - r' by {
      assert q' * d - q * d == (q' - q) * d;
    }
    if q' > q {
      AtLeastOnce(q' - q, d);
    } else if q' < q {
      AtLeastOnce(q - q', d);
    }
  }

  lemma {:induction false} AtLeastOnce(a: int, d: int)
    requires a >= 1 && d > 0
    ensures a * d >= d
  {
    assert a * d == (a - 1) * d + d;
    if a > 1 { AtLeastOnce(a - 1, d); }
  }
}

=== FILE: legacy.dfy ===
/**
 * The older engine (springmass.SpringMassSystem). Masses are objects with
 * their own adjacency lists; here a mass is an identity (MassId), its
 * state lives in the map `state` and its adjacency list in `springsOf`.
 * A spring is identified by its two endpoint masses.
 *
 * The force a mass feels from its neighbours (Mass.calculateNeighbourForces)
 * and the distance of a point to a spring (Spring.distanceTo) are inputs.
 * The fork/join pool runs its two subtasks one after the other.
 */
module Legacy {
  import opened Common

  type MassId = int

  datatype MassState = MassState(current: Vec3, previous: Vec3, mass: real, fixed: bool, selected: bool)

  datatype Spring = Spring(m1: MassId, m2: MassId)

  /** A mass and the force on it, as computed by a fork/join task. */
  datatype TaskResult = TaskResult(m: MassId, sumForces: Vec3)

  /** The SimulationParameters the older engine reads. */
  datatype Params = Params(cols: nat, rows: nat, gravity: real, yResolution: real, forkJoinBatchSize: int)

  type State = map<MassId, MassState>

  /** Mass.calculateNeighbourForces, evaluated on the state before the step. */
  type ForceFn = MassId -> Vec3

  /** stepMultithreaded's time step (deltaT = 6) squared. */
  const DeltaTSquared: real := 36.0

  predicate IsGrid(g: seq<seq<MassId>>, cols: int, rows: int) {
    |g| == cols && forall x :: 0 <= x < cols ==> |g[x]| == rows
  }

  // ---------------------------------------------------------------------
  // The list of masses

  /** The grid's columns one after the other: x outer, y inner. */
  function Columns(g: seq<seq<MassId>>): seq<MassId> {
    if g == [] then [] else Columns(g[..|g| - 1]) + g[|g| - 1]
  }

  lemma {:induction false} ColumnsLength(g: seq<seq<MassId>>, cols: nat, rows: nat)
    requires IsGrid(g, cols, rows)
    ensures |Columns(g)| == cols * rows
  {
    if cols > 0 {
      ColumnsLength(g[..cols - 1], cols - 1, rows);
      assert (cols - 1) * rows + rows == cols * rows;
    }
  }

  /** The mass of column x, row y sits at position x * rows + y of the list. */
  lemma {:induction false} ColumnsAt(g: seq<seq<MassId>>, cols: nat, rows: nat, x: int, y: int)
    requires IsGrid(g, cols, rows) && 0 <= x < cols && 0 <= y < rows
    ensures |Columns(g)| == cols * rows
    ensures 0 <= x * rows + y < cols * rows
    ensures Columns(g)[x * rows + y] == g[x][y]
  {
    var init := g[..cols - 1];
    ColumnsLength(g, cols, rows);
    ColumnsLength(init, cols - 1, rows);
    assert (cols - 1) * rows + rows == cols * rows;
    assert Columns(g) == Columns(init) + g[cols - 1];
    if x < cols - 1 {
      ColumnsAt(init, cols - 1, rows, x, y);
    } else {
      assert x * rows + y == |Columns(init)| + y;
    }
  }

  // ---------------------------------------------------------------------
  // MyTask: the forces on all movable masses

  predicate InState(ms: seq<MassId>, st: State) {
    forall i :: 0 <= i < |ms| ==> ms[i] in st
  }

  /** Only masses that are neither fixed nor selected move. */
  predicate Movable(st: State, m: MassId)
    requires m in st
  {
    !st[m].fixed && !st[m].selected
  }

  /** computeDirectly's result: a TaskResult for every movable mass, in list order. */
  function Direct(ms: seq<MassId>, st: State, force: ForceFn): (r: seq<TaskResult>)
    requires InState(ms, st)
    ensures forall i :: 0 <= i < |r| ==> r[i].m in ms && r[i].m in st && r[i].sumForces == force(r[i].m)
  {
    if ms == [] then []
    else
      var last := ms[|ms| - 1];
      Direct(ms[..|ms| - 1], st, force) + (if Movable(st, last) then [TaskResult(last, force(last))] else [])
  }

  function Masses(rs: seq<TaskResult>): seq<MassId> {
    seq(|rs|, i requires 0 <= i < |rs| => rs[i].m)
  }

  /** Two lists of masses with a state together are a list of masses with a state. */
  lemma InStateAppend(a: seq<MassId>, b: seq<MassId>, st: State)
    requires InState(a, st) && InState(b, st)
    ensures InState(a + b, st)
  {
    forall i | 0 <= i < |a + b|
      ensures (a + b)[i] in st
    {
      if i < |a| {
        assert (a + b)[i] == a[i];
      } else {
        assert (a + b)[i] == b[i - |a|];
      }
    }
  }

  /** Computing the two halves and concatenating gives the result for the whole. */
  lemma {:induction false} DirectAppend(a: seq<MassId>, b: seq<MassId>, st: State, force: ForceFn)
    requires InState(a, st) && InState(b, st)
    ensures InState(a + b, st)
    ensures Direct(a + b, st, force) == Direct(a, st, force) + Direct(b, st, force)
  {
    InStateAppend(a, b, st);
    if b == [] {
      assert a + b == a;
    } else {
      var init, last := b[..|b| - 1], b[|b| - 1];
      assert InState(init, st);
      DirectAppend(a, init, st, force);
      var ab := a + b;
      assert ab[..|ab| - 1] == a + init && ab[|ab| - 1] == last;
      var extra := if Movable(st, last) then [TaskResult(last, force(last))] else [];
      assert Direct(ab, st, force) == Direct(a + init, st, force) + extra;
      assert Direct(b, st, force) == Direct(init, st, force) + extra;
    }
  }

  /** The results are for exactly the movable masses of the list. */
  lemma {:induction false} DirectContents(ms: seq<MassId>, st: State, force: ForceFn, m: MassId)
    requires InState(ms, st)
    ensures m in Masses(Direct(ms, st, force)) <==> m in ms && Movable(st, m)
  {
    if ms != [] {
      var init, last := ms[..|ms| - 1], ms[|ms| - 1];
      DirectContents(init, st, force, m);
      var d := Direct(ms, st, force);
      var extra := if Movable(st, last) then [TaskResult(last, force(last))] else [];
      assert d == Direct(init, st, force) + extra;
      assert Masses(d) == Masses(Direct(init, st, force)) + Masses(extra);
      assert ms == init + [last];
      assert m in ms <==> m in init || m == last;
      if Movable(st, last) {
        assert Masses(extra) == [last];
      } else {
        assert Masses(extra) == [];
      }
    }
  }

  /** A list without repeated masses gives results without repeated masses. */
  lemma {:induction false} DirectDistinct(ms: seq<MassId>, st: State, force: ForceFn)
    requires InState(ms, st)
    requires forall i, j :: 0 <= i < j < |ms| ==> ms[i] != ms[j]
    ensures forall i, j :: 0 <= i < j < |Direct(ms, st, force)| ==>
              Direct(ms, st, force)[i].m != Direct(ms, st, force)[j].m
  {
    if ms != [] {
      var init, last := ms[..|ms| - 1], ms[|ms| - 1];
      DirectDistinct(init, st, force);
      var d0 := Direct(init, st, force);
      if Movable(st, last) {
        forall i | 0 <= i < |d0|
          ensures d0[i].m != last
        {
          DirectContents(init, st, force, d0[i].m);
          assert d0[i].m in Masses(d0) by { assert Masses(d0)[i] == d0[i].m; }
        }
      }
    }
  }

  /**
   * MyTask.compute: below the batch size the list is computed directly;
   * otherwise it is split in half and the two results are concatenated.
   * The outcome is the direct computation over the whole list. A list of
   * fewer than two masses is also computed directly: splitting it would
   * make no progress (ComputeStallsBelowTwo).
   */
  function Compute(ms: seq<MassId>, batchSize: int, st: State, force: ForceFn): (r: seq<TaskResult>)
    requires InState(ms, st)
    ensures r == Direct(ms, st, force)
    decreases |ms|
  {
    if |ms| < batchSize || |ms| < 2 then Direct(ms, st, force)
    else
      var split := |ms| / 2;
      assert ms == ms[..split] + ms[split..];
      DirectAppend(ms[..split], ms[split..], st, force);
      Compute(ms[..split], batchSize, st, force) + Compute(ms[split..], batchSize, st, force)
  }

  /**
   * As written (a split whenever |ms| >= batchSize), a batch size of at
   * most 1 splits a task of at most one mass, and its second subtask is the
   * task itself: the recursion never ends.
   */
  lemma ComputeStallsBelowTwo(ms: seq<MassId>, batchSize: int)
    requires batchSize <= 1 && batchSize <= |ms| <= 1
    ensures !(|ms| < batchSize) && ms[|ms| / 2..] == ms
  {
  }

  /** computeDirectly(): the loop over the task's masses. */
  method ComputeDirectly(ms: seq<MassId>, st: State, force: ForceFn) returns (result: seq<TaskResult>)
    requires InState(ms, st)
    ensures result == Direct(ms, st, force)
  {
    result := [];
    for i := 0 to |ms|
      invariant result == Direct(ms[..i], st, force)
    {
      assert ms[..i + 1][..i] == ms[..i];
      var m := ms[i];
      if !st[m].fixed && !st[m].selected {
        result := result + [TaskResult(m, force(m))];
      }
    }
    assert ms[..|ms|] == ms;
  }

  // ---------------------------------------------------------------------
  // Applying the results

  /** new Vector4(0, 1, 0).multiply(gravity): screen y grows downwards. */
  function GravityVector(p: Params): Vec3 { Vec3(0.0, p.gravity, 0.0) }

  /** The update of one mass in stepMultithreaded (speed clamp left out); y is capped at yResolution. */
  function Update(m: MassState, sumForces: Vec3, p: Params): (r: MassState)
    requires m.mass != 0.0
    ensures r.previous == m.current && r.current.y <= p.yResolution
    ensures r.mass == m.mass && r.fixed == m.fixed && r.selected == m.selected
  {
    var forces := Add(sumForces, GravityVector(p));
    var delta := Add(Sub(m.current, m.previous), Scale(forces, 1.0 / (m.mass * DeltaTSquared)));
    var next := Add(m.current, delta);
    m.(current := if next.y > p.yResolution then next.(y := p.yResolution) else next, previous := m.current)
  }

  predicate Updatable(st: State, rs: seq<TaskResult>) {
    forall i :: 0 <= i < |rs| ==> rs[i].m in st && st[rs[i].m].mass != 0.0
  }

  /** The state after applying the results one after the other. */
  function ApplyResults(st: State, rs: seq<TaskResult>, p: Params): (r: State)
    requires Updatable(st, rs)
    ensures r.Keys == st.Keys
    ensures forall m :: m in st ==> r[m].mass == st[m].mass && r[m].fixed == st[m].fixed && r[m].selected == st[m].selected
  {
    if rs == [] then st
    else
      var last := rs[|rs| - 1];
      var before := ApplyResults(st, rs[..|rs| - 1], p);
      before[last.m := Update(before[last.m], last.sumForces, p)]
  }

  /** Masses without a result keep their state. */
  lemma {:induction false} ApplyResultsElsewhere(st: State, rs: seq<TaskResult>, p: Params, m: MassId)
    requires Updatable(st, rs) && m in st && m !in Masses(rs)
    ensures ApplyResults(st, rs, p)[m] == st[m]
  {
    if rs != [] {
      var init := rs[..|rs| - 1];
      assert Masses(init) == Masses(rs)[..|rs| - 1];
      assert Masses(rs)[|rs| - 1] == rs[|rs| - 1].m;
      ApplyResultsElsewhere(st, init, p, m);
    }
  }

  /** A mass with exactly one result is updated once, from its state before the step. */
  lemma {:induction false} ApplyResultsOnce(st: State, rs: seq<TaskResult>, p: Params, k: int)
    requires Updatable(st, rs) && 0 <= k < |rs|
    requires forall i, j :: 0 <= i < j < |rs| ==> rs[i].m != rs[j].m
    ensures ApplyResults(st, rs, p)[rs[k].m] == Update(st[rs[k].m], rs[k].sumForces, p)
  {
    var init := rs[..|rs| - 1];
    if k == |rs| - 1 {
      assert rs[k].m !in Masses(init);
      ApplyResultsElsewhere(st, init, p, rs[k].m);
    } else {
      ApplyResultsOnce(st, init, p, k);
    }
  }

  /** stepMultithreaded's loop over the task results. */
  method ApplyAll(st0: State, results: seq<TaskResult>, p: Params) returns (st: State)
    requires Updatable(st0, results)
    ensures st == ApplyResults(st0, results, p)
  {
    st := st0;
    for i := 0 to |results|
      invariant st == ApplyResults(st0, results[..i], p)
    {
      assert results[..i + 1][..i] == results[..i];
      var entry := results[i];
      st := st[entry.m := Update(st[entry.m], entry.sumForces, p)];
    }
    assert results[..|results|] == results;
  }

  // ---------------------------------------------------------------------
  // Spring queries

  /** m.springs.remove(s): m's list loses the first occurrence of s; no other list changes. */
  function RemoveAt(adj: map<MassId, seq<Spring>>, m: MassId, s: Spring): (r: map<MassId, seq<Spring>>)
    requires m in adj
    ensures r.Keys == adj.Keys
    ensures multiset(r[m]) == multiset(adj[m]) - multiset{s}
    ensures forall n :: n in adj && n != m ==> r[n] == adj[n]
  {
    adj[m := RemoveFirst(adj[m], s)]
  }

  /**
   * removeSpring's effect on the adjacency lists: the first occurrence of s
   * goes from m1's list, then from m2's. No other list changes.
   */
  function RemoveFromBoth(adj: map<MassId, seq<Spring>>, s: Spring): (r: map<MassId, seq<Spring>>)
    requires s.m1 in adj && s.m2 in adj
    ensures r.Keys == adj.Keys
    ensures forall m :: m in adj && m != s.m1 && m != s.m2 ==> r[m] == adj[m]
  {
    RemoveAt(RemoveAt(adj, s.m1, s), s.m2, s)
  }

  /**
   * Each end's list loses exactly one occurrence of s (the same list loses
   * two when both ends are one mass), and nothing else.
   */
  lemma RemoveFromBothCounts(adj: map<MassId, seq<Spring>>, s: Spring)
    requires s.m1 in adj && s.m2 in adj
    ensures s.m1 != s.m2 ==>
              multiset(RemoveFromBoth(adj, s)[s.m1]) == multiset(adj[s.m1]) - multiset{s}
              && multiset(RemoveFromBoth(adj, s)[s.m2]) == multiset(adj[s.m2]) - multiset{s}
    ensures s.m1 == s.m2 ==> multiset(RemoveFromBoth(adj, s)[s.m1]) == multiset(adj[s.m1]) - multiset{s, s}
  {
    if s.m1 == s.m2 {
      RemoveFromBothSelfLoop(adj, s);
    } else {
      RemoveFromBothTwoEnds(adj, s);
    }
  }

  /** A spring from a mass to itself loses two occurrences from that mass's list. */
  lemma RemoveFromBothSelfLoop(adj: map<MassId, seq<Spring>>, s: Spring)
    requires s.m1 in adj && s.m1 == s.m2
    ensures multiset(RemoveFromBoth(adj, s)[s.m1]) == multiset(adj[s.m1]) - multiset{s, s}
  {
    var once := RemoveAt(adj, s.m1, s);
    var twice := RemoveAt(once, s.m2, s);
    SubtractInTurn(multiset(twice[s.m1]), multiset(once[s.m1]), multiset(adj[s.m1]), multiset{s}, multiset{s, s}, s);
  }

  /** A spring between two masses loses one occurrence from each end's list. */
  lemma RemoveFromBothTwoEnds(adj: map<MassId, seq<Spring>>, s: Spring)
    requires s.m1 in adj && s.m2 in adj && s.m1 != s.m2
    ensures multiset(RemoveFromBoth(adj, s)[s.m1]) == multiset(adj[s.m1]) - multiset{s}
    ensures multiset(RemoveFromBoth(adj, s)[s.m2]) == multiset(adj[s.m2]) - multiset{s}
  {
    var once := RemoveAt(adj, s.m1, s);
    assert once[s.m2] == adj[s.m2];
  }

  /** A spring listed at most once at each end is in neither list afterwards. */
  lemma RemoveFromBothRemoves(adj: map<MassId, seq<Spring>>, s: Spring)
    requires s.m1 in adj && s.m2 in adj
    requires Occurrences(adj[s.m1], s) <= 1 && Occurrences(adj[s.m2], s) <= 1
    ensures s !in RemoveFromBoth(adj, s)[s.m1] && s !in RemoveFromBoth(adj, s)[s.m2]
  {
    RemoveFromBothCounts(adj, s);
    var r := RemoveFromBoth(adj, s);
    assert multiset(r[s.m1])[s] == 0;
    assert multiset(r[s.m2])[s] == 0;
  }

  /** Every spring in some mass's adjacency list. */
  function AllSprings(masses: seq<MassId>, springsOf: map<MassId, seq<Spring>>): set<Spring> {
    set i, s | 0 <= i < |masses| && masses[i] in springsOf && s in springsOf[masses[i]] :: s
  }

  /** The endpoints' x coordinates lie on both sides of (or on) xCoordinate. */
  predicate Straddles(st: State, s: Spring, xCoordinate: real) {
    && s.m1 in st && s.m2 in st
    && ((st[s.m1].current.x <= xCoordinate && st[s.m2].current.x >= xCoordinate)
        || (st[s.m2].current.x <= xCoordinate && st[s.m1].current.x >= xCoordinate))
  }

  /** Squared distance of the mass m to pos (Mass.squaredDistanceTo). */
  function Distance(st: State, m: MassId, pos: Vec3): real
    requires m in st
  {
    SquaredDistance(st[m].current, pos)
  }

  /** The constructor's loops: x outer, y inner. */
  method ListMasses(g: seq<seq<MassId>>, cols: nat, rows: nat) returns (list: seq<MassId>)
    requires IsGrid(g, cols, rows)
    ensures list == Columns(g)
  {
    list := [];
    for x := 0 to cols
      invariant list == Columns(g[..x])
    {
      var before := list;
      for y := 0 to rows
        invariant list == before + g[x][..y]
      {
        list := list + [g[x][y]];
      }
      assert g[x][..rows] == g[x];
      assert g[..x + 1][..x] == g[..x];
    }
    assert g[..cols] == g;
  }

  /** Every mass of the list is a mass of the grid. */
  lemma {:induction false} ColumnsIn(g: seq<seq<MassId>>, cols: nat, rows: nat, st: State, adj: map<MassId, seq<Spring>>)
    requires IsGrid(g, cols, rows)
    requires forall x, y :: 0 <= x < cols && 0 <= y < rows ==> g[x][y] in st && g[x][y] in adj
    ensures forall i :: 0 <= i < |Columns(g)| ==> Columns(g)[i] in st && Columns(g)[i] in adj
  {
    if cols > 0 {
      var init := g[..cols - 1];
      ColumnsIn(init, cols - 1, rows, st, adj);
      assert Columns(g) == Columns(init) + g[cols - 1];
    }
  }

  /** Every spring of the list joins two masses that have a state. */
  predicate SpringsIn(st: State, ss: seq<Spring>) {
    forall i :: 0 <= i < |ss| ==> ss[i].m1 in st && ss[i].m2 in st
  }

  /** Every spring in an adjacency list joins two masses that have a state. */
  predicate AdjacencyIn(st: State, adj: map<MassId, seq<Spring>>) {
    forall m :: m in adj ==> SpringsIn(st, adj[m])
  }

  /** Only the keys of the state matter to AdjacencyIn. */
  lemma AdjacencyKeys(st: State, st': State, adj: map<MassId, seq<Spring>>)
    requires AdjacencyIn(st, adj) && st.Keys == st'.Keys
    ensures AdjacencyIn(st', adj)
  {
    forall m | m in adj
      ensures SpringsIn(st', adj[m])
    {
      assert SpringsIn(st, adj[m]);
    }
  }

  /** Removing a spring from one list keeps every list's springs among the masses. */
  lemma RemoveKeepsAdjacency(st: State, adj: map<MassId, seq<Spring>>, m: MassId, s: Spring)
    requires AdjacencyIn(st, adj) && m in adj
    ensures AdjacencyIn(st, RemoveAt(adj, m, s))
  {
    var smaller := RemoveAt(adj, m, s)[m];
    forall i | 0 <= i < |smaller|
      ensures smaller[i].m1 in st && smaller[i].m2 in st
    {
      assert multiset(smaller)[smaller[i]] > 0;
      assert smaller[i] in adj[m];
    }
  }

  class SpringMassSystem {
    const p: Params
    const massArray: seq<seq<MassId>>
    var masses: seq<MassId>
    var state: State
    var springsOf: map<MassId, seq<Spring>>

    ghost predicate Valid()
      reads this
    {
      && IsGrid(massArray, p.cols, p.rows)
      && masses == Columns(massArray)
      && (forall i :: 0 <= i < |masses| ==> masses[i] in state && masses[i] in springsOf)
      && (forall m :: m in state ==> state[m].mass != 0.0)
      && AdjacencyIn(state, springsOf)
    }

    /**
     * new SpringMassSystem(params, massArray): `masses` lists the grid
     * column by column, x outer and y inner.
     */
    constructor (p: Params, massArray: seq<seq<MassId>>, state: State, springsOf: map<MassId, seq<Spring>>)
      requires IsGrid(massArray, p.cols, p.rows)
      requires forall x, y :: 0 <= x < p.cols && 0 <= y < p.rows ==> massArray[x][y] in state && massArray[x][y] in springsOf
      requires forall m :: m in state ==> state[m].mass != 0.0
      requires AdjacencyIn(state, springsOf)
      ensures Valid() && this.p == p && this.massArray == massArray
      ensures this.state == state && this.springsOf == springsOf
      ensures masses == Columns(massArray) && |masses| == p.cols * p.rows
    {
      var list := ListMasses(massArray, p.cols, p.rows);
      this.p := p;
      this.massArray := massArray;
      this.state := state;
      this.springsOf := springsOf;
      masses := list;
      new;
      ColumnsIn(massArray, p.cols, p.rows, state, springsOf);
      ColumnsLength(massArray, p.cols, p.rows);
    }

    /** getNearestMass: the first mass in list order at the least squared distance, unless that exceeds the maximum. */
    method GetNearestMass(pos: Vec3, maxDistanceSquared: real) returns (r: Option<MassId>)
      requires Valid()
      ensures r.None? <==> forall i :: 0 <= i < |masses| ==> Distance(state, masses[i], pos) > maxDistanceSquared
      ensures r.Some? ==> exists k :: 0 <= k < |masses| && masses[k] == r.value && FirstNearest(k, pos)
      ensures r.Some? ==> r.value in state && Distance(state, r.value, pos) <= maxDistanceSquared
    {
      var best: Option<MassId> := None;
      ghost var bestIndex := 0;
      var closestDistance := 0.0;
      for i := 0 to |masses|
        invariant best.None? <==> i == 0
        invariant best.Some? ==> 0 <= bestIndex < i && masses[bestIndex] == best.value
        invariant best.Some? ==> closestDistance == Distance(state, best.value, pos)
        invariant best.Some? ==> forall j :: 0 <= j < i ==>
                    closestDistance <= Distance(state, masses[j], pos)
                    && (j < bestIndex ==> closestDistance < Distance(state, masses[j], pos))
      {
        var distance := Distance(state, masses[i], pos);
        if best == None || distance < closestDistance {
          best := Some(masses[i]);
          bestIndex := i;
          closestDistance := distance;
        }
      }
      r := if best == None || closestDistance > maxDistanceSquared then None else best;
      if r.Some? {
        assert FirstNearest(bestIndex, pos);
      }
    }

    /** masses[k] is at least distance to pos and every mass before it is strictly farther. */
    ghost predicate FirstNearest(k: int, pos: Vec3)
      reads this
      requires Valid() && 0 <= k < |masses|
    {
      forall j :: 0 <= j < |masses| ==>
        Distance(state, masses[k], pos) <= Distance(state, masses[j], pos)
        && (j < k ==> Distance(state, masses[k], pos) < Distance(state, masses[j], pos))
    }

    /** getSprings(): the union of all masses' adjacency lists. */
    method GetSprings() returns (result: set<Spring>)
      requires Valid()
      ensures result == AllSprings(masses, springsOf)
    {
      result := {};
      for i := 0 to |masses|
        invariant result == AllSprings(masses[..i], springsOf)
      {
        assert masses[..i + 1][..i] == masses[..i];
        result := result + set s | s in springsOf[masses[i]];
        assert result == AllSprings(masses[..i + 1], springsOf) by {
          forall s | s in AllSprings(masses[..i + 1], springsOf)
            ensures s in result
          {
            var j :| 0 <= j < i + 1 && masses[..i + 1][j] in springsOf && s in springsOf[masses[..i + 1][j]];
            if j < i {
              assert masses[..i][j] == masses[..i + 1][j];
            }
          }
          forall s | s in result
            ensures s in AllSprings(masses[..i + 1], springsOf)
          {
            if s !in AllSprings(masses[..i], springsOf) {
              assert masses[..i + 1][i] == masses[i];
            } else {
              var j :| 0 <= j < i && masses[..i][j] in springsOf && s in springsOf[masses[..i][j]];
              assert masses[..i + 1][j] == masses[..i][j];
            }
          }
        }
      }
      assert masses[..|masses|] == masses;
    }

    /**
     * getIntersectingSprings(xCoordinate, point, maxDistance): every spring
     * of an adjacency list whose endpoints straddle xCoordinate and which
     * lies within maxDistance of the point.
     */
    method GetIntersectingSprings(xCoordinate: real, point: Vec3, maxDistance: real, distanceTo: (Spring, Vec3) -> real)
      returns (result: set<Spring>)
      requires Valid()
      ensures forall s :: s in result <==>
                s in AllSprings(masses, springsOf) && Straddles(state, s, xCoordinate) && distanceTo(s, point) <= maxDistance
    {
      result := {};
      for i := 0 to |masses|
        invariant forall s :: s in result <==>
                    s in AllSprings(masses[..i], springsOf) && Straddles(state, s, xCoordinate) && distanceTo(s, point) <= maxDistance
      {
        assert masses[..i + 1][..i] == masses[..i];
        var m := masses[i];
        var adjacent := springsOf[m];
        for j := 0 to |adjacent|
          invariant forall s :: s in result <==>
                      (s in AllSprings(masses[..i], springsOf) || s in adjacent[..j])
                      && Straddles(state, s, xCoordinate) && distanceTo(s, point) <= maxDistance
        {
          var s := adjacent[j];
          if Straddles(state, s, xCoordinate) && distanceTo(s, point) <= maxDistance {
            result := result + {s};
          }
          assert adjacent[..j + 1] == adjacent[..j] + [s];
        }
        assert adjacent[..|adjacent|] == adjacent;
        forall s
          ensures s in AllSprings(masses[..i + 1], springsOf) <==> s in AllSprings(masses[..i], springsOf) || s in adjacent
        {
          if s in AllSprings(masses[..i + 1], springsOf) {
            var k :| 0 <= k < i + 1 && masses[..i + 1][k] in springsOf && s in springsOf[masses[..i + 1][k]];
            if k < i {
              assert masses[..i][k] == masses[..i + 1][k];
            }
          }
          if s in AllSprings(masses[..i], springsOf) {
            var k :| 0 <= k < i && masses[..i][k] in springsOf && s in springsOf[masses[..i][k]];
            assert masses[..i + 1][k] == masses[..i][k];
          }
          if s in adjacent {
            assert masses[..i + 1][i] == m;
          }
        }
      }
      assert masses[..|masses|] == masses;
    }

    /** addSpring(s): s.m1.addSpring(s) appends s to m1's adjacency list only. */
    method AddSpring(s: Spring)
      requires Valid() && s.m1 in springsOf && s.m1 in state && s.m2 in state
      modifies this
      ensures Valid()
      ensures springsOf == old(springsOf)[s.m1 := old(springsOf)[s.m1] + [s]]
      ensures s.m1 in masses ==> s in AllSprings(masses, springsOf)
      ensures state == old(state) && masses == old(masses)
    {
      springsOf := springsOf[s.m1 := springsOf[s.m1] + [s]];
      if s.m1 in masses {
        var i :| 0 <= i < |masses| && masses[i] == s.m1;
        assert s in springsOf[masses[i]];
      }
    }

    /** removeSpring(s): the adjacency lists become RemoveFromBoth's; nothing else changes. */
    method RemoveSpring(s: Spring)
      requires Valid() && s.m1 in springsOf && s.m2 in springsOf
      modifies this
      ensures Valid()
      ensures springsOf == RemoveFromBoth(old(springsOf), s)
      ensures state == old(state) && masses == old(masses)
    {
      var adj := springsOf;
      RemoveKeepsAdjacency(state, adj, s.m1, s);
      RemoveKeepsAdjacency(state, RemoveAt(adj, s.m1, s), s.m2, s);
      springsOf := RemoveFromBoth(adj, s);
    }

    /**
     * stepMultithreaded(): the fork/join task computes the forces on all
     * movable masses, then each is moved under its force plus gravity.
     * Fixed and selected masses never change; with no mass listed twice,
     * every movable mass keeps its old position as the previous one and
     * ends at most at yResolution.
     */
    method StepMultithreaded(force: ForceFn)
      requires Valid()
      modifies this
      ensures Valid() && masses == old(masses) && springsOf == old(springsOf)
      ensures state == ApplyResults(old(state), Direct(masses, old(state), force), p)
      ensures forall m :: m in old(state) && !Movable(old(state), m) ==> state[m] == old(state)[m]
      ensures (forall i, j :: 0 <= i < j < |masses| ==> masses[i] != masses[j]) ==>
                forall i :: 0 <= i < |masses| && Movable(old(state), masses[i]) ==>
                  state[masses[i]].previous == old(state)[masses[i]].current
                  && state[masses[i]].current.y <= p.yResolution
    {
      var results := Compute(masses, p.forkJoinBatchSize, state, force);
      assert Updatable(state, results);
      var st := ApplyAll(state, results, p);
      StepFacts(masses, state, force, p);
      AdjacencyKeys(state, st, springsOf);
      state := st;
    }
  }

  /** What stepMultithreaded promises about the state it leaves. */
  lemma StepFacts(ms: seq<MassId>, st: State, force: ForceFn, p: Params)
    requires InState(ms, st) && forall m :: m in st ==> st[m].mass != 0.0
    ensures forall m :: m in st && !Movable(st, m) ==> ApplyResults(st, Direct(ms, st, force), p)[m] == st[m]
    ensures (forall i, j :: 0 <= i < j < |ms| ==> ms[i] != ms[j]) ==>
              forall i :: 0 <= i < |ms| && Movable(st, ms[i]) ==>
                ApplyResults(st, Direct(ms, st, force), p)[ms[i]].previous == st[ms[i]].current
                && ApplyResults(st, Direct(ms, st, force), p)[ms[i]].current.y <= p.yResolution
  {
    var results := Direct(ms, st, force);
    forall m | m in st && !Movable(st, m)
      ensures ApplyResults(st, results, p)[m] == st[m]
    {
      DirectContents(ms, st, force, m);
      ApplyResultsElsewhere(st, results, p, m);
    }
    if forall i, j :: 0 <= i < j < |ms| ==> ms[i] != ms[j] {
      DirectDistinct(ms, st, force);
      forall i | 0 <= i < |ms| && Movable(st, ms[i])
        ensures ApplyResults(st, results, p)[ms[i]].previous == st[ms[i]].current
        ensures ApplyResults(st, results, p)[ms[i]].current.y <= p.yResolution
      {
        DirectContents(ms, st, force, ms[i]);
        var k :| 0 <= k < |Masses(results)| && Masses(results)[k] == ms[i];
        ApplyResultsOnce(st, results, p, k);
      }
    }
  }

}

=== FILE: simulation.dfy ===
/**
 * The newer simulation engine (simulation.SpringMassSystem): a grid of
 * masses, the list of springs between them, the log of springs that broke
 * since the last snapshot refresh and the wind simulator, with the
 * operations that change them.
 *
 * The force numerics are inputs: `calcForce` stands for Spring.calcForce
 * (the force of a spring given the grid, directed from m1 to m2) and
 * `windFor` for getCurrentWindVector followed by calculateWindForce (the
 * wind force on a mass given the wind's current direction and force and
 * the mass's right and bottom neighbours). The worker pool
 * runs the chunks and slices one after the other, and a pass over the grid
 * reads the positions as they were when the pass began.
 */
module Simulation {
  import opened Common
  import opened Tiling
  import opened SliceIteration
  import opened Springs
  import Chunking
  import Wind

  /** The SimulationParameters the engine reads, plus forkJoinBatchCount. */
  datatype Params = Params(
    cols: nat,
    rows: nat,
    gravity: real,
    timeStep: real,
    iterationCount: int,
    damping: real,
    maxSpringLength: real,
    yResolution: real,
    wind: Wind.WindParameters,
    batchCount: int)

  /** Spring.calcForce: the force of a spring in a grid, pointing from m1 to m2. */
  type ForceFn = (Spring, Grid) -> Vec3

  /** calculateWindForce for the current wind: the wind force on a mass given its right and bottom neighbours. */
  type WindFn = (MassState, MassState, MassState) -> Vec3

  /** getCurrentWindVector and calculateWindForce: the wind force for a wind of the given direction and force. */
  type WindSource = (Vec3, real) -> WindFn

  /** The wind force a pass applies while the wind is in state w (applyForces reads getCurrentWindVector). */
  function WindOf(windFor: WindSource, w: Wind.WindState): WindFn
  {
    windFor(w.currentDirection, w.currentForce)
  }

  predicate InBounds(c: Coord, p: Params) { 0 <= c.0 < p.cols && 0 <= c.1 < p.rows }

  /** The floor: no mass ends a pass below -yResolution * 0.2. */
  function MinY(p: Params): real { -p.yResolution * 0.2 }

  /** new Vector3(0, -1, 0).scl(gravity). */
  function GravityVector(p: Params): Vec3 { Vec3(0.0, -p.gravity, 0.0) }

  /** The maximum squared spring length (maxSpringLength squared). */
  function MaxLengthSquared(p: Params): real { p.maxSpringLength * p.maxSpringLength }

  // ---------------------------------------------------------------------
  // One mass in one pass of applyForces

  /** What spring s adds to the force on the mass at c: its force at m1, its negated force at m2. */
  function SpringContribution(g: Grid, s: Spring, c: Coord, calcForce: ForceFn): (f: Vec3)
    ensures s.m1 == c ==> f == calcForce(s, g)
    ensures s.m1 != c && s.m2 == c ==> f == Scale(calcForce(s, g), -1.0)
    ensures s.m1 != c && s.m2 != c ==> f == Zero
  {
    if s.m1 == c then calcForce(s, g)
    else if s.m2 == c then Scale(calcForce(s, g), -1.0)
    else Zero
  }

  /** The summed spring force on the mass at c. */
  function SpringForce(g: Grid, ss: seq<Spring>, c: Coord, calcForce: ForceFn): Vec3 {
    if ss == [] then Zero
    else Add(SpringForce(g, ss[..|ss| - 1], c, calcForce), SpringContribution(g, ss[|ss| - 1], c, calcForce))
  }

  /** Springs that do not touch c add nothing to its force. */
  lemma {:induction false} SpringForceUntouched(g: Grid, ss: seq<Spring>, c: Coord, calcForce: ForceFn)
    requires forall i :: 0 <= i < |ss| ==> ss[i].m1 != c && ss[i].m2 != c
    ensures SpringForce(g, ss, c, calcForce) == Zero
  {
    if ss != [] {
      SpringForceUntouched(g, ss[..|ss| - 1], c, calcForce);
    }
  }

  /**
   * One Verlet update of a mass under the summed force: damping against
   * the implicit velocity, scaling by 1 / (mass * timeStep), the floor at
   * MinY, and the old position kept as the previous one.
   */
  function Integrate(m: MassState, force: Vec3, p: Params): (r: MassState)
    requires m.mass != 0.0 && p.timeStep != 0.0
    ensures r.previous == m.current
    ensures r.current.y >= MinY(p)
    ensures r.mass == m.mass && r.fixed == m.fixed && r.selected == m.selected
  {
    var velocity := Sub(m.current, m.previous);
    var sum := Sub(force, Scale(velocity, p.damping));
    var delta := Add(velocity, Scale(sum, 1.0 / (m.mass * p.timeStep)));
    var next := Add(m.current, delta);
    m.(current := if next.y < MinY(p) then next.(y := MinY(p)) else next, previous := m.current)
  }

  /** The wind force on (x, y): only when wind is applied and both neighbours exist. */
  function WindTerm(g: Grid, x: int, y: int, applyWind: bool, windAt: WindFn, p: Params): Vec3
    requires IsGrid(g, p.cols, p.rows) && 0 <= x < p.cols && 0 <= y < p.rows
  {
    if applyWind && x + 1 < p.cols && y + 1 < p.rows then windAt(g[x][y], g[x + 1][y], g[x][y + 1]) else Zero
  }

  /** Every mass of the grid has a non-zero mass. */
  predicate Massive(g: Grid) {
    forall x, y :: 0 <= x < |g| && 0 <= y < |g[x]| ==> g[x][y].mass != 0.0
  }

  /**
   * The mass at (x, y) after one pass of applyForces over grid g: fixed and
   * selected masses stay as they are; every other one is integrated under
   * its spring forces, the wind term and gravity.
   */
  function MassAfter(g: Grid, ss: seq<Spring>, x: int, y: int, gravity: Vec3, applyWind: bool,
                     calcForce: ForceFn, windAt: WindFn, p: Params): (r: MassState)
    requires IsGrid(g, p.cols, p.rows) && Massive(g) && p.timeStep != 0.0
    requires 0 <= x < p.cols && 0 <= y < p.rows
    ensures g[x][y].fixed || g[x][y].selected ==> r == g[x][y]
    ensures !(g[x][y].fixed || g[x][y].selected) ==> r.previous == g[x][y].current && r.current.y >= MinY(p)
    ensures r.mass == g[x][y].mass && r.fixed == g[x][y].fixed && r.selected == g[x][y].selected
  {
    var m := g[x][y];
    if m.fixed || m.selected then m
    else Integrate(m, Add(Add(SpringForce(g, ss, (x, y), calcForce), WindTerm(g, x, y, applyWind, windAt, p)), gravity), p)
  }

  // ---------------------------------------------------------------------
  // The passes of one step

  /** One pass of step(): whether springs may break, the gravity applied and whether wind is applied. */
  datatype Pass = Pass(breaksSprings: bool, gravity: Vec3, wind: bool)

  /** The pass run while the loop counter is `count`. */
  function PassAt(p: Params, count: int): Pass {
    Pass(p.maxSpringLength > 0.0, if count == 1 then GravityVector(p) else Zero, count == 1 && p.wind.enabled)
  }

  /** The passes still to run when the loop counter is `count`. */
  function PassesFrom(p: Params, count: int): seq<Pass>
    decreases count
  {
    if count <= 0 then [] else [PassAt(p, count)] + PassesFrom(p, count - 1)
  }

  /**
   * A step runs iterationCount passes; all of them break springs exactly
   * when maxSpringLength > 0; gravity (and wind, if enabled) is applied on
   * the last pass only.
   */
  lemma {:induction false} PassSchedule(p: Params, count: int)
    ensures |PassesFrom(p, count)| == if count > 0 then count else 0
    ensures forall i :: 0 <= i < |PassesFrom(p, count)| ==>
              PassesFrom(p, count)[i].breaksSprings == (p.maxSpringLength > 0.0)
    ensures forall i :: 0 <= i < |PassesFrom(p, count)| - 1 ==>
              PassesFrom(p, count)[i].gravity == Zero && !PassesFrom(p, count)[i].wind
    ensures count > 0 ==>
              PassesFrom(p, count)[count - 1] == Pass(p.maxSpringLength > 0.0, GravityVector(p), p.wind.enabled)
    decreases count
  {
    if count > 0 {
      PassSchedule(p, count - 1);
      var r := PassesFrom(p, count);
      assert r == [PassAt(p, count)] + PassesFrom(p, count - 1);
      forall i | 1 <= i < |r|
        ensures r[i] == PassesFrom(p, count - 1)[i - 1]
      {
      }
    }
  }

  /** The grid after one applyForces: every mass as MassAfter leaves it. */
  function GridAfter(g: Grid, ss: seq<Spring>, gravity: Vec3, applyWind: bool,
                     calcForce: ForceFn, windAt: WindFn, p: Params): (r: Grid)
    requires IsGrid(g, p.cols, p.rows) && Massive(g) && p.timeStep != 0.0
    ensures IsGrid(r, p.cols, p.rows) && Massive(r)
  {
    seq(p.cols, x requires 0 <= x < p.cols =>
      seq(p.rows, y requires 0 <= y < p.rows => MassAfter(g, ss, x, y, gravity, applyWind, calcForce, windAt, p)))
  }

  /** Every mass of GridAfter is as MassAfter leaves it. */
  lemma GridAfterAt(g: Grid, ss: seq<Spring>, gravity: Vec3, applyWind: bool,
                    calcForce: ForceFn, windAt: WindFn, p: Params)
    requires IsGrid(g, p.cols, p.rows) && Massive(g) && p.timeStep != 0.0
    ensures forall x, y :: 0 <= x < p.cols && 0 <= y < p.rows ==>
              GridAfter(g, ss, gravity, applyWind, calcForce, windAt, p)[x][y]
              == MassAfter(g, ss, x, y, gravity, applyWind, calcForce, windAt, p)
  {
  }

  /** A grid that agrees with MassAfter at every mass is GridAfter. */
  lemma GridAfterUnique(r: Grid, g: Grid, ss: seq<Spring>, gravity: Vec3, applyWind: bool,
                        calcForce: ForceFn, windAt: WindFn, p: Params)
    requires IsGrid(g, p.cols, p.rows) && Massive(g) && p.timeStep != 0.0 && IsGrid(r, p.cols, p.rows)
    requires forall x, y :: 0 <= x < p.cols && 0 <= y < p.rows ==>
               r[x][y] == MassAfter(g, ss, x, y, gravity, applyWind, calcForce, windAt, p)
    ensures r == GridAfter(g, ss, gravity, applyWind, calcForce, windAt, p)
  {
    var a := GridAfter(g, ss, gravity, applyWind, calcForce, windAt, p);
    forall x | 0 <= x < p.cols
      ensures r[x] == a[x]
    {
      assert forall y :: 0 <= y < p.rows ==> r[x][y] == a[x][y];
    }
  }

  /** The part of the engine's state a pass changes: the grid, the springs and the log of broken springs. */
  datatype Cloth = Cloth(grid: Grid, springs: seq<Spring>, removed: seq<Spring>)

  predicate ClothValid(c: Cloth, p: Params) {
    IsGrid(c.grid, p.cols, p.rows) && Massive(c.grid) && p.timeStep != 0.0
    && AllIn(c.grid, c.springs) && AllIn(c.grid, c.removed)
  }

  /**
   * One pass of step()'s loop on a value: when the pass breaks springs, the
   * broken ones leave the list and join the log; then every mass moves under
   * the surviving springs and the pass's gravity and wind.
   */
  function RunPass(c: Cloth, ps: Pass, calcForce: ForceFn, windAt: WindFn, p: Params): (r: Cloth)
    requires ClothValid(c, p)
    ensures ClothValid(r, p)
  {
    var m := MaxLengthSquared(p);
    BreakageInGrid(c.grid, c.springs, m);
    var ss := if ps.breaksSprings then Survivors(c.grid, c.springs, m) else c.springs;
    var broken := if ps.breaksSprings then BrokenSprings(c.grid, c.springs, m) else [];
    var g := GridAfter(c.grid, ss, ps.gravity, ps.wind, calcForce, windAt, p);
    AllInAppend(c.grid, c.removed, broken);
    SameShapeAllIn(c.grid, g, ss, p);
    SameShapeAllIn(c.grid, g, c.removed + broken, p);
    Cloth(g, ss, c.removed + broken)
  }

  /** The passes step() runs from loop counter `count` down to 1, in that order. */
  function RunFrom(c: Cloth, count: int, calcForce: ForceFn, windAt: WindFn, p: Params): (r: Cloth)
    requires ClothValid(c, p)
    ensures ClothValid(r, p)
    decreases count
  {
    if count <= 0 then c else RunFrom(RunPass(c, PassAt(p, count), calcForce, windAt, p), count - 1, calcForce, windAt, p)
  }

  /**
   * What no pass changes: the fixed and selected flags, the masses that are
   * fixed or selected, and the springs, which can only move to the log.
   */
  ghost predicate Conserves(c: Cloth, r: Cloth, p: Params)
    requires IsGrid(c.grid, p.cols, p.rows) && IsGrid(r.grid, p.cols, p.rows)
  {
    && (forall x, y {:trigger r.grid[x][y]} :: 0 <= x < p.cols && 0 <= y < p.rows ==>
          r.grid[x][y].fixed == c.grid[x][y].fixed && r.grid[x][y].selected == c.grid[x][y].selected)
    && (forall x, y {:trigger r.grid[x][y]} :: 0 <= x < p.cols && 0 <= y < p.rows && (c.grid[x][y].fixed || c.grid[x][y].selected) ==>
          r.grid[x][y] == c.grid[x][y])
    && (forall s :: s in r.springs ==> s in c.springs)
    && |r.springs| + |r.removed| == |c.springs| + |c.removed|
  }

  /** Every mass that is neither fixed nor selected is at or above the floor. */
  ghost predicate AboveFloor(g: Grid, p: Params)
    requires IsGrid(g, p.cols, p.rows)
  {
    forall x, y :: 0 <= x < p.cols && 0 <= y < p.rows && !(g[x][y].fixed || g[x][y].selected) ==>
      g[x][y].current.y >= MinY(p)
  }

  /**
   * One pass conserves flags, fixed and selected masses and springs, leaves
   * every other mass above the floor, and touches no spring when springs
   * cannot break.
   */
  lemma RunPassKeeps(c: Cloth, ps: Pass, calcForce: ForceFn, windAt: WindFn, p: Params)
    requires ClothValid(c, p)
    ensures var r := RunPass(c, ps, calcForce, windAt, p);
      && Conserves(c, r, p) && AboveFloor(r.grid, p)
      && (!ps.breaksSprings ==> r.springs == c.springs && r.removed == c.removed)
  {
    var m := MaxLengthSquared(p);
    var ss := if ps.breaksSprings then Survivors(c.grid, c.springs, m) else c.springs;
    GridAfterAt(c.grid, ss, ps.gravity, ps.wind, calcForce, windAt, p);
    BreakageShrinks(c.grid, c.springs, m);
  }

  /** The facts of RunFromKeeps for one pass followed by count - 1 more. */
  lemma KeepsCompose(c: Cloth, c1: Cloth, r: Cloth, count: int, p: Params)
    requires IsGrid(c.grid, p.cols, p.rows) && IsGrid(c1.grid, p.cols, p.rows) && IsGrid(r.grid, p.cols, p.rows)
    requires count > 0 && (count == 1 ==> r == c1)
    requires Conserves(c, c1, p) && AboveFloor(c1.grid, p)
    requires p.maxSpringLength <= 0.0 ==> c1.springs == c.springs && c1.removed == c.removed
    requires Conserves(c1, r, p) && (count - 1 >= 1 ==> AboveFloor(r.grid, p))
    requires p.maxSpringLength <= 0.0 ==> r.springs == c1.springs && r.removed == c1.removed
    ensures Conserves(c, r, p) && AboveFloor(r.grid, p)
    ensures p.maxSpringLength <= 0.0 ==> r.springs == c.springs && r.removed == c.removed
  {
  }

  /**
   * A whole step conserves flags, fixed and selected masses and springs;
   * after at least one pass every other mass is above the floor; and with
   * maxSpringLength <= 0 the springs and the log are as they were.
   */
  lemma {:induction false} RunFromKeeps(c: Cloth, count: int, calcForce: ForceFn, windAt: WindFn, p: Params)
    requires ClothValid(c, p)
    ensures var r := RunFrom(c, count, calcForce, windAt, p);
      && (count <= 0 ==> r == c)
      && Conserves(c, r, p)
      && (count >= 1 ==> AboveFloor(r.grid, p))
      && (p.maxSpringLength <= 0.0 ==> r.springs == c.springs && r.removed == c.removed)
    decreases count, 1
  {
    if count > 0 {
      var c1 := RunPass(c, PassAt(p, count), calcForce, windAt, p);
      RunPassKeeps(c, PassAt(p, count), calcForce, windAt, p);
      KeepsAfterFirstPass(c, c1, RunFrom(c, count, calcForce, windAt, p), count, calcForce, windAt, p);
    }
  }

  /** RunFromKeeps once the first pass, to c1, is done: the remaining passes keep what it kept. */
  lemma {:induction false} KeepsAfterFirstPass(c: Cloth, c1: Cloth, r: Cloth, count: int,
                                               calcForce: ForceFn, windAt: WindFn, p: Params)
    requires ClothValid(c, p) && ClothValid(c1, p) && count > 0
    requires r == RunFrom(c1, count - 1, calcForce, windAt, p)
    requires Conserves(c, c1, p) && AboveFloor(c1.grid, p)
    requires p.maxSpringLength <= 0.0 ==> c1.springs == c.springs && c1.removed == c.removed
    ensures Conserves(c, r, p) && AboveFloor(r.grid, p)
    ensures p.maxSpringLength <= 0.0 ==> r.springs == c.springs && r.removed == c.removed
    decreases count, 0
  {
    RunFromKeeps(c1, count - 1, calcForce, windAt, p);
    KeepsCompose(c, c1, r, count, p);
  }

  /** After the pass at `count`, what remains to run from count - 1 ends where running from `count` did. */
  lemma RunFromAdvance(before: Cloth, after: Cloth, start: Cloth, count: int, total: int,
                       calcForce: ForceFn, windAt: WindFn, p: Params)
    requires ClothValid(before, p) && ClothValid(start, p) && count > 0
    requires after == RunPass(before, PassAt(p, count), calcForce, windAt, p)
    requires RunFrom(before, count, calcForce, windAt, p) == RunFrom(start, total, calcForce, windAt, p)
    ensures RunFrom(after, count - 1, calcForce, windAt, p) == RunFrom(start, total, calcForce, windAt, p)
  {
  }

  /** Logging the pass at `count` moves it from the passes still to run to the passes run. */
  lemma PassesAdvance(done: seq<Pass>, total: seq<Pass>, count: int, p: Params)
    requires count > 0 && done + PassesFrom(p, count) == total
    ensures (done + [PassAt(p, count)]) + PassesFrom(p, count - 1) == total
  {
    assert PassesFrom(p, count) == [PassAt(p, count)] + PassesFrom(p, count - 1);
  }

  /** The clone's state after copyPositionAndFlagsFrom(original). */
  function Synced(clone: MassState, original: MassState): MassState {
    clone.(current := original.current, fixed := original.fixed, selected := original.selected)
  }

  /** Squared distance of the mass at c to pos (Mass.squaredDistanceTo). */
  function Distance(g: Grid, c: Coord, pos: Vec3): real
    requires Has(g, c)
  {
    SquaredDistance(At(g, c).current, pos)
  }

  /** a comes before b in getNearestMass's scan: row by row, x varying fastest. */
  predicate ScanBefore(a: Coord, b: Coord) { a.1 < b.1 || (a.1 == b.1 && a.0 < b.0) }

  class SpringMassSystem {
    const p: Params
    var grid: Grid
    var springs: seq<Spring>
    var removedSprings: seq<Spring>
    var copiedFrom: SpringMassSystem?
    var massMappings: map<Coord, Coord>
    const wind: Wind.WindSimulator
    /** The passes run so far, for stating the phase order of step(). */
    ghost var passes: seq<Pass>

    ghost predicate Valid()
      reads this, wind
    {
      && IsGrid(grid, p.cols, p.rows) && Massive(grid) && p.timeStep != 0.0
      && AllIn(grid, springs) && AllIn(grid, removedSprings)
      && p.batchCount >= 1
      && wind.params == p.wind
      && (p.wind.enabled ==> p.wind.stepsUntilDirectionChanged != 0 && p.wind.stepsUntilDirectionAdjusted != 0)
    }

    /** The grid, springs and log as one value. */
    function State(): Cloth
      reads this
    {
      Cloth(grid, springs, removedSprings)
    }

    /** new SpringMassSystem(params, massArray, random): no springs, empty log, a fresh wind simulator. */
    constructor (p: Params, grid: Grid, draw: Wind.Draw)
      requires IsGrid(grid, p.cols, p.rows) && Massive(grid) && p.timeStep != 0.0 && p.batchCount >= 1
      requires p.wind.enabled ==> p.wind.stepsUntilDirectionChanged != 0 && p.wind.stepsUntilDirectionAdjusted != 0
      ensures Valid() && fresh(wind)
      ensures wind.State() == Wind.InitialState(p.wind, draw)
      ensures this.p == p && this.grid == grid && springs == [] && removedSprings == []
      ensures copiedFrom == null && massMappings == map[] && passes == []
    {
      this.p := p;
      this.grid := grid;
      springs, removedSprings := [], [];
      copiedFrom, massMappings := null, map[];
      passes := [];
      wind := new Wind.WindSimulator(p.wind, draw);
    }

    /** addSpring(s): appends s to the spring list. */
    method AddSpring(s: Spring)
      requires Valid() && SpringIn(grid, s)
      modifies this
      ensures Valid()
      ensures springs == old(springs) + [s]
      ensures grid == old(grid) && removedSprings == old(removedSprings)
      ensures copiedFrom == old(copiedFrom) && massMappings == old(massMappings) && passes == old(passes)
    {
      springs := springs + [s];
    }

    /**
     * removeBrokenSprings(): drops every spring that breaks, keeping the
     * others in order, and appends the dropped ones to the log in scan
     * order.
     */
    method RemoveBrokenSprings()
      requires Valid()
      modifies this
      ensures Valid()
      ensures springs == Survivors(grid, old(springs), MaxLengthSquared(p))
      ensures removedSprings == old(removedSprings) + BrokenSprings(grid, old(springs), MaxLengthSquared(p))
      ensures grid == old(grid) && copiedFrom == old(copiedFrom) && massMappings == old(massMappings)
      ensures passes == old(passes)
      ensures forall s :: s in springs ==> s in old(springs)
      ensures |springs| + |removedSprings| == |old(springs)| + |old(removedSprings)|
    {
      var maxLengthSquared := p.maxSpringLength;
      maxLengthSquared := maxLengthSquared * maxLengthSquared;
      var kept, dropped := ScanBroken(grid, springs, maxLengthSquared);
      BreakageInGrid(grid, springs, maxLengthSquared);
      BreakageShrinks(grid, springs, maxLengthSquared);
      assert maxLengthSquared == MaxLengthSquared(p);
      springs := kept;
      removedSprings := removedSprings + dropped;
    }

    /** solveConstraints(): the force of every spring, computed chunk by chunk. */
    method SolveConstraints(calcForce: ForceFn) returns (forces: seq<Vec3>)
      requires Valid()
      ensures |forces| == |springs|
      ensures forall i :: 0 <= i < |springs| ==> forces[i] == calcForce(springs[i], grid)
    {
      var g := grid;
      forces := Chunking.ForEachParallel(springs, p.batchCount, s => calcForce(s, g));
    }

    /**
     * getNearestMass(pos, maxDistanceSquared): the first mass in scan order
     * with the least squared distance to pos, or None when that distance
     * exceeds the maximum (or the grid is empty).
     */
    method GetNearestMass(pos: Vec3, maxDistanceSquared: real) returns (r: Option<Coord>)
      requires Valid()
      ensures r.None? <==> forall x, y :: 0 <= x < p.cols && 0 <= y < p.rows ==>
                              Distance(grid, (x, y), pos) > maxDistanceSquared
      ensures r.Some? ==> InBounds(r.value, p) && Distance(grid, r.value, pos) <= maxDistanceSquared
      ensures r.Some? ==> forall x, y :: 0 <= x < p.cols && 0 <= y < p.rows ==>
                            Distance(grid, r.value, pos) <= Distance(grid, (x, y), pos)
      ensures r.Some? ==> forall x, y :: 0 <= x < p.cols && 0 <= y < p.rows && ScanBefore((x, y), r.value) ==>
                            Distance(grid, r.value, pos) < Distance(grid, (x, y), pos)
    {
      var best: Option<Coord> := None;
      var closestDistance := 0.0;
      for y := 0 to p.rows
        invariant best.None? ==> y == 0 || p.cols == 0
        invariant best.Some? ==> InBounds(best.value, p) && best.value.1 < y
        invariant best.Some? ==> closestDistance == Distance(grid, best.value, pos)
        invariant best.Some? ==> forall a, b :: 0 <= a < p.cols && 0 <= b < y ==>
                    closestDistance <= Distance(grid, (a, b), pos)
                    && (ScanBefore((a, b), best.value) ==> closestDistance < Distance(grid, (a, b), pos))
      {
        best, closestDistance := NearestInRow(grid, p, pos, y, best, closestDistance);
      }
      r := if best == None || closestDistance > maxDistanceSquared then None else best;
    }

    /**
     * applyForces(chunk, gravity, applyWindForces) over one slice: every
     * mass of the slice that is neither fixed nor selected is integrated,
     * reading the grid as it was when the pass began.
     */
    method ApplyForcesTo(s: Slice, snapshot: Grid, gravity: Vec3, applyWind: bool, calcForce: ForceFn, windAt: WindFn)
      requires IsGrid(grid, p.cols, p.rows) && IsGrid(snapshot, p.cols, p.rows)
      requires Massive(snapshot) && p.timeStep != 0.0
      requires InGrid(s, p.cols, p.rows) && s.fetchNeighbours == applyWind
      requires s.isAtRightEdge <==> s.xEnd == p.cols
      requires s.isAtBottomEdge <==> s.yEnd == p.rows
      requires forall x, y :: 0 <= x < p.cols && 0 <= y < p.rows && (snapshot[x][y].fixed || snapshot[x][y].selected) ==>
                 grid[x][y] == snapshot[x][y]
      modifies this
      ensures IsGrid(grid, p.cols, p.rows)
      ensures forall x, y :: 0 <= x < p.cols && 0 <= y < p.rows ==>
                grid[x][y] == if Contains(s, x, y) then MassAfter(snapshot, springs, x, y, gravity, applyWind, calcForce, windAt, p)
                              else old(grid[x][y])
      ensures springs == old(springs) && removedSprings == old(removedSprings)
      ensures copiedFrom == old(copiedFrom) && massMappings == old(massMappings) && passes == old(passes)
    {
      grid := PassOverSlice(grid, s, snapshot, springs, gravity, applyWind, calcForce, windAt, p);
    }

    /**
     * applyForces(gravity, applyWindForces): cuts the grid into slices
     * (with neighbours when wind is applied) and runs the pass on each;
     * afterwards every mass is its MassAfter of the grid before the pass.
     */
    method ApplyForces(gravity: Vec3, applyWind: bool, calcForce: ForceFn, windAt: WindFn)
      requires Valid()
      modifies this
      ensures Valid()
      ensures forall x, y :: 0 <= x < p.cols && 0 <= y < p.rows ==>
                grid[x][y] == MassAfter(old(grid), springs, x, y, gravity, applyWind, calcForce, windAt, p)
      ensures springs == old(springs) && removedSprings == old(removedSprings)
      ensures copiedFrom == old(copiedFrom) && massMappings == old(massMappings) && passes == old(passes)
    {
      var snapshot := grid;
      var L := Layout(p.cols, p.rows, TileSize(p.batchCount), applyWind);
      var slices := SplitArray(p.cols, p.rows, p.batchCount, applyWind);
      for i := 0 to |slices|
        invariant IsGrid(grid, p.cols, p.rows)
        invariant forall x, y :: 0 <= x < p.cols && 0 <= y < p.rows ==>
                    grid[x][y] == if Covered(slices[..i], x, y)
                                  then MassAfter(snapshot, springs, x, y, gravity, applyWind, calcForce, windAt, p)
                                  else snapshot[x][y]
        invariant springs == old(springs) && removedSprings == old(removedSprings)
        invariant copiedFrom == old(copiedFrom) && massMappings == old(massMappings) && passes == old(passes)
      {
        TilesAt(L, i);
        TileShape(L, i / NumCols(L), i % NumCols(L));
        ApplyForcesTo(slices[i], snapshot, gravity, applyWind, calcForce, windAt);
        forall x, y | 0 <= x < p.cols && 0 <= y < p.rows
          ensures Covered(slices[..i + 1], x, y) <==> Covered(slices[..i], x, y) || Contains(slices[i], x, y)
        {
          CoveredSnoc(slices[..i], slices[i], x, y);
          assert slices[..i] + [slices[i]] == slices[..i + 1];
        }
      }
      TilesCoverGrid(L);
      assert slices[..|slices|] == slices;
      assert Massive(grid) by {
        forall x, y | 0 <= x < |grid| && 0 <= y < |grid[x]|
          ensures grid[x][y].mass != 0.0
        {
          assert grid[x][y].mass == snapshot[x][y].mass;
        }
      }
    }

    /**
     * step(): advances the wind once, then runs iterationCount passes of
     * constraint solving, breakage (when maxSpringLength > 0) and force
     * application, gravity and wind only in the last one. Normal
     * recomputation is not part of this model.
     */
    method Step(draw: Wind.Draw, calcForce: ForceFn, windFor: WindSource)
      requires Valid()
      modifies this, wind
      ensures Valid()
      ensures State() == RunFrom(old(State()), p.iterationCount, calcForce,
                                 WindOf(windFor, Wind.StepState(old(wind.State()), draw)), p)
      ensures wind.State() == Wind.StepState(old(wind.State()), draw)
      ensures wind.stepCount == old(wind.stepCount) + 1
      ensures passes == old(passes) + PassesFrom(p, p.iterationCount)
      ensures forall x, y :: 0 <= x < p.cols && 0 <= y < p.rows && (old(grid)[x][y].fixed || old(grid)[x][y].selected) ==>
                grid[x][y] == old(grid)[x][y]
      ensures p.iterationCount >= 1 ==>
                forall x, y :: 0 <= x < p.cols && 0 <= y < p.rows && !(grid[x][y].fixed || grid[x][y].selected) ==>
                  grid[x][y].current.y >= MinY(p)
      ensures forall s :: s in springs ==> s in old(springs)
      ensures |springs| + |removedSprings| == |old(springs)| + |old(removedSprings)|
      ensures p.maxSpringLength <= 0.0 ==> springs == old(springs) && removedSprings == old(removedSprings)
      ensures copiedFrom == old(copiedFrom) && massMappings == old(massMappings)
    {
      wind.Step(draw);
      var windAt := windFor(wind.currentDirection, wind.currentForce);
      assert windAt == WindOf(windFor, Wind.StepState(old(wind.State()), draw));
      var springsCanBreak := p.maxSpringLength > 0.0;
      var count := p.iterationCount;
      ghost var start := State();
      assert ClothValid(start, p);
      while count > 0
        invariant Valid()
        invariant RunFrom(State(), count, calcForce, windAt, p) == RunFrom(start, p.iterationCount, calcForce, windAt, p)
        invariant wind.State() == Wind.StepState(old(wind.State()), draw)
        invariant wind.stepCount == old(wind.stepCount) + 1
        invariant passes + PassesFrom(p, count) == old(passes) + PassesFrom(p, p.iterationCount)
        invariant copiedFrom == old(copiedFrom) && massMappings == old(massMappings)
      {
        ghost var before, done := State(), passes;
        Iterate(count, springsCanBreak, calcForce, windAt);
        RunFromAdvance(before, State(), start, count, p.iterationCount, calcForce, windAt, p);
        PassesAdvance(done, old(passes) + PassesFrom(p, p.iterationCount), count, p);
        count := count - 1;
      }
      RunFromKeeps(start, p.iterationCount, calcForce, windAt, p);
    }

    /**
     * One turn of the loop of step(): solve the constraints, drop broken
     * springs when they can break, then apply the forces, with gravity and
     * wind only when count is 1.
     */
    method Iterate(count: int, springsCanBreak: bool, calcForce: ForceFn, windAt: WindFn)
      requires Valid() && springsCanBreak == (p.maxSpringLength > 0.0)
      modifies this
      ensures Valid()
      ensures springs == if springsCanBreak then Survivors(old(grid), old(springs), MaxLengthSquared(p)) else old(springs)
      ensures removedSprings == old(removedSprings) +
                if springsCanBreak then BrokenSprings(old(grid), old(springs), MaxLengthSquared(p)) else []
      ensures grid == GridAfter(old(grid), springs, PassAt(p, count).gravity, PassAt(p, count).wind, calcForce, windAt, p)
      ensures State() == RunPass(old(State()), PassAt(p, count), calcForce, windAt, p)
      ensures passes == old(passes) + [PassAt(p, count)]
      ensures forall x, y :: 0 <= x < p.cols && 0 <= y < p.rows ==>
                grid[x][y].fixed == old(grid)[x][y].fixed && grid[x][y].selected == old(grid)[x][y].selected
      ensures forall x, y :: 0 <= x < p.cols && 0 <= y < p.rows && (old(grid)[x][y].fixed || old(grid)[x][y].selected) ==>
                grid[x][y] == old(grid)[x][y]
      ensures forall x, y :: 0 <= x < p.cols && 0 <= y < p.rows && !(grid[x][y].fixed || grid[x][y].selected) ==>
                grid[x][y].current.y >= MinY(p)
      ensures forall s :: s in springs ==> s in old(springs)
      ensures |springs| + |removedSprings| == |old(springs)| + |old(removedSprings)|
      ensures !springsCanBreak ==> springs == old(springs) && removedSprings == old(removedSprings)
      ensures copiedFrom == old(copiedFrom) && massMappings == old(massMappings)
    {
      ghost var g0 := grid;
      var forces := SolveConstraints(calcForce);
      if springsCanBreak {
        RemoveBrokenSprings();
      }
      if count == 1 {
        ApplyForces(GravityVector(p), p.wind.enabled, calcForce, windAt);
      } else {
        ApplyForces(Zero, false, calcForce, windAt);
      }
      GridAfterUnique(grid, g0, springs, PassAt(p, count).gravity, PassAt(p, count).wind, calcForce, windAt, p);
      passes := passes + [PassAt(p, count)];
    }

    /**
     * createCopy(): a new system over a copy of the grid, with the identity
     * correspondence from each original mass to the copy at the same
     * coordinate, every spring copied through it in order, and the wind
     * state copied by value.
     */
    method CreateCopy(draw: Wind.Draw) returns (copy: SpringMassSystem)
      requires Valid()
      ensures fresh(copy) && fresh(copy.wind)
      ensures copy.Valid() && copy.p == p && copy.grid == grid
      ensures copy.copiedFrom == this && copy.removedSprings == []
      ensures forall c :: c in copy.massMappings <==> InBounds(c, p)
      ensures forall c :: c in copy.massMappings ==> copy.massMappings[c] == c
      ensures forall c1, c2 :: c1 in copy.massMappings && c2 in copy.massMappings && copy.massMappings[c1] == copy.massMappings[c2] ==> c1 == c2
      ensures Maps(copy.massMappings, springs) && copy.springs == MapSprings(springs, copy.massMappings)
      ensures copy.springs == springs
      ensures copy.wind.State() == wind.State()
    {
      var arrayCopy, mm := CopyGrid(grid, p);
      copy := new SpringMassSystem(p, arrayCopy, draw);
      copy.wind.Set(wind);
      copy.massMappings := mm;
      copy.copiedFrom := this;
      assert Maps(mm, springs) by {
        forall i | 0 <= i < |springs|
          ensures springs[i].m1 in mm && springs[i].m2 in mm
        {
          assert SpringIn(grid, springs[i]);
        }
      }
      for i := 0 to |springs|
        invariant copy.Valid() && copy.p == p && copy.grid == grid
        invariant copy.springs == MapSprings(springs[..i], mm)
        invariant copy.copiedFrom == this && copy.removedSprings == [] && copy.massMappings == mm
        invariant copy.wind.State() == wind.State()
      {
        var s := springs[i];
        assert SpringIn(grid, s);
        MapSpringsSnoc(springs, mm, i);
        copy.AddSpring(Spring(mm[s.m1], mm[s.m2]));
      }
      assert springs[..|springs|] == springs;
      MapSpringsIdentity(springs, mm);
    }

    /**
     * updateFromOriginal(): copies position and flags of every original
     * mass onto its copy, drains the original's log of broken springs and
     * removes the copy of each drained spring from this system's list.
     */
    method UpdateFromOriginal()
      requires Valid() && copiedFrom != null && copiedFrom != this && copiedFrom.Valid()
      requires copiedFrom.p.cols == p.cols && copiedFrom.p.rows == p.rows
      requires forall c :: InBounds(c, p) ==> c in massMappings
      modifies this, copiedFrom
      ensures copiedFrom == old(copiedFrom)
      ensures Valid() && copiedFrom.Valid()
      ensures forall x, y :: 0 <= x < p.cols && 0 <= y < p.rows ==>
                && grid[x][y].current == old(copiedFrom.grid)[x][y].current
                && grid[x][y].fixed == old(copiedFrom.grid)[x][y].fixed
                && grid[x][y].selected == old(copiedFrom.grid)[x][y].selected
                && grid[x][y].previous == old(grid)[x][y].previous
                && grid[x][y].mass == old(grid)[x][y].mass
      ensures copiedFrom.removedSprings == []
      ensures copiedFrom.grid == old(copiedFrom.grid) && copiedFrom.springs == old(copiedFrom.springs)
      ensures Maps(massMappings, old(copiedFrom.removedSprings))
      ensures springs == RemoveEach(old(springs), MapSprings(old(copiedFrom.removedSprings), massMappings))
      ensures old(copiedFrom.removedSprings) == [] ==> springs == old(springs)
      ensures removedSprings == old(removedSprings) && massMappings == old(massMappings)
    {
      var original := copiedFrom;
      var synced := SyncGrid(grid, original.grid, p.cols, p.rows);
      var removed := original.removedSprings;
      SyncedValid(grid, original.grid, synced, springs, removedSprings, removed, massMappings, p);
      var remaining := RemoveMapped(springs, removed, massMappings);
      RemoveEachShrinks(springs, MapSprings(removed, massMappings));
      AllInSubset(synced, remaining, springs);
      grid, springs := synced, remaining;
      original.removedSprings := [];
    }
  }

  /**
   * The inner loop of getNearestMass(): scans row y left to right and
   * moves the best candidate to a strictly nearer mass whenever one turns
   * up, so that it stays the first nearest mass of the rows scanned.
   */
  method NearestInRow(grid: Grid, p: Params, pos: Vec3, y: int, best: Option<Coord>, closestDistance: real)
    returns (best': Option<Coord>, closestDistance': real)
    requires IsGrid(grid, p.cols, p.rows) && 0 <= y < p.rows
    requires best.None? ==> y == 0 || p.cols == 0
    requires best.Some? ==> InBounds(best.value, p) && best.value.1 < y
    requires best.Some? ==> closestDistance == Distance(grid, best.value, pos)
    requires best.Some? ==> forall a, b :: 0 <= a < p.cols && 0 <= b < y ==>
               closestDistance <= Distance(grid, (a, b), pos)
               && (ScanBefore((a, b), best.value) ==> closestDistance < Distance(grid, (a, b), pos))
    ensures best'.None? ==> p.cols == 0
    ensures best'.Some? ==> InBounds(best'.value, p) && best'.value.1 < y + 1
    ensures best'.Some? ==> closestDistance' == Distance(grid, best'.value, pos)
    ensures best'.Some? ==> forall a, b :: 0 <= a < p.cols && 0 <= b < y + 1 ==>
              closestDistance' <= Distance(grid, (a, b), pos)
              && (ScanBefore((a, b), best'.value) ==> closestDistance' < Distance(grid, (a, b), pos))
  {
    best', closestDistance' := best, closestDistance;
    for x := 0 to p.cols
      invariant best'.None? ==> (y == 0 || p.cols == 0) && x == 0
      invariant best'.Some? ==> InBounds(best'.value, p) && ScanBefore(best'.value, (x, y))
      invariant best'.Some? ==> closestDistance' == Distance(grid, best'.value, pos)
      invariant best'.Some? ==> forall a, b :: 0 <= a < p.cols && 0 <= b < p.rows && ScanBefore((a, b), (x, y)) ==>
                  closestDistance' <= Distance(grid, (a, b), pos)
                  && (ScanBefore((a, b), best'.value) ==> closestDistance' < Distance(grid, (a, b), pos))
    {
      var distance := Distance(grid, (x, y), pos);
      if best' == None || distance < closestDistance' {
        best' := Some((x, y));
        closestDistance' := distance;
      }
    }
  }

  /**
   * The scan of removeBrokenSprings(): walks the springs in order and
   * sorts each into the kept or the dropped list by whether it breaks.
   */
  method ScanBroken(g: Grid, ss: seq<Spring>, maxLengthSquared: real) returns (kept: seq<Spring>, dropped: seq<Spring>)
    requires AllIn(g, ss)
    ensures kept == Survivors(g, ss, maxLengthSquared)
    ensures dropped == BrokenSprings(g, ss, maxLengthSquared)
  {
    kept, dropped := [], [];
    for i := 0 to |ss|
      invariant AllIn(g, ss[..i])
      invariant kept == Survivors(g, ss[..i], maxLengthSquared)
      invariant dropped == BrokenSprings(g, ss[..i], maxLengthSquared)
    {
      var s := ss[i];
      assert ss[..i + 1][..i] == ss[..i];
      if Broken(g, s, maxLengthSquared) {
        dropped := dropped + [s];
      } else {
        kept := kept + [s];
      }
    }
    assert ss[..|ss|] == ss;
  }

  /**
   * The copying loops of createCopy(): a column-by-column copy of grid g
   * and the identity correspondence over every coordinate of it.
   */
  method CopyGrid(g: Grid, p: Params) returns (arrayCopy: Grid, mm: map<Coord, Coord>)
    requires IsGrid(g, p.cols, p.rows)
    ensures arrayCopy == g
    ensures forall c :: c in mm <==> InBounds(c, p)
    ensures forall c :: c in mm ==> mm[c] == c
  {
    arrayCopy, mm := [], map[];
    for x := 0 to p.cols
      invariant |arrayCopy| == x && forall a :: 0 <= a < x ==> arrayCopy[a] == g[a]
      invariant forall c :: c in mm <==> 0 <= c.0 < x && 0 <= c.1 < p.rows
      invariant forall c :: c in mm ==> mm[c] == c
    {
      var column: seq<MassState> := [];
      for y := 0 to p.rows
        invariant column == g[x][..y]
        invariant forall c :: c in mm <==> (0 <= c.0 < x && 0 <= c.1 < p.rows) || (c.0 == x && 0 <= c.1 < y)
        invariant forall c :: c in mm ==> mm[c] == c
      {
        column := column + [g[x][y]];
        mm := mm[(x, y) := (x, y)];
      }
      assert column == g[x];
      arrayCopy := arrayCopy + [column];
    }
  }

  /**
   * The grid synced from an original of the same shape keeps every mass
   * non-zero and every spring of the copy in the grid, and the springs of
   * the original's log have masses in a correspondence that covers the grid.
   */
  lemma SyncedValid(clone: Grid, original: Grid, synced: Grid, ss: seq<Spring>, log: seq<Spring>,
                    removed: seq<Spring>, mm: map<Coord, Coord>, p: Params)
    requires IsGrid(clone, p.cols, p.rows) && IsGrid(original, p.cols, p.rows) && IsGrid(synced, p.cols, p.rows)
    requires Massive(clone) && AllIn(clone, ss) && AllIn(clone, log) && AllIn(original, removed)
    requires forall x, y :: 0 <= x < p.cols && 0 <= y < p.rows ==> synced[x][y] == Synced(clone[x][y], original[x][y])
    requires forall c :: InBounds(c, p) ==> c in mm
    ensures Massive(synced) && AllIn(synced, ss) && AllIn(synced, log)
    ensures Maps(mm, removed)
  {
    forall x, y | 0 <= x < |synced| && 0 <= y < |synced[x]|
      ensures synced[x][y].mass != 0.0
    {
      assert synced[x][y].mass == clone[x][y].mass;
    }
    SameShapeAllIn(clone, synced, ss, p);
    SameShapeAllIn(clone, synced, log, p);
    forall i | 0 <= i < |removed|
      ensures removed[i].m1 in mm && removed[i].m2 in mm
    {
      assert SpringIn(original, removed[i]);
      assert InBounds(removed[i].m1, p) && InBounds(removed[i].m2, p);
    }
  }

  /**
   * The loop of applyForces(chunk, ...) on values: walks slice s with its
   * iterator and integrates every mass that is neither fixed nor selected
   * under the springs ss, reading the snapshot; start is the grid before
   * the slice.
   */
  method PassOverSlice(start: Grid, s: Slice, snapshot: Grid, ss: seq<Spring>, gravity: Vec3, applyWind: bool,
                       calcForce: ForceFn, windAt: WindFn, p: Params) returns (g: Grid)
    requires IsGrid(start, p.cols, p.rows) && IsGrid(snapshot, p.cols, p.rows)
    requires Massive(snapshot) && p.timeStep != 0.0
    requires InGrid(s, p.cols, p.rows) && s.fetchNeighbours == applyWind
    requires s.isAtRightEdge <==> s.xEnd == p.cols
    requires s.isAtBottomEdge <==> s.yEnd == p.rows
    requires forall x, y :: 0 <= x < p.cols && 0 <= y < p.rows && (snapshot[x][y].fixed || snapshot[x][y].selected) ==>
               start[x][y] == snapshot[x][y]
    ensures IsGrid(g, p.cols, p.rows)
    ensures forall x, y :: 0 <= x < p.cols && 0 <= y < p.rows ==>
              g[x][y] == if Contains(s, x, y) then MassAfter(snapshot, ss, x, y, gravity, applyWind, calcForce, windAt, p)
                         else start[x][y]
  {
    g := start;
    var it := new SliceIterator(s, snapshot, p.cols, p.rows);
    CellsInSlice(s);
    while it.HasNext()
      invariant it.Valid() && it.slice == s && it.grid == snapshot && it.cols == p.cols && it.rows == p.rows
      invariant SliceDone(g, start, snapshot, ss, s, it.yielded, gravity, applyWind, calcForce, windAt, p)
      decreases |Cells(s)| - it.count
    {
      g := VisitNext(it, g, start, snapshot, ss, s, gravity, applyWind, calcForce, windAt, p);
    }
    CellsCoverSlice(s);
    assert it.yielded == Cells(s);
  }

  /**
   * One turn of the loop of PassOverSlice: takes the next mass of the
   * slice and its neighbours from the iterator and visits it.
   */
  method VisitNext(it: SliceIterator<MassState>, g: Grid, start: Grid, snapshot: Grid, ss: seq<Spring>, s: Slice,
                   gravity: Vec3, applyWind: bool, calcForce: ForceFn, windAt: WindFn, p: Params) returns (g': Grid)
    requires IsGrid(start, p.cols, p.rows) && IsGrid(snapshot, p.cols, p.rows)
    requires Massive(snapshot) && p.timeStep != 0.0
    requires InGrid(s, p.cols, p.rows) && s.fetchNeighbours == applyWind
    requires s.isAtRightEdge <==> s.xEnd == p.cols
    requires s.isAtBottomEdge <==> s.yEnd == p.rows
    requires forall x, y :: 0 <= x < p.cols && 0 <= y < p.rows && (snapshot[x][y].fixed || snapshot[x][y].selected) ==>
               start[x][y] == snapshot[x][y]
    requires it.Valid() && it.slice == s && it.grid == snapshot && it.cols == p.cols && it.rows == p.rows && it.HasNext()
    requires SliceDone(g, start, snapshot, ss, s, it.yielded, gravity, applyWind, calcForce, windAt, p)
    modifies it
    ensures it.Valid() && it.count == old(it.count) + 1
    ensures SliceDone(g', start, snapshot, ss, s, it.yielded, gravity, applyWind, calcForce, windAt, p)
  {
    var x, y := it.x, it.y;
    ghost var done := it.yielded;
    var m := it.Next();
    var right, bottom := None, None;
    if applyWind {
      right := it.RightNeighbour();
      bottom := it.BottomNeighbour();
    }
    g' := Visit(g, start, snapshot, ss, s, done, it.yielded, x, y, m, right, bottom, gravity, applyWind, calcForce, windAt, p);
  }

  /**
   * The loop body of PassOverSlice for the mass m at (x, y), which the
   * iterator has just returned with its neighbours: a mass that is neither
   * fixed nor selected is integrated, any other is left as it is.
   */
  method Visit(g: Grid, start: Grid, snapshot: Grid, ss: seq<Spring>, s: Slice, ghost done: seq<Coord>,
               ghost done': seq<Coord>, x: int, y: int, m: MassState, right: Option<MassState>, bottom: Option<MassState>,
               gravity: Vec3, applyWind: bool, calcForce: ForceFn, windAt: WindFn, p: Params) returns (g': Grid)
    requires IsGrid(start, p.cols, p.rows) && IsGrid(snapshot, p.cols, p.rows) && Massive(snapshot) && p.timeStep != 0.0
    requires InGrid(s, p.cols, p.rows) && Contains(s, x, y) && m == snapshot[x][y]
    requires s.isAtRightEdge <==> s.xEnd == p.cols
    requires s.isAtBottomEdge <==> s.yEnd == p.rows
    requires applyWind ==> right == if s.isAtRightEdge && x + 1 == s.xEnd then None else Some(snapshot[x + 1][y])
    requires applyWind ==> bottom == if s.isAtBottomEdge && y + 1 == s.yEnd then None else Some(snapshot[x][y + 1])
    requires forall x, y :: 0 <= x < p.cols && 0 <= y < p.rows && (snapshot[x][y].fixed || snapshot[x][y].selected) ==>
               start[x][y] == snapshot[x][y]
    requires SliceDone(g, start, snapshot, ss, s, done, gravity, applyWind, calcForce, windAt, p)
    requires done' == done + [(x, y)]
    ensures SliceDone(g', start, snapshot, ss, s, done', gravity, applyWind, calcForce, windAt, p)
  {
    if !(m.fixed || m.selected) {
      var next := IntegrateMass(snapshot, ss, x, y, right, bottom, gravity, applyWind, calcForce, windAt, p);
      SliceDoneWrite(g, start, snapshot, ss, s, done, gravity, applyWind, calcForce, windAt, p, x, y);
      g' := g[x := g[x][y := next]];
    } else {
      SliceDoneSkip(g, start, snapshot, ss, s, done, gravity, applyWind, calcForce, windAt, p, x, y);
      g' := g;
    }
  }

  /**
   * The body of the pass for one mass that is neither fixed nor selected:
   * spring forces, the wind force when both neighbours are there, gravity,
   * then the Verlet update.
   */
  method IntegrateMass(snapshot: Grid, ss: seq<Spring>, x: int, y: int, right: Option<MassState>, bottom: Option<MassState>,
                       gravity: Vec3, applyWind: bool, calcForce: ForceFn, windAt: WindFn, p: Params)
    returns (r: MassState)
    requires IsGrid(snapshot, p.cols, p.rows) && Massive(snapshot) && p.timeStep != 0.0
    requires 0 <= x < p.cols && 0 <= y < p.rows && !(snapshot[x][y].fixed || snapshot[x][y].selected)
    requires applyWind ==> right == if x + 1 < p.cols then Some(snapshot[x + 1][y]) else None
    requires applyWind ==> bottom == if y + 1 < p.rows then Some(snapshot[x][y + 1]) else None
    ensures r == MassAfter(snapshot, ss, x, y, gravity, applyWind, calcForce, windAt, p)
  {
    var m := snapshot[x][y];
    var sum := SumSpringForces(snapshot, ss, (x, y), calcForce);
    if applyWind && right != None && bottom != None {
      sum := Add(sum, windAt(m, right.value, bottom.value));
    } else {
      sum := Add(sum, Zero);
    }
    sum := Add(sum, gravity);
    r := Integrate(m, sum, p);
  }

  /** The loop over mass.springs: the summed force of the springs at c. */
  method SumSpringForces(g: Grid, ss: seq<Spring>, c: Coord, calcForce: ForceFn) returns (sum: Vec3)
    ensures sum == SpringForce(g, ss, c, calcForce)
  {
    sum := Zero;
    for i := 0 to |ss|
      invariant sum == SpringForce(g, ss[..i], c, calcForce)
    {
      assert ss[..i + 1][..i] == ss[..i];
      sum := Add(sum, SpringContribution(g, ss[i], c, calcForce));
    }
    assert ss[..|ss|] == ss;
  }

  /** The removal loop of updateFromOriginal: springs.remove(copy) for the copy of every drained spring. */
  method RemoveMapped(springs: seq<Spring>, removed: seq<Spring>, mm: map<Coord, Coord>) returns (remaining: seq<Spring>)
    requires Maps(mm, removed)
    ensures remaining == RemoveEach(springs, MapSprings(removed, mm))
  {
    remaining := springs;
    for i := 0 to |removed|
      invariant remaining == RemoveEach(springs, MapSprings(removed[..i], mm))
    {
      var r := removed[i];
      var copySpring := Spring(mm[r.m1], mm[r.m2]);
      MapSpringsSnoc(removed, mm, i);
      RemoveEachSnoc(springs, MapSprings(removed[..i], mm), copySpring);
      remaining := RemoveFirst(remaining, copySpring);
    }
    assert removed[..|removed|] == removed;
  }

  /** Springs that lie in a grid lie in every grid of the same shape. */
  lemma SameShapeAllIn(g1: Grid, g2: Grid, ss: seq<Spring>, p: Params)
    requires IsGrid(g1, p.cols, p.rows) && IsGrid(g2, p.cols, p.rows) && AllIn(g1, ss)
    ensures AllIn(g2, ss)
  {
    forall i | 0 <= i < |ss|
      ensures SpringIn(g2, ss[i])
    {
      assert SpringIn(g1, ss[i]);
    }
  }

  /** The copy loop of updateFromOriginal: every clone takes position and flags from its original. */
  method SyncGrid(clone: Grid, original: Grid, cols: nat, rows: nat) returns (g: Grid)
    requires IsGrid(clone, cols, rows) && IsGrid(original, cols, rows)
    ensures IsGrid(g, cols, rows)
    ensures forall x, y :: 0 <= x < cols && 0 <= y < rows ==> g[x][y] == Synced(clone[x][y], original[x][y])
  {
    g := [];
    for x := 0 to cols
      invariant |g| == x
      invariant forall a :: 0 <= a < x ==> |g[a]| == rows
      invariant forall a, b :: 0 <= a < x && 0 <= b < rows ==> g[a][b] == Synced(clone[a][b], original[a][b])
    {
      var column: seq<MassState> := [];
      for y := 0 to rows
        invariant |column| == y
        invariant forall b :: 0 <= b < y ==> column[b] == Synced(clone[x][b], original[x][b])
      {
        column := column + [Synced(clone[x][y], original[x][y])];
      }
      g := g + [column];
    }
  }

  /**
   * Progress of the pass over slice s: the cells of s in `done` hold their
   * MassAfter value, every other cell its value from `start`.
   */
  ghost predicate SliceDone(g: Grid, start: Grid, snapshot: Grid, ss: seq<Spring>, s: Slice, done: seq<Coord>,
                            gravity: Vec3, applyWind: bool, calcForce: ForceFn, windAt: WindFn, p: Params)
    requires IsGrid(snapshot, p.cols, p.rows) && Massive(snapshot) && p.timeStep != 0.0
  {
    && IsGrid(g, p.cols, p.rows) && IsGrid(start, p.cols, p.rows)
    && forall x, y {:trigger g[x][y]} :: 0 <= x < p.cols && 0 <= y < p.rows ==>
         g[x][y] == if Contains(s, x, y) && (x, y) in done
                    then MassAfter(snapshot, ss, x, y, gravity, applyWind, calcForce, windAt, p)
                    else start[x][y]
  }

  /** Writing the MassAfter value of a cell of s records that cell as done. */
  lemma SliceDoneWrite(g: Grid, start: Grid, snapshot: Grid, ss: seq<Spring>, s: Slice, done: seq<Coord>,
                       gravity: Vec3, applyWind: bool, calcForce: ForceFn, windAt: WindFn, p: Params, x: int, y: int)
    requires IsGrid(snapshot, p.cols, p.rows) && Massive(snapshot) && p.timeStep != 0.0
    requires SliceDone(g, start, snapshot, ss, s, done, gravity, applyWind, calcForce, windAt, p)
    requires 0 <= x < p.cols && 0 <= y < p.rows && Contains(s, x, y)
    ensures SliceDone(g[x := g[x][y := MassAfter(snapshot, ss, x, y, gravity, applyWind, calcForce, windAt, p)]],
                      start, snapshot, ss, s, done + [(x, y)], gravity, applyWind, calcForce, windAt, p)
  {
    var v := MassAfter(snapshot, ss, x, y, gravity, applyWind, calcForce, windAt, p);
    var g' := g[x := g[x][y := v]];
    forall a, b | 0 <= a < p.cols && 0 <= b < p.rows
      ensures g'[a][b] == if Contains(s, a, b) && (a, b) in done + [(x, y)]
                          then MassAfter(snapshot, ss, a, b, gravity, applyWind, calcForce, windAt, p)
                          else start[a][b]
    {
      assert (a, b) in done + [(x, y)] <==> (a, b) in done || (a, b) == (x, y);
    }
  }

  /** A fixed or selected cell of s that still holds its snapshot value is done without a write. */
  lemma SliceDoneSkip(g: Grid, start: Grid, snapshot: Grid, ss: seq<Spring>, s: Slice, done: seq<Coord>,
                      gravity: Vec3, applyWind: bool, calcForce: ForceFn, windAt: WindFn, p: Params, x: int, y: int)
    requires IsGrid(snapshot, p.cols, p.rows) && Massive(snapshot) && p.timeStep != 0.0
    requires SliceDone(g, start, snapshot, ss, s, done, gravity, applyWind, calcForce, windAt, p)
    requires 0 <= x < p.cols && 0 <= y < p.rows && Contains(s, x, y)
    requires (snapshot[x][y].fixed || snapshot[x][y].selected) && start[x][y] == snapshot[x][y]
    ensures SliceDone(g, start, snapshot, ss, s, done + [(x, y)], gravity, applyWind, calcForce, windAt, p)
  {
    forall a, b | 0 <= a < p.cols && 0 <= b < p.rows
      ensures g[a][b] == if Contains(s, a, b) && (a, b) in done + [(x, y)]
                         then MassAfter(snapshot, ss, a, b, gravity, applyWind, calcForce, windAt, p)
                         else start[a][b]
    {
      assert (a, b) in done + [(x, y)] <==> (a, b) in done || (a, b) == (x, y);
    }
  }

  /** Adding one slice to a list covers exactly the cells of that slice more. */
  lemma CoveredSnoc(T: seq<Slice>, s: Slice, x: int, y: int)
    ensures Covered(T + [s], x, y) <==> Covered(T, x, y) || Contains(s, x, y)
  {
    if Covered(T, x, y) {
      var k :| 0 <= k < |T| && Contains(T[k], x, y);
      assert (T + [s])[k] == T[k];
    }
    if Contains(s, x, y) {
      assert (T + [s])[|T|] == s;
    }
    if Covered(T + [s], x, y) {
      var k :| 0 <= k < |T + [s]| && Contains((T + [s])[k], x, y);
      if k < |T| {
        assert T[k] == (T + [s])[k];
      }
    }
  }
}

=== FILE: slice_iteration.dfy ===
/**
 * Iteration over one slice of the mass grid. Both iterators of Slice walk
 * the slice row by row, x varying fastest; the neighbour-fetching one also
 * reports, after each call to next(), the mass to the right of and the mass
 * below the one it returned, reading across the slice's border unless the
 * slice is flagged as at the grid's edge.
 */
module SliceIteration {
  import opened Common
  import opened Tiling

  /** grid[x][y] is the mass of column x, row y, as in Mass[][] massArray. */
  predicate IsGrid<M>(grid: seq<seq<M>>, cols: int, rows: int) {
    |grid| == cols && forall x :: 0 <= x < cols ==> |grid[x]| == rows
  }

  function Width(s: Slice): int { s.xEnd - s.xStart }
  function Height(s: Slice): int { s.yEnd - s.yStart }

  predicate WellFormed(s: Slice) { s.xStart <= s.xEnd && s.yStart <= s.yEnd }

  /** The k-th cell visited in slice s: row k / width, column k % width. */
  function CellAt(s: Slice, k: int): (int, int)
    requires Width(s) > 0
  {
    (s.xStart + k % Width(s), s.yStart + k / Width(s))
  }

  /** The cells of s in the order the iterators visit them. */
  function Cells(s: Slice): seq<(int, int)>
    requires WellFormed(s)
  {
    if Width(s) == 0 then [] else seq(Width(s) * Height(s), k => CellAt(s, k))
  }

  lemma CellsLength(s: Slice)
    requires WellFormed(s)
    ensures |Cells(s)| == Width(s) * Height(s)
  {
  }

  /** Visit number (y - yStart) * width + (x - xStart) is the cell (x, y). */
  lemma CellIndex(s: Slice, x: int, y: int)
    requires WellFormed(s) && Contains(s, x, y)
    ensures 0 <= (y - s.yStart) * Width(s) + (x - s.xStart) < |Cells(s)|
    ensures Cells(s)[(y - s.yStart) * Width(s) + (x - s.xStart)] == (x, y)
  {
    var w, h := Width(s), Height(s);
    var k := (y - s.yStart) * w + (x - s.xStart);
    MulMono(y - s.yStart, h - 1, w);
    assert (h - 1) * w + w == h * w;
    assert w * h == h * w;
    DivModOf(y - s.yStart, x - s.xStart, w);
  }

  /** Moving one cell on, or to the start of the next row, advances the visit number by one. */
  lemma NextIndex(s: Slice, x0: int, y0: int, x: int, y: int, k: int)
    requires WellFormed(s) && Contains(s, x0, y0) && k == (y0 - s.yStart) * Width(s) + (x0 - s.xStart)
    requires (x0 + 1 < s.xEnd && x == x0 + 1 && y == y0) || (x0 + 1 >= s.xEnd && x == s.xStart && y == y0 + 1)
    ensures k + 1 == (y - s.yStart) * Width(s) + (x - s.xStart)
  {
    if y == y0 + 1 {
      assert (y - s.yStart) * Width(s) == (y0 - s.yStart) * Width(s) + Width(s);
    }
  }

  /** Every visited cell lies in the slice. */
  lemma CellsInSlice(s: Slice)
    requires WellFormed(s)
    ensures forall k :: 0 <= k < |Cells(s)| ==> Contains(s, Cells(s)[k].0, Cells(s)[k].1)
  {
    forall k | 0 <= k < |Cells(s)|
      ensures Contains(s, Cells(s)[k].0, Cells(s)[k].1)
    {
      VisitInSlice(s, k);
    }
  }

  /** Every cell of the slice is visited. */
  lemma CellsCoverSlice(s: Slice)
    requires WellFormed(s)
    ensures forall x, y :: Contains(s, x, y) ==> (x, y) in Cells(s)
  {
    forall x, y | Contains(s, x, y)
      ensures (x, y) in Cells(s)
    {
      CellIndex(s, x, y);
    }
  }

  /** No cell is visited twice. */
  lemma CellsDistinct(s: Slice)
    requires WellFormed(s)
    ensures forall k1, k2 :: 0 <= k1 < k2 < |Cells(s)| ==> Cells(s)[k1] != Cells(s)[k2]
  {
    var C := Cells(s);
    var w := Width(s);
    forall k1, k2 | 0 <= k1 < k2 < |C|
      ensures C[k1] != C[k2]
    {
      assert k1 == (k1 / w) * w + k1 % w;
      assert k2 == (k2 / w) * w + k2 % w;
    }
  }

  /** x varies fastest: after the last column of a row comes the first column of the next. */
  lemma CellsRowMajor(s: Slice, k: int)
    requires WellFormed(s) && 0 <= k < |Cells(s)| - 1
    ensures Cells(s)[k + 1] == if Cells(s)[k].0 + 1 < s.xEnd then (Cells(s)[k].0 + 1, Cells(s)[k].1)
                               else (s.xStart, Cells(s)[k].1 + 1)
  {
    var w := Width(s);
    var q, r := k / w, k % w;
    assert k == q * w + r;
    if r + 1 < w {
      DivModOf(q, r + 1, w);
    } else {
      DivModOf(q + 1, 0, w);
      assert k + 1 == (q + 1) * w;
    }
  }

  lemma VisitInSlice(s: Slice, k: int)
    requires WellFormed(s) && 0 <= k < |Cells(s)|
    ensures Contains(s, Cells(s)[k].0, Cells(s)[k].1)
  {
    var w, h := Width(s), Height(s);
    var q := k / w;
    assert k == q * w + k % w;
    assert w * h == h * w;
    if q >= h {
      MulMono(h, q, w);
      assert false;
    }
  }

  /**
   * The iterator of Slice. `count` is the number of calls to next() so far
   * and `yielded` the cells they returned; `right` and `bottom` are the
   * neighbours of the last returned mass (meaningful for a slice that
   * fetches neighbours only).
   */
  class SliceIterator<M> {
    const slice: Slice
    const grid: seq<seq<M>>
    const cols: int
    const rows: int
    var x: int
    var y: int
    var right: Option<M>
    var bottom: Option<M>
    ghost var count: nat
    ghost var yielded: seq<(int, int)>

    ghost predicate Valid()
      reads this
    {
      var s := slice;
      && IsGrid(grid, cols, rows) && InGrid(s, cols, rows)
      && s.xStart <= x <= s.xEnd && s.yStart <= y <= s.yEnd
      && (Width(s) > 0 ==> x < s.xEnd)
      && (y == s.yEnd ==> x == s.xStart)
      && count == (y - s.yStart) * Width(s) + (x - s.xStart)
      && count <= |Cells(s)|
      && yielded == Cells(s)[..count]
    }

    /** Slice.iterator(): positioned on the slice's first cell, nothing returned yet. */
    constructor (slice: Slice, grid: seq<seq<M>>, cols: int, rows: int)
      requires IsGrid(grid, cols, rows) && InGrid(slice, cols, rows)
      ensures Valid() && this.slice == slice && this.grid == grid
      ensures this.cols == cols && this.rows == rows
      ensures count == 0 && yielded == [] && right == None && bottom == None
    {
      this.slice, this.grid, this.cols, this.rows := slice, grid, cols, rows;
      x, y := slice.xStart, slice.yStart;
      right, bottom := None, None;
      count, yielded := 0, [];
    }

    /** hasNext(): true exactly while fewer than width * height masses have been returned. */
    function HasNext(): (b: bool)
      requires Valid()
      reads this
      ensures b <==> count < Width(slice) * Height(slice)
    {
      var s := slice;
      CellsLength(s);
      if x < s.xEnd && y < s.yEnd then
        MulMono(y - s.yStart, Height(s) - 1, Width(s));
        assert (Height(s) - 1) * Width(s) + Width(s) == Height(s) * Width(s);
        assert Width(s) * Height(s) == Height(s) * Width(s);
        true
      else
        false
    }

    /**
     * next(): returns the mass of the next cell in row-major order and, for
     * a neighbour-fetching slice, records its right and bottom neighbours:
     * absent exactly at the slice's last column (row) when the slice is
     * flagged as at the grid's right (bottom) edge, the adjacent mass of the
     * grid otherwise. Unflagged slices must end before the grid does, or the
     * read falls outside the array.
     */
    method Next() returns (m: M)
      requires Valid() && HasNext()
      requires slice.fetchNeighbours ==> NeighbourSafe(slice, cols, rows)
      modifies this
      ensures Valid() && count == old(count) + 1
      ensures old(count) < |Cells(slice)| && yielded == old(yielded) + [Cells(slice)[old(count)]]
      ensures (old(x), old(y)) == Cells(slice)[old(count)] && m == grid[old(x)][old(y)]
      ensures slice.fetchNeighbours ==>
                right == (if slice.isAtRightEdge && old(x) + 1 == slice.xEnd then None
                          else Some(grid[old(x) + 1][old(y)]))
      ensures slice.fetchNeighbours ==>
                bottom == (if slice.isAtBottomEdge && old(y) + 1 == slice.yEnd then None
                           else Some(grid[old(x)][old(y) + 1]))
      ensures !slice.fetchNeighbours ==> right == old(right) && bottom == old(bottom)
    {
      var s := slice;
      ghost var k := count;
      CellIndex(s, x, y);
      assert Cells(s)[k] == (x, y);
      m := grid[x][y];
      if s.fetchNeighbours {
        if s.isAtRightEdge {
          right := if x + 1 < s.xEnd then Some(grid[x + 1][y]) else None;
        } else {
          right := Some(grid[x + 1][y]);
        }
        if s.isAtBottomEdge {
          bottom := if y + 1 < s.yEnd then Some(grid[x][y + 1]) else None;
        } else {
          bottom := Some(grid[x][y + 1]);
        }
      }
      yielded := yielded + [(x, y)];
      count := count + 1;
      var x0, y0 := x, y;
      x := x + 1;
      if x >= s.xEnd {
        x := s.xStart;
        y := y + 1;
      }
      NextIndex(s, x0, y0, x, y, k);
      assert Cells(s)[..count] == Cells(s)[..k] + [Cells(s)[k]];
    }

    /** rightNeighbour(); the plain iterator throws UnsupportedOperationException instead. */
    function RightNeighbour(): (r: Option<M>)
      requires slice.fetchNeighbours
      reads this
      ensures r == right
    {
      right
    }

    /** bottomNeighbour(); the plain iterator throws UnsupportedOperationException instead. */
    function BottomNeighbour(): (r: Option<M>)
      requires slice.fetchNeighbours
      reads this
      ensures r == bottom
    {
      bottom
    }
  }

  /** The masses of slice s in visiting order. */
  function SliceMasses<M>(s: Slice, grid: seq<seq<M>>, cols: int, rows: int): (ms: seq<M>)
    requires IsGrid(grid, cols, rows) && InGrid(s, cols, rows)
    ensures |ms| == |Cells(s)|
  {
    CellsInSlice(s);
    seq(|Cells(s)|, k requires 0 <= k < |Cells(s)| => grid[Cells(s)[k].0][Cells(s)[k].1])
  }

  /**
   * A for-each loop over a slice: drains a fresh iterator and returns the
   * masses in the order returned, which is the slice's row-major order.
   */
  method Walk<M>(s: Slice, grid: seq<seq<M>>, cols: int, rows: int) returns (visited: seq<M>)
    requires IsGrid(grid, cols, rows) && InGrid(s, cols, rows)
    requires s.fetchNeighbours ==> NeighbourSafe(s, cols, rows)
    ensures visited == SliceMasses(s, grid, cols, rows)
  {
    var it := new SliceIterator(s, grid, cols, rows);
    visited := [];
    CellsLength(s);
    ghost var all := SliceMasses(s, grid, cols, rows);
    while it.HasNext()
      invariant it.Valid() && it.slice == s && it.grid == grid && it.cols == cols && it.rows == rows
      invariant it.count <= |all| && visited == all[..it.count]
      decreases |Cells(s)| - it.count
    {
      ghost var k := it.count;
      var m := it.Next();
      assert m == all[k];
      assert all[..k + 1] == all[..k] + [all[k]];
      visited := visited + [m];
    }
    assert it.count == |all|;
  }
}

=== FILE: springs.dfy ===
/**
 * The mass grid and spring list of the newer engine as values, and the
 * list operations on springs: breakage (removeBrokenSprings), the mapping
 * of springs through the original-to-copy mass correspondence (createCopy)
 * and the removal of a drained log from a copy (updateFromOriginal).
 *
 * A mass is identified by its grid coordinate (column, row) and a spring by
 * its two endpoint coordinates, so two springs are equal exactly when they
 * join the same masses in the same order.
 */
module Springs {
  import opened Common

  type Coord = (int, int)

  /** The state of one Mass the engine reads and writes; normals and the per-mass spring list are left out. */
  datatype MassState = MassState(current: Vec3, previous: Vec3, mass: real, fixed: bool, selected: bool)

  datatype Spring = Spring(m1: Coord, m2: Coord)

  type Grid = seq<seq<MassState>>

  /** c names a mass of g: g[c.0][c.1]. */
  predicate Has(g: Grid, c: Coord) {
    0 <= c.0 < |g| && 0 <= c.1 < |g[c.0]|
  }

  function At(g: Grid, c: Coord): MassState
    requires Has(g, c)
  {
    g[c.0][c.1]
  }

  predicate SpringIn(g: Grid, s: Spring) { Has(g, s.m1) && Has(g, s.m2) }

  predicate AllIn(g: Grid, ss: seq<Spring>) {
    forall i :: 0 <= i < |ss| ==> SpringIn(g, ss[i])
  }

  /** Springs taken from a list of springs of g are springs of g. */
  lemma AllInSubset(g: Grid, a: seq<Spring>, b: seq<Spring>)
    requires AllIn(g, b) && forall s :: s in a ==> s in b
    ensures AllIn(g, a)
  {
    forall i | 0 <= i < |a|
      ensures SpringIn(g, a[i])
    {
      assert a[i] in b;
      var j :| 0 <= j < |b| && b[j] == a[i];
    }
  }

  // ---------------------------------------------------------------------
  // Breakage

  /**
   * A spring breaks when its squared length exceeds the squared maximum and
   * neither of its masses is selected (held by the user).
   */
  predicate Broken(g: Grid, s: Spring, maxLengthSquared: real)
    requires SpringIn(g, s)
  {
    SquaredDistance(At(g, s.m1).current, At(g, s.m2).current) > maxLengthSquared
    && !(At(g, s.m1).selected || At(g, s.m2).selected)
  }

  /** The springs that do not break, in list order. */
  function Survivors(g: Grid, ss: seq<Spring>, maxLengthSquared: real): (r: seq<Spring>)
    requires AllIn(g, ss)
    ensures |r| <= |ss|
  {
    if ss == [] then []
    else
      var last := ss[|ss| - 1];
      Survivors(g, ss[..|ss| - 1], maxLengthSquared) + (if Broken(g, last, maxLengthSquared) then [] else [last])
  }

  /** The springs that break, in list order. */
  function BrokenSprings(g: Grid, ss: seq<Spring>, maxLengthSquared: real): (r: seq<Spring>)
    requires AllIn(g, ss)
    ensures |r| <= |ss|
  {
    if ss == [] then []
    else
      var last := ss[|ss| - 1];
      BrokenSprings(g, ss[..|ss| - 1], maxLengthSquared) + (if Broken(g, last, maxLengthSquared) then [last] else [])
  }

  /** Breakage splits the list: what survives and what breaks are together exactly the old springs. */
  lemma {:induction false} BreakagePartition(g: Grid, ss: seq<Spring>, maxLengthSquared: real)
    requires AllIn(g, ss)
    ensures multiset(Survivors(g, ss, maxLengthSquared)) + multiset(BrokenSprings(g, ss, maxLengthSquared))
            == multiset(ss)
    ensures |Survivors(g, ss, maxLengthSquared)| + |BrokenSprings(g, ss, maxLengthSquared)| == |ss|
  {
    if ss != [] {
      var init, last := ss[..|ss| - 1], ss[|ss| - 1];
      BreakagePartition(g, init, maxLengthSquared);
      MultisetSnoc(ss);
      var kept, broken := Survivors(g, init, maxLengthSquared), BrokenSprings(g, init, maxLengthSquared);
      if Broken(g, last, maxLengthSquared) {
        assert BrokenSprings(g, ss, maxLengthSquared) == broken + [last];
        assert multiset(broken + [last]) == multiset(broken) + multiset{last};
      } else {
        assert Survivors(g, ss, maxLengthSquared) == kept + [last];
        assert multiset(kept + [last]) == multiset(kept) + multiset{last};
      }
    }
  }

  /** Survivors and broken springs are springs of the grid. */
  lemma {:induction false} BreakageInGrid(g: Grid, ss: seq<Spring>, maxLengthSquared: real)
    requires AllIn(g, ss)
    ensures AllIn(g, Survivors(g, ss, maxLengthSquared)) && AllIn(g, BrokenSprings(g, ss, maxLengthSquared))
  {
    if ss != [] {
      BreakageInGrid(g, ss[..|ss| - 1], maxLengthSquared);
    }
  }

  /** A spring survives iff it was there and does not break; it is logged iff it was there and breaks. */
  lemma {:induction false} BreakageMembership(g: Grid, ss: seq<Spring>, maxLengthSquared: real, s: Spring)
    requires AllIn(g, ss)
    ensures s in Survivors(g, ss, maxLengthSquared) <==> s in ss && !Broken(g, s, maxLengthSquared)
    ensures s in BrokenSprings(g, ss, maxLengthSquared) <==> s in ss && Broken(g, s, maxLengthSquared)
  {
    if ss != [] {
      var init := ss[..|ss| - 1];
      BreakageMembership(g, init, maxLengthSquared, s);
      assert ss == init + [ss[|ss| - 1]];
      assert s in ss <==> s in init || s == ss[|ss| - 1];
    }
  }

  /** Every survivor was in the list before, and survivors and broken springs number as many as the list. */
  lemma BreakageShrinks(g: Grid, ss: seq<Spring>, maxLengthSquared: real)
    requires AllIn(g, ss)
    ensures forall s :: s in Survivors(g, ss, maxLengthSquared) ==> s in ss
    ensures |Survivors(g, ss, maxLengthSquared)| + |BrokenSprings(g, ss, maxLengthSquared)| == |ss|
  {
    BreakagePartition(g, ss, maxLengthSquared);
    forall s | s in Survivors(g, ss, maxLengthSquared)
      ensures s in ss
    {
      BreakageMembership(g, ss, maxLengthSquared, s);
    }
  }

  /** Two lists of springs of g together are a list of springs of g. */
  lemma AllInAppend(g: Grid, a: seq<Spring>, b: seq<Spring>)
    requires AllIn(g, a) && AllIn(g, b)
    ensures AllIn(g, a + b)
  {
    forall i | 0 <= i < |a + b|
      ensures SpringIn(g, (a + b)[i])
    {
      if i < |a| {
        assert (a + b)[i] == a[i];
      } else {
        assert (a + b)[i] == b[i - |a|];
      }
    }
  }

  /**
   * Survivors and broken springs keep their relative order: filtering a
   * list made of two parts filters each part in place.
   */
  lemma {:induction false} BreakageKeepsOrder(g: Grid, a: seq<Spring>, b: seq<Spring>, maxLengthSquared: real)
    requires AllIn(g, a) && AllIn(g, b)
    ensures AllIn(g, a + b)
    ensures Survivors(g, a + b, maxLengthSquared) == Survivors(g, a, maxLengthSquared) + Survivors(g, b, maxLengthSquared)
    ensures BrokenSprings(g, a + b, maxLengthSquared) == BrokenSprings(g, a, maxLengthSquared) + BrokenSprings(g, b, maxLengthSquared)
  {
    AllInAppend(g, a, b);
    if b == [] {
      assert a + b == a;
    } else {
      var init, last := b[..|b| - 1], b[|b| - 1];
      assert AllIn(g, init);
      BreakageKeepsOrder(g, a, init, maxLengthSquared);
      var ab := a + b;
      assert ab[..|ab| - 1] == a + init && ab[|ab| - 1] == last;
      var tail := if Broken(g, last, maxLengthSquared) then [] else [last];
      assert Survivors(g, ab, maxLengthSquared) == Survivors(g, a + init, maxLengthSquared) + tail;
      assert Survivors(g, b, maxLengthSquared) == Survivors(g, init, maxLengthSquared) + tail;
      var tail' := if Broken(g, last, maxLengthSquared) then [last] else [];
      assert BrokenSprings(g, ab, maxLengthSquared) == BrokenSprings(g, a + init, maxLengthSquared) + tail';
      assert BrokenSprings(g, b, maxLengthSquared) == BrokenSprings(g, init, maxLengthSquared) + tail';
    }
  }

  // ---------------------------------------------------------------------
  // Springs through the original-to-copy correspondence

  /** The copy of spring s between the copies of its masses (spring.createCopy(copy1, copy2)). */
  function MapSpring(s: Spring, mm: map<Coord, Coord>): Spring
    requires s.m1 in mm && s.m2 in mm
  {
    Spring(mm[s.m1], mm[s.m2])
  }

  predicate Maps(mm: map<Coord, Coord>, ss: seq<Spring>) {
    forall i :: 0 <= i < |ss| ==> ss[i].m1 in mm && ss[i].m2 in mm
  }

  function MapSprings(ss: seq<Spring>, mm: map<Coord, Coord>): (r: seq<Spring>)
    requires Maps(mm, ss)
    ensures |r| == |ss|
    ensures forall i :: 0 <= i < |ss| ==> r[i] == MapSpring(ss[i], mm)
  {
    seq(|ss|, i requires 0 <= i < |ss| => MapSpring(ss[i], mm))
  }

  lemma MapSpringsSnoc(ss: seq<Spring>, mm: map<Coord, Coord>, i: int)
    requires Maps(mm, ss) && 0 <= i < |ss|
    ensures Maps(mm, ss[..i]) && Maps(mm, ss[..i + 1])
    ensures MapSprings(ss[..i + 1], mm) == MapSprings(ss[..i], mm) + [MapSpring(ss[i], mm)]
  {
  }

  /** Through a correspondence that is the identity on the springs' masses, the copied list is the list itself. */
  lemma MapSpringsIdentity(ss: seq<Spring>, mm: map<Coord, Coord>)
    requires Maps(mm, ss)
    requires forall i :: 0 <= i < |ss| ==> mm[ss[i].m1] == ss[i].m1 && mm[ss[i].m2] == ss[i].m2
    ensures MapSprings(ss, mm) == ss
  {
  }

  // ---------------------------------------------------------------------
  // Removing a drained log from the copy

  /** Removes, one after the other, the first occurrence of each spring of `removed` (springs.remove(copy)). */
  function RemoveEach(ss: seq<Spring>, removed: seq<Spring>): seq<Spring>
  {
    if removed == [] then ss
    else RemoveFirst(RemoveEach(ss, removed[..|removed| - 1]), removed[|removed| - 1])
  }

  lemma RemoveEachSnoc(ss: seq<Spring>, removed: seq<Spring>, r: Spring)
    ensures RemoveEach(ss, removed + [r]) == RemoveFirst(RemoveEach(ss, removed), r)
  {
    assert (removed + [r])[..|removed|] == removed;
  }

  /**
   * Removing a log takes away one occurrence per logged spring and nothing
   * else: the result is the multiset difference.
   */
  lemma {:induction false} RemoveEachCounts(ss: seq<Spring>, removed: seq<Spring>)
    ensures multiset(RemoveEach(ss, removed)) == multiset(ss) - multiset(removed)
  {
    if removed == [] {
      assert multiset(removed) == multiset{};
    } else {
      var init, last := removed[..|removed| - 1], removed[|removed| - 1];
      RemoveEachCounts(ss, init);
      MultisetSnoc(removed);
      RemoveEachLast(ss, removed);
      SubtractInTurn(multiset(RemoveEach(ss, removed)), multiset(RemoveEach(ss, init)),
                     multiset(ss), multiset(init), multiset(removed), last);
    }
  }

  /** The multiset of a non-empty list is that of all but its last element, plus the last. */
  lemma MultisetSnoc<T>(xs: seq<T>)
    requires xs != []
    ensures multiset(xs) == multiset(xs[..|xs| - 1]) + multiset{xs[|xs| - 1]}
  {
    assert xs == xs[..|xs| - 1] + [xs[|xs| - 1]];
  }

  /** Removing a non-empty log removes one occurrence of its last spring from what the rest leaves. */
  lemma RemoveEachLast(ss: seq<Spring>, removed: seq<Spring>)
    requires removed != []
    ensures multiset(RemoveEach(ss, removed))
            == multiset(RemoveEach(ss, removed[..|removed| - 1])) - multiset{removed[|removed| - 1]}
  {
  }

  /**
   * In a list without repeated springs, every spring of the log is gone
   * afterwards and every other spring is still there.
   */
  lemma RemoveEachRemoves(ss: seq<Spring>, removed: seq<Spring>, s: Spring)
    requires Occurrences(ss, s) <= 1
    ensures s in removed ==> s !in RemoveEach(ss, removed)
    ensures s !in removed ==> (s in RemoveEach(ss, removed) <==> s in ss)
  {
    RemoveEachCounts(ss, removed);
    if s in removed {
      assert multiset(removed)[s] >= 1;
      assert multiset(RemoveEach(ss, removed))[s] == 0;
    } else {
      assert multiset(removed)[s] == 0;
      assert multiset(RemoveEach(ss, removed))[s] == multiset(ss)[s];
    }
  }

  /** Removing springs never adds one: every remaining spring was in the list. */
  lemma RemoveEachShrinks(ss: seq<Spring>, removed: seq<Spring>)
    ensures forall s :: s in RemoveEach(ss, removed) ==> s in ss
  {
    RemoveEachCounts(ss, removed);
    forall s | s in RemoveEach(ss, removed)
      ensures s in ss
    {
      assert multiset(RemoveEach(ss, removed))[s] > 0;
    }
  }
}

=== FILE: tiling.dfy ===
/**
 * The spatial partitioner of the simulation engine: the column x row mass
 * grid is cut into near-square rectangular slices, one unit of parallel
 * work each. A slice is the half-open rectangle [xStart, xEnd) x [yStart, yEnd)
 * of grid coordinates (x is the column, y the row) and remembers whether it
 * touches the grid's right or bottom edge, which decides whether its
 * neighbour-fetching iterator may read one column / row past its end.
 */
module Tiling {
  import opened Common

  datatype Slice = Slice(xStart: int, yStart: int, xEnd: int, yEnd: int,
                         fetchNeighbours: bool, isAtRightEdge: bool, isAtBottomEdge: bool)

  type Positive = n: int | n >= 1 witness 1

  /** Grid dimensions, tile side and iterator kind of one partition. */
  datatype Layout = Layout(cols: nat, rows: nat, size: Positive, fetch: bool)

  predicate Contains(s: Slice, x: int, y: int) {
    s.xStart <= x < s.xEnd && s.yStart <= y < s.yEnd
  }

  /** The slice lies inside a grid of `cols` columns and `rows` rows. */
  predicate InGrid(s: Slice, cols: int, rows: int) {
    0 <= s.xStart <= s.xEnd <= cols && 0 <= s.yStart <= s.yEnd <= rows
  }

  /**
   * The neighbour iterator reads array[x+1][y] unless the slice is flagged
   * as at the right edge, and array[x][y+1] unless it is flagged as at the
   * bottom edge: those reads stay inside the grid only if an unflagged slice
   * ends before the grid does.
   */
  predicate NeighbourSafe(s: Slice, cols: int, rows: int) {
    (s.isAtRightEdge || s.xEnd < cols) && (s.isAtBottomEdge || s.yEnd < rows)
  }

  // ---------------------------------------------------------------------
  // Tile side: ceil(sqrt(batchCount)), at least 1

  function CeilSqrtFrom(n: int, s: nat): (r: nat)
    requires s == 0 || (s - 1) * (s - 1) < n
    ensures r >= s && r * r >= n && (r == 0 || (r - 1) * (r - 1) < n)
    decreases n - s
  {
    if s * s >= n then s
    else
      assert s <= s * s;
      CeilSqrtFrom(n, s + 1)
  }

  /** Math.ceil(Math.sqrt(n)) for an integer n; 0 when n <= 0. */
  function CeilSqrt(n: int): (r: nat)
    ensures r * r >= n
    ensures r == 0 || (r - 1) * (r - 1) < n
  {
    CeilSqrtFrom(n, 0)
  }

  /** horizSize == vertSize: ceil(sqrt(batchCount)) raised to at least 1. */
  function TileSize(batchCount: int): (s: Positive)
    ensures s * s >= batchCount
    ensures s == 1 || (s - 1) * (s - 1) < batchCount
  {
    var h := CeilSqrt(batchCount);
    if h < 1 then 1 else h
  }

  // ---------------------------------------------------------------------
  // Bands along one axis: `n / size` full bands of width `size`, then one
  // band of the remainder if it is non-zero.

  function Rest(n: nat, size: Positive): nat { n - (n / size) * size }

  function BandCount(n: nat, size: Positive): nat {
    n / size + (if Rest(n, size) > 0 then 1 else 0)
  }

  function BandLength(n: nat, size: Positive, b: int): int {
    if b < n / size then size else Rest(n, size)
  }

  /** Band b starts at b*size, is non-empty and ends inside [0, n]. */
  lemma BandBounds(n: nat, size: Positive, b: int)
    requires 0 <= b < BandCount(n, size)
    ensures 0 <= b * size
    ensures 1 <= BandLength(n, size, b) <= size
    ensures b * size + BandLength(n, size, b) <= n
    ensures b * size + BandLength(n, size, b) == n <==> b == BandCount(n, size) - 1
  {
    var q := n / size;
    assert Rest(n, size) == n % size;
    if b < q {
      assert b <= q - 1;
      assert b * size <= (q - 1) * size by { MulMono(b, q - 1, size); }
      assert (q - 1) * size + size == q * size;
      if b == BandCount(n, size) - 1 {
        assert Rest(n, size) == 0;
      }
      if b * size + size == n {
        assert q * size == n;
        MulMono(b + 1, q, size);
        if b + 1 < q {
          MulStrict(b + 1, q, size);
        }
      }
    } else {
      assert b == q;
    }
  }

  lemma {:induction false} MulMono(a: int, b: int, k: nat)
    requires a <= b
    ensures a * k <= b * k
  {
    if k > 0 { MulMono(a, b, k - 1); }
  }

  lemma MulStrict(a: int, b: int, k: int)
    requires a < b && k >= 1
    ensures a * k < b * k
  {
    assert b * k - a * k == (b - a) * k;
    AtLeastOnce(b - a, k);
  }

  /** A coordinate of [0, n) lies in band c / size, which is a real band. */
  lemma BandOf(n: nat, size: Positive, c: int)
    requires 0 <= c < n
    ensures 0 <= c / size < BandCount(n, size)
    ensures (c / size) * size <= c < (c / size) * size + BandLength(n, size, c / size)
  {
    var b := c / size;
    var q := n / size;
    assert b * size + c % size == c;
    MulMono(b, q, size) by { DivMono(c, n, size); }
    if b < q {
    } else {
      assert b == q by { DivMono(c, n, size); }
      assert c < n;
    }
  }

  lemma DivMono(a: int, b: int, d: Positive)
    requires 0 <= a <= b
    ensures a / d <= b / d
  {
    assert (b / d + 1) * d == (b / d) * d + d;
    if a / d > b / d {
      MulMono(b / d + 1, a / d, d);
      assert false;
    }
  }

  /** A coordinate inside band b identifies b. */
  lemma BandUnique(n: nat, size: Positive, b: int, c: int)
    requires 0 <= b < BandCount(n, size)
    requires b * size <= c < b * size + BandLength(n, size, b)
    ensures c / size == b
  {
    BandBounds(n, size, b);
    DivModOf(b, c - b * size, size);
  }

  // ---------------------------------------------------------------------
  // The partition as a value

  function NumCols(L: Layout): nat { BandCount(L.cols, L.size) }
  function NumRows(L: Layout): nat { BandCount(L.rows, L.size) }

  /**
   * Tile (r, c): column band c, row band r. It is flagged as at the right
   * (bottom) edge when it reaches the last column (row) of the grid.
   */
  function Tile(L: Layout, r: int, c: int): Slice {
    var x0, y0 := c * L.size, r * L.size;
    var x1, y1 := x0 + BandLength(L.cols, L.size, c), y0 + BandLength(L.rows, L.size, r);
    Slice(x0, y0, x1, y1, L.fetch, x1 >= L.cols, y1 >= L.rows)
  }

  /** One band of rows: its tiles from left to right. */
  function RowBand(L: Layout, r: int): seq<Slice> {
    seq(NumCols(L), c => Tile(L, r, c))
  }

  function TilesUpTo(L: Layout, n: nat): seq<Slice> {
    if n == 0 then [] else TilesUpTo(L, n - 1) + RowBand(L, n - 1)
  }

  /** All tiles, row band by row band, each band from left to right. */
  function Tiles(L: Layout): seq<Slice> { TilesUpTo(L, NumRows(L)) }

  lemma {:induction false} TilesUpToAt(L: Layout, n: nat, k: int)
    requires 0 <= k < n * NumCols(L)
    ensures |TilesUpTo(L, n)| == n * NumCols(L)
    ensures NumCols(L) > 0 && 0 <= k / NumCols(L) < n && 0 <= k % NumCols(L) < NumCols(L)
    ensures TilesUpTo(L, n)[k] == Tile(L, k / NumCols(L), k % NumCols(L))
  {
    var nc := NumCols(L);
    if nc == 0 {
      assert false;
    }
    TilesUpToLength(L, n - 1);
    var prefix := TilesUpTo(L, n - 1);
    assert TilesUpTo(L, n) == prefix + RowBand(L, n - 1);
    assert n * nc == (n - 1) * nc + nc;
    if k < (n - 1) * nc {
      TilesUpToAt(L, n - 1, k);
      assert TilesUpTo(L, n)[k] == prefix[k];
    } else {
      var c := k - (n - 1) * nc;
      DivModOf(n - 1, c, nc);
      assert TilesUpTo(L, n)[k] == RowBand(L, n - 1)[c];
    }
  }

  /** Tile k of the flat list is tile (k / columns, k % columns). */
  lemma TilesAt(L: Layout, k: int)
    requires 0 <= k < |Tiles(L)|
    ensures |Tiles(L)| == NumRows(L) * NumCols(L)
    ensures NumCols(L) > 0 && 0 <= k / NumCols(L) < NumRows(L) && 0 <= k % NumCols(L) < NumCols(L)
    ensures Tiles(L)[k] == Tile(L, k / NumCols(L), k % NumCols(L))
  {
    TilesLength(L);
    TilesUpToAt(L, NumRows(L), k);
  }

  lemma {:induction false} TilesUpToLength(L: Layout, n: nat)
    ensures |TilesUpTo(L, n)| == n * NumCols(L)
  {
    if n > 0 {
      TilesUpToLength(L, n - 1);
      assert n * NumCols(L) == (n - 1) * NumCols(L) + NumCols(L);
    }
  }

  lemma TilesLength(L: Layout)
    ensures |Tiles(L)| == NumRows(L) * NumCols(L)
  {
    TilesUpToLength(L, NumRows(L));
  }

  /**
   * Each tile is a non-empty rectangle inside the grid, of width `size` or
   * the column remainder and height `size` or the row remainder, and it is
   * flagged as at the right (bottom) edge exactly when it ends at the grid's
   * last column (row). So every tile is safe for the neighbour iterator.
   */
  lemma TileShape(L: Layout, r: int, c: int)
    requires 0 <= r < NumRows(L) && 0 <= c < NumCols(L)
    ensures var t := Tile(L, r, c);
      && InGrid(t, L.cols, L.rows)
      && t.xStart < t.xEnd && t.yStart < t.yEnd
      && (t.xEnd - t.xStart == L.size || t.xEnd - t.xStart == Rest(L.cols, L.size))
      && (t.yEnd - t.yStart == L.size || t.yEnd - t.yStart == Rest(L.rows, L.size))
      && (t.isAtRightEdge <==> t.xEnd == L.cols)
      && (t.isAtBottomEdge <==> t.yEnd == L.rows)
      && (t.isAtRightEdge <==> c == NumCols(L) - 1)
      && (t.isAtBottomEdge <==> r == NumRows(L) - 1)
      && NeighbourSafe(t, L.cols, L.rows)
      && t.fetchNeighbours == L.fetch
  {
    BandBounds(L.cols, L.size, c);
    BandBounds(L.rows, L.size, r);
  }

  /** The cell (x, y) of the grid lies in tile (y / size, x / size) and in no other. */
  lemma TileOfCell(L: Layout, x: int, y: int, r: int, c: int)
    requires 0 <= x < L.cols && 0 <= y < L.rows
    ensures 0 <= y / L.size < NumRows(L) && 0 <= x / L.size < NumCols(L)
    ensures Contains(Tile(L, y / L.size, x / L.size), x, y)
    ensures (0 <= r < NumRows(L) && 0 <= c < NumCols(L) && Contains(Tile(L, r, c), x, y))
              ==> r == y / L.size && c == x / L.size
  {
    BandOf(L.cols, L.size, x);
    BandOf(L.rows, L.size, y);
    if 0 <= r < NumRows(L) && 0 <= c < NumCols(L) && Contains(Tile(L, r, c), x, y) {
      BandUnique(L.cols, L.size, c, x);
      BandUnique(L.rows, L.size, r, y);
    }
  }

  /** Some slice of `T` contains the cell (x, y). */
  ghost predicate Covered(T: seq<Slice>, x: int, y: int) {
    exists k :: 0 <= k < |T| && Contains(T[k], x, y)
  }

  /** Every tile is a non-empty rectangle inside the grid, safe for the neighbour iterator. */
  lemma TilesInGrid(L: Layout)
    ensures forall k :: 0 <= k < |Tiles(L)| ==>
              (InGrid(Tiles(L)[k], L.cols, L.rows) && NeighbourSafe(Tiles(L)[k], L.cols, L.rows)
               && Tiles(L)[k].xStart < Tiles(L)[k].xEnd && Tiles(L)[k].yStart < Tiles(L)[k].yEnd)
  {
    var T := Tiles(L);
    forall k | 0 <= k < |T|
      ensures InGrid(T[k], L.cols, L.rows) && NeighbourSafe(T[k], L.cols, L.rows)
      ensures T[k].xStart < T[k].xEnd && T[k].yStart < T[k].yEnd
    {
      TilesAt(L, k);
      TileShape(L, k / NumCols(L), k % NumCols(L));
    }
  }

  /** Every cell of the grid lies in some tile: the tiles leave no gap. */
  lemma TilesCoverGrid(L: Layout)
    ensures forall x, y :: 0 <= x < L.cols && 0 <= y < L.rows ==> Covered(Tiles(L), x, y)
  {
    forall x, y | 0 <= x < L.cols && 0 <= y < L.rows
      ensures Covered(Tiles(L), x, y)
    {
      CellCovered(L, x, y);
    }
  }

  lemma CellCovered(L: Layout, x: int, y: int)
    requires 0 <= x < L.cols && 0 <= y < L.rows
    ensures Covered(Tiles(L), x, y)
  {
    var T := Tiles(L);
    var nc := NumCols(L);
    TilesLength(L);
    TileOfCell(L, x, y, 0, 0);
    var r, c := y / L.size, x / L.size;
    var k := r * nc + c;
    assert 0 <= k < |T| by {
      MulMono(r, NumRows(L) - 1, nc);
      assert (NumRows(L) - 1) * nc + nc == NumRows(L) * nc;
    }
    DivModOf(r, c, nc);
    TilesAt(L, k);
    assert Contains(T[k], x, y);
  }

  /** No cell lies in two tiles: the tiles do not overlap. */
  lemma TilesDisjoint(L: Layout)
    ensures forall k1, k2, x, y ::
              (0 <= k1 < |Tiles(L)| && 0 <= k2 < |Tiles(L)| &&
               Contains(Tiles(L)[k1], x, y) && Contains(Tiles(L)[k2], x, y)) ==> k1 == k2
  {
    forall k1, k2, x, y |
      0 <= k1 < |Tiles(L)| && 0 <= k2 < |Tiles(L)| && Contains(Tiles(L)[k1], x, y) && Contains(Tiles(L)[k2], x, y)
      ensures k1 == k2
    {
      TileIndexUnique(L, k1, k2, x, y);
    }
  }

  /** Two tiles holding the same cell are the same tile. */
  lemma TileIndexUnique(L: Layout, k1: int, k2: int, x: int, y: int)
    requires 0 <= k1 < |Tiles(L)| && 0 <= k2 < |Tiles(L)|
    requires Contains(Tiles(L)[k1], x, y) && Contains(Tiles(L)[k2], x, y)
    ensures k1 == k2
  {
    var nc := NumCols(L);
    TilesAt(L, k1);
    TilesAt(L, k2);
    var r1, c1, r2, c2 := k1 / nc, k1 % nc, k2 / nc, k2 % nc;
    TileShape(L, r1, c1);
    assert 0 <= x < L.cols && 0 <= y < L.rows;
    TileOfCell(L, x, y, r1, c1);
    TileOfCell(L, x, y, r2, c2);
    assert r1 == r2 && c1 == c2;
    DivModSplit(k1, nc);
    DivModSplit(k2, nc);
  }

  /** A number is its quotient times the divisor plus its remainder. */
  lemma DivModSplit(k: int, d: int)
    requires d > 0
    ensures k == (k / d) * d + k % d
  {
  }

  // ---------------------------------------------------------------------
  // splitArray

  /**
   * Cuts the grid into slices as splitArray does: full row bands first (each
   * one full column tiles, then the column remainder), then the row
   * remainder band. The edge flags are those of the corrected formula (see
   * RightEdgeAsWritten and BottomEdgeAsWritten for the ones in the source).
   */
  method SplitArray(cols: nat, rows: nat, batchCount: int, fetch: bool) returns (result: seq<Slice>)
    ensures result == Tiles(Layout(cols, rows, TileSize(batchCount), fetch))
  {
    var horizSize := CeilSqrt(batchCount);
    if horizSize < 1 {
      horizSize := 1;
    }
    var vertSize := horizSize;
    var L := Layout(cols, rows, horizSize, fetch);
    var vertSlices := rows / vertSize;
    var vertRest := rows - vertSlices * vertSize;
    var yEnd := vertSlices * vertSize;
    result := [];
    var y := 0;
    ghost var r := 0;
    while y < yEnd
      invariant 0 <= r <= vertSlices && y == r * vertSize
      invariant result == TilesUpTo(L, r)
    {
      if r == vertSlices {
        assert false;
      }
      var isAtBottomEdge := y + vertSize >= rows;
      var band := SplitRow(L, y, vertSize, isAtBottomEdge, r);
      result := result + band;
      y, r := y + vertSize, r + 1;
    }
    if vertRest > 0 {
      var band := SplitRow(L, y, vertRest, true, r);
      result := result + band;
      r := r + 1;
    }
    assert r == NumRows(L);
  }

  /** The tiles of one row band starting at row y, as the body of splitArray's outer loop adds them. */
  method SplitRow(L: Layout, y: int, height: int, isAtBottomEdge: bool, ghost r: nat)
    returns (band: seq<Slice>)
    requires 0 <= r < NumRows(L) && y == r * L.size && height == BandLength(L.rows, L.size, r)
    requires isAtBottomEdge == (y + height >= L.rows)
    ensures band == RowBand(L, r)
  {
    var horizSize := L.size;
    var horizSlices := L.cols / horizSize;
    var horizRest := L.cols - horizSlices * horizSize;
    var xEnd := horizSlices * horizSize;
    band := [];
    var x := 0;
    ghost var c := 0;
    while x < xEnd
      invariant 0 <= c <= horizSlices && x == c * horizSize
      invariant band == RowBand(L, r)[..c]
    {
      if c == horizSlices {
        assert false;
      }
      var isAtRightEdge := x + horizSize >= L.cols;
      ghost var t := Slice(x, y, x + horizSize, y + height, L.fetch, isAtRightEdge, isAtBottomEdge);
      assert t == Tile(L, r, c) == RowBand(L, r)[c];
      assert RowBand(L, r)[..c + 1] == RowBand(L, r)[..c] + [t];
      band := band + [Slice(x, y, x + horizSize, y + height, L.fetch, isAtRightEdge, isAtBottomEdge)];
      x, c := x + horizSize, c + 1;
    }
    if c < horizSlices {
      MulStrict(c, horizSlices, horizSize);
      assert false;
    }
    if horizRest > 0 {
      ghost var t := Slice(x, y, x + horizRest, y + height, L.fetch, true, isAtBottomEdge);
      assert t == Tile(L, r, c) == RowBand(L, r)[c];
      assert RowBand(L, r)[..c + 1] == RowBand(L, r)[..c] + [t];
      band := band + [Slice(x, y, x + horizRest, y + height, L.fetch, true, isAtBottomEdge)];
      c := c + 1;
    }
    assert band == RowBand(L, r)[..c];
    assert c == NumCols(L);
  }

  // ---------------------------------------------------------------------
  // The edge flags as splitArray writes them

  /** isAtRightEdge of a full-width tile starting at column x (lines 717 and 728). */
  function RightEdgeAsWritten(x: int, horizRest: int, xEnd: int): bool {
    x + horizRest >= xEnd
  }

  /** isAtBottomEdge of a full-height tile starting at row y (line 714). */
  function BottomEdgeAsWritten(y: int, vertSize: int, yEnd: int): bool {
    y + vertSize >= yEnd
  }

  /** Tile (r, c) with the edge flags of the source; remainder tiles are always flagged. */
  function TileAsWritten(L: Layout, r: int, c: int): Slice {
    var t := Tile(L, r, c);
    var xEnd, yEnd := (L.cols / L.size) * L.size, (L.rows / L.size) * L.size;
    t.(isAtRightEdge := if c < L.cols / L.size then RightEdgeAsWritten(t.xStart, Rest(L.cols, L.size), xEnd) else true,
       isAtBottomEdge := if r < L.rows / L.size then BottomEdgeAsWritten(t.yStart, L.size, yEnd) else true)
  }

  /** The source never flags a full-width tile as at the right edge. */
  lemma RightEdgeAsWrittenNeverSet(L: Layout, r: int, c: int)
    requires 0 <= c < L.cols / L.size
    ensures !TileAsWritten(L, r, c).isAtRightEdge
  {
    var q := L.cols / L.size;
    MulMono(c, q - 1, L.size);
    assert (q - 1) * L.size + L.size == q * L.size;
    assert Rest(L.cols, L.size) == L.cols % L.size;
  }

  /**
   * When the column count is a multiple of the tile side, the last column of
   * tiles ends at the grid's right edge without the flag: its neighbour
   * iterator reads array[cols][y], outside the grid.
   */
  lemma RightEdgeAsWrittenUnsafe(L: Layout, r: int)
    requires L.cols > 0 && Rest(L.cols, L.size) == 0 && 0 <= r < NumRows(L)
    ensures NumCols(L) == L.cols / L.size
    ensures TileAsWritten(L, r, NumCols(L) - 1).xEnd == L.cols
    ensures !NeighbourSafe(TileAsWritten(L, r, NumCols(L) - 1), L.cols, L.rows)
  {
    assert L.cols / L.size >= 1;
    BandBounds(L.cols, L.size, NumCols(L) - 1);
    RightEdgeAsWrittenNeverSet(L, r, NumCols(L) - 1);
  }

  /** A concrete case: a 2 x 2 grid with one batch; tile (0, 1) reads column 2. */
  lemma RightEdgeAsWrittenExample()
    ensures var L := Layout(2, 2, TileSize(1), true);
      && TileAsWritten(L, 0, 1) == Slice(1, 0, 2, 1, true, false, false)
      && !NeighbourSafe(TileAsWritten(L, 0, 1), 2, 2)
  {
    var L := Layout(2, 2, TileSize(1), true);
    assert TileSize(1) == 1 by {
      assert CeilSqrt(1) == 1 by { assert CeilSqrtFrom(1, 1) == 1; }
    }
  }

  /**
   * When the row count is not a multiple of the tile side, the last band of
   * full-height tiles is flagged as at the bottom edge though the remainder
   * band lies below it: its last row gets no bottom neighbour.
   */
  lemma BottomEdgeAsWrittenHidesNeighbour(L: Layout, c: int)
    requires Rest(L.rows, L.size) > 0 && L.rows / L.size >= 1
    ensures TileAsWritten(L, L.rows / L.size - 1, c).isAtBottomEdge
    ensures TileAsWritten(L, L.rows / L.size - 1, c).yEnd < L.rows
    ensures !Tile(L, L.rows / L.size - 1, c).isAtBottomEdge
  {
    var q := L.rows / L.size;
    assert (q - 1) * L.size + L.size == q * L.size;
  }

  // ---------------------------------------------------------------------
  // Index logic of the normal calculation

  /**
   * The cells calculateAveragedNormal(x, y, rowCount, columnCount) reads
   * besides (x, y): the pairs of neighbours of up to four triangles, each
   * guarded by its bounds test (lines 471-497).
   */
  function NormalReadsAt(x: int, y: int, rowCount: int, columnCount: int): set<(int, int)> {
    (if x + 1 < columnCount && y + 1 < rowCount then {(x + 1, y), (x, y + 1)} else {}) +
    (if x + 1 < columnCount && y - 1 >= 0 then {(x, y - 1), (x + 1, y)} else {}) +
    (if x - 1 >= 0 && y - 1 >= 0 then {(x - 1, y), (x, y - 1)} else {}) +
    (if x - 1 >= 0 && y + 1 < rowCount then {(x, y + 1), (x - 1, y)} else {})
  }

  /** Line 452 passes (xEnd, yEnd) for the parameters (rowCount, columnCount). */
  function NormalReadsAsWritten(s: Slice, x: int, y: int): set<(int, int)> {
    NormalReadsAt(x, y, s.xEnd, s.yEnd)
  }

  /** The bounds in the order the parameters name them. */
  function SliceNormalReads(s: Slice, x: int, y: int): set<(int, int)> {
    NormalReadsAt(x, y, s.yEnd, s.xEnd)
  }

  /** With the bounds in their named order, every read of a cell of a slice stays in the grid. */
  lemma SliceNormalReadsInGrid(s: Slice, cols: int, rows: int, x: int, y: int)
    requires InGrid(s, cols, rows) && Contains(s, x, y)
    ensures forall p :: p in SliceNormalReads(s, x, y) ==> 0 <= p.0 < cols && 0 <= p.1 < rows
    ensures forall p :: p in SliceNormalReads(s, x, y) ==> p.0 < s.xEnd && p.1 < s.yEnd
  {
  }

  /**
   * A concrete case of the swapped bounds: a grid of one column and three
   * rows split for four batches; its first tile is one column wide and two
   * rows high, and the normal of cell (0, 1) reads cell (1, 1), outside the grid.
   * The tile is the one with the corrected edge flags; the source also flags
   * it as at the bottom edge (line 714), which does not matter here because
   * calculateNormals reads only the tile's bounds, never its flags.
   */
  lemma NormalReadsAsWrittenOutsideGrid()
    ensures var L := Layout(1, 3, TileSize(4), false);
      && Tiles(L)[0] == Slice(0, 0, 1, 2, false, true, false)
      && (1, 1) in NormalReadsAsWritten(Tiles(L)[0], 0, 1)
      && 1 >= L.cols
  {
    TileSizeOfFour();
    var L := Layout(1, 3, 2, false);
    FirstTileOfOneByThree();
    var t := Slice(0, 0, 1, 2, false, true, false);
    assert (1, 1) in NormalReadsAt(0, 1, 1, 2) by {
      assert 0 + 1 < 2 && 1 - 1 >= 0;
    }
  }

  lemma TileSizeOfFour()
    ensures TileSize(4) == 2
  {
    assert CeilSqrtFrom(4, 2) == 2;
    assert CeilSqrtFrom(4, 1) == 2;
  }

  /**
   * The first tile of a grid of one column and three rows with side 2: with
   * the corrected flags it is at the right edge only (as written it is also
   * flagged as at the bottom edge: OneByThreeFirstTileAsWritten).
   */
  lemma FirstTileOfOneByThree()
    ensures Tiles(Layout(1, 3, 2, false))[0] == Slice(0, 0, 1, 2, false, true, false)
  {
    var L := Layout(1, 3, 2, false);
    OneByThreeBands();
    TilesLength(L);
    FirstTile(L);
    OneByThreeFirstTile();
  }

  /** The first tile of a non-empty layout is its top-left one. */
  lemma FirstTile(L: Layout)
    requires |Tiles(L)| > 0
    ensures Tiles(L)[0] == Tile(L, 0, 0)
  {
    TilesAt(L, 0);
  }

  /** A grid of one column and three rows in tiles of side 2: one band of columns, two of rows. */
  lemma OneByThreeBands()
    ensures NumCols(Layout(1, 3, 2, false)) == 1 && NumRows(Layout(1, 3, 2, false)) == 2
  {
  }

  /** Its top-left tile is one column wide and two rows high, and it reaches the right edge only. */
  lemma OneByThreeFirstTile()
    ensures Tile(Layout(1, 3, 2, false), 0, 0) == Slice(0, 0, 1, 2, false, true, false)
  {
    TileAtOrigin(Layout(1, 3, 2, false));
    OneByThreeBandLengths();
  }

  /** As written, the same tile is also flagged as at the bottom edge, since 0 + 2 >= 2 at line 714. */
  lemma OneByThreeFirstTileAsWritten()
    ensures TileAsWritten(Layout(1, 3, 2, false), 0, 0) == Slice(0, 0, 1, 2, false, true, true)
  {
    OneByThreeFirstTile();
    TopLeftAsWritten(Layout(1, 3, 2, false));
  }

  /**
   * In a grid narrower than one tile and between one and two tiles high,
   * the top-left tile as written is flagged at both edges: it is a rest tile
   * across, and line 714 flags the single full band of rows.
   */
  lemma TopLeftAsWritten(L: Layout)
    requires L.cols < L.size <= L.rows < 2 * L.size
    ensures TileAsWritten(L, 0, 0) == Tile(L, 0, 0).(isAtRightEdge := true, isAtBottomEdge := true)
  {
    DivModOf(0, L.cols, L.size);
    DivModOf(1, L.rows - L.size, L.size);
    assert BottomEdgeAsWritten(Tile(L, 0, 0).yStart, L.size, (L.rows / L.size) * L.size);
  }

  lemma OneByThreeBandLengths()
    ensures BandLength(1, 2, 0) == 1 && BandLength(3, 2, 0) == 2
  {
  }

  /** The top-left tile starts at (0, 0) and spans the first band of columns and of rows. */
  lemma TileAtOrigin(L: Layout)
    ensures var x1, y1 := BandLength(L.cols, L.size, 0), BandLength(L.rows, L.size, 0);
      Tile(L, 0, 0) == Slice(0, 0, x1, y1, L.fetch, x1 >= L.cols, y1 >= L.rows)
  {
  }
}

=== FILE: wind.dfy ===
/**
 * The wind simulator: a small state machine advanced once per simulation
 * step. Every stepsUntilDirectionChanged steps it draws a new desired force
 * and direction and sets per-step increments that reach them in
 * stepsUntilDirectionAdjusted steps; on the other steps it nudges the
 * current force and direction by one increment while they are not yet
 * within tolerance of the desired ones. Disabled wind is all zero.
 *
 * Floats are reals here. The random source and the conversion of the two
 * drawn angles into a unit vector (SphericalCoordinates) are inputs: a Draw
 * carries the force draw and the resulting direction.
 */
module Wind {
  import opened Common

  datatype WindParameters = WindParameters(
    enabled: bool,
    minForce: real,
    maxForce: real,
    stepsUntilDirectionChanged: int,
    stepsUntilDirectionAdjusted: int)

  /** The random input of one retarget: random.nextFloat() for the force, and the drawn unit direction. */
  datatype Draw = Draw(forceDraw: real, direction: Vec3)

  /** The force is nudged only while it is more than this away from the desired force. */
  const ForceTolerance: real := 0.01
  /** The direction is nudged only while its squared distance to the desired one exceeds this (0.01 * 0.01). */
  const DirectionTolerance: real := 0.0001

  function Abs(r: real): real { if r < 0.0 then -r else r }

  /** The desired force of a retarget: minForce + r * (maxForce - minForce). */
  function DrawnForce(p: WindParameters, r: real): real {
    p.minForce + r * (p.maxForce - p.minForce)
  }

  /** With a draw in [0, 1), the desired force lies in [minForce, maxForce], below maxForce unless the range is a point. */
  lemma DrawnForceInRange(p: WindParameters, r: real)
    requires 0.0 <= r < 1.0 && p.minForce <= p.maxForce
    ensures p.minForce <= DrawnForce(p, r) <= p.maxForce
    ensures p.minForce < p.maxForce ==> DrawnForce(p, r) < p.maxForce
  {
    var w := p.maxForce - p.minForce;
    var f := DrawnForce(p, r);
    assert f - p.minForce == r * w;
    assert r * w >= 0.0;
    assert p.maxForce - f == (1.0 - r) * w;
    assert (1.0 - r) * w >= 0.0;
    if w > 0.0 {
      assert (1.0 - r) * w > 0.0;
    }
  }

  /** One nudge of the force (stepDirectionAndForce, lines 60-63). */
  function NudgeForce(current: real, desired: real, increment: real): real {
    if Abs(desired - current) > ForceTolerance then current + increment else current
  }

  /** One nudge of the direction (lines 64-67). */
  function NudgeDirection(current: Vec3, desired: Vec3, increment: Vec3): Vec3 {
    if SquaredDistance(current, desired) > DirectionTolerance then Add(current, increment) else current
  }

  /** Every state field of a WindSimulator, as one value. */
  datatype WindState = WindState(
    params: WindParameters,
    currentDirection: Vec3, desiredDirection: Vec3,
    currentForce: real, desiredForce: real,
    directionIncrement: Vec3, forceIncrement: real,
    stepCount: int)

  /**
   * The state generateNewDirectionAndForce leaves: all zero when disabled;
   * otherwise the drawn target, with increments that close the gap from the
   * current force and direction in stepsUntilDirectionAdjusted nudges.
   */
  function Retarget(s: WindState, d: Draw): WindState
    requires s.params.enabled ==> s.params.stepsUntilDirectionAdjusted != 0
  {
    if !s.params.enabled then
      s.(currentDirection := Zero, desiredDirection := Zero, directionIncrement := Zero,
         currentForce := 0.0, desiredForce := 0.0, forceIncrement := 0.0)
    else
      var n := s.params.stepsUntilDirectionAdjusted as real;
      var f := DrawnForce(s.params, d.forceDraw);
      s.(desiredForce := f, forceIncrement := (f - s.currentForce) / n,
         desiredDirection := d.direction,
         directionIncrement := Scale(Sub(d.direction, s.currentDirection), 1.0 / n))
  }

  /** The state stepDirectionAndForce leaves: one nudge of force and direction. */
  function Nudge(s: WindState): WindState {
    s.(currentForce := NudgeForce(s.currentForce, s.desiredForce, s.forceIncrement),
       currentDirection := NudgeDirection(s.currentDirection, s.desiredDirection, s.directionIncrement))
  }

  /** The state of a new simulator: zero fields and a step count of 0, then one retarget. */
  function InitialState(params: WindParameters, d: Draw): WindState
    requires params.enabled ==> params.stepsUntilDirectionAdjusted != 0
  {
    Retarget(WindState(params, Zero, Zero, 0.0, 0.0, Zero, 0.0, 0), d)
  }

  /** The state after one step(): count it, then retarget or nudge when enabled. */
  function StepState(s: WindState, d: Draw): WindState
    requires s.params.enabled ==> s.params.stepsUntilDirectionChanged != 0 && s.params.stepsUntilDirectionAdjusted != 0
  {
    var counted := s.(stepCount := s.stepCount + 1);
    if !s.params.enabled then counted
    else if counted.stepCount % s.params.stepsUntilDirectionChanged == 0 then Retarget(counted, d)
    else Nudge(counted)
  }

  /** True when none of the next k steps from step count c retargets. */
  predicate NoRetargetWithin(p: WindParameters, c: int, k: nat)
    requires p.stepsUntilDirectionChanged != 0
  {
    forall i :: c < i <= c + k ==> i % p.stepsUntilDirectionChanged != 0
  }

  /** The state after one step per draw. */
  function StepsState(s: WindState, ds: seq<Draw>): WindState
    requires s.params.enabled ==> s.params.stepsUntilDirectionChanged != 0 && s.params.stepsUntilDirectionAdjusted != 0
    decreases |ds|
  {
    if ds == [] then s else StepsState(StepState(s, ds[0]), ds[1..])
  }

  /**
   * Steps of an enabled simulator that do not retarget only nudge: after k
   * of them the force and direction are ForceAfter and DirectionAfter of k
   * nudges, the target and increments are untouched, and the count is k higher.
   */
  lemma {:induction false} StepsOnlyNudge(s: WindState, ds: seq<Draw>)
    requires s.params.enabled && s.params.stepsUntilDirectionChanged != 0 && s.params.stepsUntilDirectionAdjusted != 0
    requires NoRetargetWithin(s.params, s.stepCount, |ds|)
    ensures var r := StepsState(s, ds);
      && r.currentForce == ForceAfter(s.currentForce, s.desiredForce, s.forceIncrement, |ds|)
      && r.currentDirection == DirectionAfter(s.currentDirection, s.desiredDirection, s.directionIncrement, |ds|)
      && r.desiredForce == s.desiredForce && r.forceIncrement == s.forceIncrement
      && r.desiredDirection == s.desiredDirection && r.directionIncrement == s.directionIncrement
      && r.params == s.params && r.stepCount == s.stepCount + |ds|
    decreases |ds|
  {
    if ds != [] {
      var s' := StepState(s, ds[0]);
      assert s' == Nudge(s.(stepCount := s.stepCount + 1));
      assert NoRetargetWithin(s'.params, s'.stepCount, |ds[1..]|);
      StepsOnlyNudge(s', ds[1..]);
    }
  }

  /**
   * N steps after a retarget (N the number of steps to adjust), with no
   * other retarget among them: the direction is within tolerance of its
   * target; it is exactly the target when each of the N equal direction
   * steps is longer than the tolerance; and the force is exactly the target
   * when the force gap exceeds 0.01·N.
   */
  lemma RetargetReached(s: WindState, d: Draw, ds: seq<Draw>)
    requires s.params.enabled && s.params.stepsUntilDirectionChanged != 0 && s.params.stepsUntilDirectionAdjusted > 0
    requires |ds| == s.params.stepsUntilDirectionAdjusted
    requires NoRetargetWithin(s.params, s.stepCount, |ds|)
    ensures Abs(DrawnForce(s.params, d.forceDraw) - s.currentForce) > ForceTolerance * |ds| as real ==>
              StepsState(Retarget(s, d), ds).currentForce == DrawnForce(s.params, d.forceDraw)
    ensures SquaredDistance(StepsState(Retarget(s, d), ds).currentDirection, d.direction) <= DirectionTolerance
    ensures var q := Retarget(s, d).directionIncrement;
      Dot(q, q) > DirectionTolerance ==> StepsState(Retarget(s, d), ds).currentDirection == d.direction
  {
    var t := Retarget(s, d);
    var n := |ds|;
    StepsOnlyNudge(t, ds);
    if Abs(DrawnForce(s.params, d.forceDraw) - s.currentForce) > ForceTolerance * n as real {
      ForceReachesTarget(s.currentForce, t.desiredForce, n, 0);
      assert Lerp(s.currentForce, t.forceIncrement, 0) == s.currentForce;
    }
    DirectionConverges(s.currentDirection, d.direction, n, 0, n);
    assert LerpDirection(s.currentDirection, t.directionIncrement, 0) == s.currentDirection;
    if Dot(t.directionIncrement, t.directionIncrement) > DirectionTolerance {
      DirectionReachesTarget(s.currentDirection, d.direction, n, 0);
    }
  }

  class WindSimulator {
    var params: WindParameters
    var currentDirection: Vec3
    var desiredDirection: Vec3
    var currentForce: real
    var desiredForce: real
    var directionIncrement: Vec3
    var forceIncrement: real
    var stepCount: int

    function State(): WindState
      reads this
    {
      WindState(params, currentDirection, desiredDirection, currentForce, desiredForce,
                directionIncrement, forceIncrement, stepCount)
    }

    /** All state of a disabled simulator is zero. */
    ghost predicate Zeroed()
      reads this
    {
      currentForce == 0.0 && desiredForce == 0.0 && forceIncrement == 0.0 &&
      currentDirection == Zero && desiredDirection == Zero && directionIncrement == Zero
    }

    /** new WindSimulator(random, params): Java's zero fields, then a first retarget. */
    constructor (params: WindParameters, draw: Draw)
      requires params.enabled ==> params.stepsUntilDirectionAdjusted != 0
      ensures State() == InitialState(params, draw)
      ensures this.params == params && stepCount == 0
      ensures !params.enabled ==> Zeroed()
      ensures params.enabled ==>
                && currentForce == 0.0 && currentDirection == Zero
                && desiredForce == DrawnForce(params, draw.forceDraw)
                && forceIncrement == desiredForce / params.stepsUntilDirectionAdjusted as real
                && desiredDirection == draw.direction
                && directionIncrement == Scale(draw.direction, 1.0 / params.stepsUntilDirectionAdjusted as real)
    {
      this.params := params;
      currentDirection, desiredDirection, directionIncrement := Zero, Zero, Zero;
      currentForce, desiredForce, forceIncrement := 0.0, 0.0, 0.0;
      stepCount := 0;
      new;
      GenerateNewDirectionAndForce(draw);
    }

    /** set(other): every state field becomes other's. */
    method Set(other: WindSimulator)
      modifies this
      ensures State() == old(other.State())
    {
      params := other.params;
      currentDirection := other.currentDirection;
      desiredDirection := other.desiredDirection;
      currentForce := other.currentForce;
      desiredForce := other.desiredForce;
      directionIncrement := other.directionIncrement;
      forceIncrement := other.forceIncrement;
      stepCount := other.stepCount;
    }

    /**
     * step(): counts the step; when enabled, retargets on every
     * stepsUntilDirectionChanged-th step and nudges on all others. When
     * disabled nothing but the counter changes.
     */
    method Step(draw: Draw)
      requires params.enabled ==> params.stepsUntilDirectionChanged != 0 && params.stepsUntilDirectionAdjusted != 0
      modifies this
      ensures State() == StepState(old(State()), draw)
      ensures stepCount == old(stepCount) + 1 && params == old(params)
      ensures !params.enabled ==>
                && currentForce == old(currentForce) && desiredForce == old(desiredForce)
                && forceIncrement == old(forceIncrement)
                && currentDirection == old(currentDirection) && desiredDirection == old(desiredDirection)
                && directionIncrement == old(directionIncrement)
      ensures params.enabled && stepCount % params.stepsUntilDirectionChanged == 0 ==>
                && currentForce == old(currentForce) && currentDirection == old(currentDirection)
                && desiredForce == DrawnForce(params, draw.forceDraw)
                && forceIncrement == (desiredForce - currentForce) / params.stepsUntilDirectionAdjusted as real
                && desiredDirection == draw.direction
                && directionIncrement == Scale(Sub(desiredDirection, currentDirection), 1.0 / params.stepsUntilDirectionAdjusted as real)
      ensures params.enabled && stepCount % params.stepsUntilDirectionChanged != 0 ==>
                && currentForce == NudgeForce(old(currentForce), old(desiredForce), old(forceIncrement))
                && currentDirection == NudgeDirection(old(currentDirection), old(desiredDirection), old(directionIncrement))
                && desiredForce == old(desiredForce) && forceIncrement == old(forceIncrement)
                && desiredDirection == old(desiredDirection) && directionIncrement == old(directionIncrement)
    {
      stepCount := stepCount + 1;
      if params.enabled {
        if stepCount % params.stepsUntilDirectionChanged == 0 {
          GenerateNewDirectionAndForce(draw);
        } else {
          StepDirectionAndForce();
        }
      }
    }

    /** stepDirectionAndForce(): one nudge of force and direction towards the desired ones. */
    method StepDirectionAndForce()
      modifies this
      ensures currentForce == NudgeForce(old(currentForce), old(desiredForce), old(forceIncrement))
      ensures currentDirection == NudgeDirection(old(currentDirection), old(desiredDirection), old(directionIncrement))
      ensures params == old(params) && stepCount == old(stepCount)
      ensures desiredForce == old(desiredForce) && forceIncrement == old(forceIncrement)
      ensures desiredDirection == old(desiredDirection) && directionIncrement == old(directionIncrement)
    {
      if Abs(desiredForce - currentForce) > ForceTolerance {
        currentForce := currentForce + forceIncrement;
      }
      if SquaredDistance(currentDirection, desiredDirection) > DirectionTolerance {
        currentDirection := Add(currentDirection, directionIncrement);
      }
    }

    /**
     * generateNewDirectionAndForce(): when disabled, zeroes everything;
     * otherwise draws the desired force and direction and sets the
     * increments to reach them in stepsUntilDirectionAdjusted nudges.
     */
    method GenerateNewDirectionAndForce(draw: Draw)
      requires params.enabled ==> params.stepsUntilDirectionAdjusted != 0
      modifies this
      ensures params == old(params) && stepCount == old(stepCount)
      ensures !params.enabled ==> Zeroed()
      ensures params.enabled ==>
                && currentForce == old(currentForce) && currentDirection == old(currentDirection)
                && desiredForce == DrawnForce(params, draw.forceDraw)
                && forceIncrement == (desiredForce - currentForce) / params.stepsUntilDirectionAdjusted as real
                && desiredDirection == draw.direction
                && directionIncrement == Scale(Sub(desiredDirection, currentDirection), 1.0 / params.stepsUntilDirectionAdjusted as real)
    {
      if !params.enabled {
        directionIncrement := Zero;
        forceIncrement := 0.0;
        desiredForce, currentForce := 0.0, 0.0;
        currentDirection := Zero;
        desiredDirection := Zero;
        return;
      }
      var n := params.stepsUntilDirectionAdjusted as real;
      desiredForce := DrawnForce(params, draw.forceDraw);
      forceIncrement := (desiredForce - currentForce) / n;
      desiredDirection := draw.direction;
      directionIncrement := Scale(Sub(desiredDirection, currentDirection), 1.0 / n);
    }
  }

  // ---------------------------------------------------------------------
  // Convergence of the force after a retarget

  /** The force after k steps without a retarget. */
  function ForceAfter(current: real, desired: real, increment: real, k: nat): real
    decreases k
  {
    if k == 0 then current else ForceAfter(NudgeForce(current, desired, increment), desired, increment, k - 1)
  }

  /** The force after j nudges from c0 with increment q. */
  function Lerp(c0: real, q: real, j: int): real { c0 + (j as real) * q }

  lemma LerpFacts(c0: real, d: real, n: int, j: int)
    requires n > 0 && 0 <= j <= n
    ensures var q := (d - c0) / n as real;
      && d - Lerp(c0, q, j) == ((n - j) as real) * q
      && Abs(d - Lerp(c0, q, j)) == ((n - j) as real) * Abs(q)
      && Lerp(c0, q, j) + q == Lerp(c0, q, j + 1)
      && (c0 <= d ==> c0 <= Lerp(c0, q, j) <= d)
      && (d <= c0 ==> d <= Lerp(c0, q, j) <= c0)
  {
    var q := (d - c0) / n as real;
    var jr, nr := j as real, n as real;
    assert nr * q == d - c0;
    assert (nr - jr) * q == nr * q - jr * q;
    assert (jr + 1.0) * q == jr * q + q;
    if q >= 0.0 {
      NonNegativeProduct(jr, q);
      NonNegativeProduct(nr - jr, q);
    } else {
      NonNegativeProduct(jr, -q);
      NonNegativeProduct(nr - jr, -q);
      assert jr * -q == -(jr * q);
      assert (nr - jr) * -q == -((nr - jr) * q);
      assert (nr - jr) * Abs(q) == -((nr - jr) * q);
    }
  }

  lemma NonNegativeProduct(a: real, b: real)
    requires a >= 0.0 && b >= 0.0
    ensures a * b >= 0.0
  {
  }

  /** Once within tolerance, the force stays where it is. */
  lemma {:induction false} ForceSettled(c: real, d: real, q: real, k: nat)
    requires Abs(d - c) <= ForceTolerance
    ensures ForceAfter(c, d, q, k) == c
    decreases k
  {
    if k > 0 {
      ForceSettled(c, d, q, k - 1);
    }
  }

  /**
   * From any point j nudges into a retarget, the force never leaves the
   * segment between the old force c0 and the desired force d, and after the
   * remaining n - j steps it is within tolerance of d.
   */
  lemma {:induction false} ForceConverges(c0: real, d: real, n: int, j: int, k: nat)
    requires n > 0 && 0 <= j <= n
    ensures var q := (d - c0) / n as real;
      var f := ForceAfter(Lerp(c0, q, j), d, q, k);
      && (c0 <= d ==> c0 <= f <= d)
      && (d <= c0 ==> d <= f <= c0)
      && (k >= n - j ==> Abs(d - f) <= ForceTolerance)
    decreases k
  {
    var q := (d - c0) / n as real;
    var c := Lerp(c0, q, j);
    LerpFacts(c0, d, n, j);
    if k == 0 {
      if j == n {
        assert Abs(d - c) == 0.0;
      }
    } else if Abs(d - c) > ForceTolerance {
      assert j < n;
      assert NudgeForce(c, d, q) == Lerp(c0, q, j + 1);
      ForceConverges(c0, d, n, j + 1, k - 1);
    } else {
      ForceSettled(c, d, q, k);
    }
  }

  /**
   * When the gap to the new target exceeds the tolerance n times over,
   * every one of the n nudges happens and the force reaches d exactly.
   */
  lemma {:induction false} ForceReachesTarget(c0: real, d: real, n: int, j: int)
    requires n > 0 && 0 <= j <= n
    requires Abs(d - c0) > ForceTolerance * n as real
    ensures var q := (d - c0) / n as real;
      ForceAfter(Lerp(c0, q, j), d, q, n - j) == d
    decreases n - j
  {
    var q := (d - c0) / n as real;
    if j < n {
      NudgeTakesStep(c0, d, n, j);
      ForceReachesTarget(c0, d, n, j + 1);
    } else {
      LerpFacts(c0, d, n, j);
    }
  }

  /** With the gap n times over the tolerance, the nudge after j < n steps is never skipped. */
  lemma NudgeTakesStep(c0: real, d: real, n: int, j: int)
    requires n > 0 && 0 <= j < n
    requires Abs(d - c0) > ForceTolerance * n as real
    ensures var q := (d - c0) / n as real;
      NudgeForce(Lerp(c0, q, j), d, q) == Lerp(c0, q, j + 1)
  {
    var q := (d - c0) / n as real;
    var nr, jr := n as real, j as real;
    StepAboveTolerance(c0, d, n);
    LerpFacts(c0, d, n, j);
    assert (nr - jr) * Abs(q) >= Abs(q) by {
      NonNegativeProduct(nr - jr - 1.0, Abs(q));
      assert (nr - jr) * Abs(q) == (nr - jr - 1.0) * Abs(q) + Abs(q);
    }
  }

  /** With the gap n times over the tolerance, each of the n equal steps exceeds it. */
  lemma StepAboveTolerance(c0: real, d: real, n: int)
    requires n > 0
    requires Abs(d - c0) > ForceTolerance * n as real
    ensures Abs((d - c0) / n as real) > ForceTolerance
  {
    var q := (d - c0) / n as real;
    var nr := n as real;
    LerpFacts(c0, d, n, 0);
    assert Lerp(c0, q, 0) == c0;
    assert Abs(d - c0) == nr * Abs(q);
    if Abs(q) <= ForceTolerance {
      NonNegativeProduct(ForceTolerance - Abs(q), nr);
    }
  }

  // ---------------------------------------------------------------------
  // Convergence of the direction after a retarget

  /** The direction after k steps without a retarget. */
  function DirectionAfter(current: Vec3, desired: Vec3, increment: Vec3, k: nat): Vec3
    decreases k
  {
    if k == 0 then current
    else DirectionAfter(NudgeDirection(current, desired, increment), desired, increment, k - 1)
  }

  /** The direction after j nudges from c0 with increment q. */
  function LerpDirection(c0: Vec3, q: Vec3, j: int): Vec3 { Add(c0, Scale(q, j as real)) }

  /** Component-wise, v lies between a and b. */
  predicate Between(a: Vec3, v: Vec3, b: Vec3) {
    && (a.x <= v.x <= b.x || b.x <= v.x <= a.x)
    && (a.y <= v.y <= b.y || b.y <= v.y <= a.y)
    && (a.z <= v.z <= b.z || b.z <= v.z <= a.z)
  }

  /** Scaling a vector by m scales its squared length by m * m. */
  lemma ScaledSquare(u: Vec3, m: real)
    ensures Dot(Scale(u, m), Scale(u, m)) == m * m * Dot(u, u)
  {
    assert (u.x * m) * (u.x * m) == m * m * (u.x * u.x);
    assert (u.y * m) * (u.y * m) == m * m * (u.y * u.y);
    assert (u.z * m) * (u.z * m) == m * m * (u.z * u.z);
  }

  lemma LerpDirectionFacts(c0: Vec3, d: Vec3, n: int, j: int)
    requires n > 0 && 0 <= j <= n
    ensures var q := Scale(Sub(d, c0), 1.0 / n as real);
      && SquaredDistance(LerpDirection(c0, q, j), d) == ((n - j) as real) * ((n - j) as real) * Dot(q, q)
      && Add(LerpDirection(c0, q, j), q) == LerpDirection(c0, q, j + 1)
      && Between(c0, LerpDirection(c0, q, j), d)
  {
    var q := Scale(Sub(d, c0), 1.0 / n as real);
    LerpDirectionComponents(c0, d, q, LerpDirection(c0, q, j), n, j);
    LerpDirectionStep(c0, q, j);
    LerpDirectionBetween(c0, d, q, LerpDirection(c0, q, j), n, j);
    LerpGap(LerpDirection(c0, q, j), d, q, (n - j) as real);
  }

  /** LerpComponent for each of the three components: v is n - j steps q short of d. */
  lemma LerpDirectionComponents(c0: Vec3, d: Vec3, q: Vec3, v: Vec3, n: int, j: int)
    requires n > 0 && 0 <= j <= n
    requires q == Scale(Sub(d, c0), 1.0 / n as real)
    requires v == LerpDirection(c0, q, j)
    ensures Sub(v, d) == Scale(q, -((n - j) as real))
  {
    LerpComponent(c0.x, d.x, n, j);
    LerpComponent(c0.y, d.y, n, j);
    LerpComponent(c0.z, d.z, n, j);
  }

  /** One more nudge of q from the j-th point of a lerp is the (j + 1)-th. */
  lemma LerpDirectionStep(c0: Vec3, q: Vec3, j: int)
    ensures Add(LerpDirection(c0, q, j), q) == LerpDirection(c0, q, j + 1)
  {
    assert q.x * j as real + q.x == q.x * (j + 1) as real;
    assert q.y * j as real + q.y == q.y * (j + 1) as real;
    assert q.z * j as real + q.z == q.z * (j + 1) as real;
  }

  /** LerpComponentBetween for each of the three components. */
  lemma LerpDirectionBetween(c0: Vec3, d: Vec3, q: Vec3, v: Vec3, n: int, j: int)
    requires n > 0 && 0 <= j <= n
    requires q == Scale(Sub(d, c0), 1.0 / n as real)
    requires v == LerpDirection(c0, q, j)
    ensures Between(c0, v, d)
  {
    LerpComponentBetween(c0.x, d.x, n, j);
    LerpComponentBetween(c0.y, d.y, n, j);
    LerpComponentBetween(c0.z, d.z, n, j);
  }

  /** When v - d is q scaled by -m, the squared distance from v to d is m * m times that of q. */
  lemma LerpGap(v: Vec3, d: Vec3, q: Vec3, m: real)
    requires Sub(v, d) == Scale(q, -m)
    ensures SquaredDistance(v, d) == m * m * Dot(q, q)
  {
    ScaledSquare(q, -m);
    assert -m * -m == m * m;
  }

  /** One component of LerpDirectionFacts: j nudges of q from a fall n - j nudges short of b. */
  lemma LerpComponent(a: real, b: real, n: int, j: int)
    requires n > 0 && 0 <= j <= n
    ensures var q := (b - a) * (1.0 / n as real);
      (a + q * j as real) - b == q * -((n - j) as real)
  {
    var q := (b - a) * (1.0 / n as real);
    assert q == (b - a) / n as real;
    LerpFacts(a, b, n, j);
    assert Lerp(a, q, j) == a + q * j as real;
  }

  /** One component of LerpDirectionFacts: j nudges of q from a lie between a and b. */
  lemma LerpComponentBetween(a: real, b: real, n: int, j: int)
    requires n > 0 && 0 <= j <= n
    ensures var q := (b - a) * (1.0 / n as real);
      a <= a + q * j as real <= b || b <= a + q * j as real <= a
  {
    var q := (b - a) * (1.0 / n as real);
    assert q == (b - a) / n as real;
    LerpFacts(a, b, n, j);
    assert Lerp(a, q, j) == a + q * j as real;
  }

  lemma {:induction false} DirectionSettled(c: Vec3, d: Vec3, q: Vec3, k: nat)
    requires SquaredDistance(c, d) <= DirectionTolerance
    ensures DirectionAfter(c, d, q, k) == c
    decreases k
  {
    if k > 0 {
      DirectionSettled(c, d, q, k - 1);
    }
  }

  /**
   * When each of the n equal steps is longer than the tolerance, no nudge
   * is skipped and the direction reaches d exactly after the remaining
   * n - j of them.
   */
  lemma {:induction false} DirectionReachesTarget(c0: Vec3, d: Vec3, n: int, j: int)
    requires n > 0 && 0 <= j <= n
    requires var q := Scale(Sub(d, c0), 1.0 / n as real); Dot(q, q) > DirectionTolerance
    ensures var q := Scale(Sub(d, c0), 1.0 / n as real);
      DirectionAfter(LerpDirection(c0, q, j), d, q, n - j) == d
    decreases n - j
  {
    var q := Scale(Sub(d, c0), 1.0 / n as real);
    var c := LerpDirection(c0, q, j);
    LerpDirectionFacts(c0, d, n, j);
    if j < n {
      var m := (n - j) as real;
      assert m * m * Dot(q, q) > DirectionTolerance by {
        NonNegativeProduct(m - 1.0, m + 1.0);
        NonNegativeProduct(m * m - 1.0, Dot(q, q));
        assert m * m * Dot(q, q) == (m * m - 1.0) * Dot(q, q) + Dot(q, q);
      }
      assert NudgeDirection(c, d, q) == LerpDirection(c0, q, j + 1);
      DirectionReachesTarget(c0, d, n, j + 1);
    } else {
      LerpDirectionComponents(c0, d, q, c, n, j);
      assert Sub(c, d) == Zero;
    }
  }

  /**
   * From any point j nudges into a retarget, each component of the
   * direction stays between the old and the desired direction, and after
   * the remaining n - j steps the direction is within tolerance.
   */
  lemma {:induction false} DirectionConverges(c0: Vec3, d: Vec3, n: int, j: int, k: nat)
    requires n > 0 && 0 <= j <= n
    ensures var q := Scale(Sub(d, c0), 1.0 / n as real);
      var v := DirectionAfter(LerpDirection(c0, q, j), d, q, k);
      && Between(c0, v, d)
      && (k >= n - j ==> SquaredDistance(v, d) <= DirectionTolerance)
    decreases k
  {
    var q := Scale(Sub(d, c0), 1.0 / n as real);
    var c := LerpDirection(c0, q, j);
    LerpDirectionFacts(c0, d, n, j);
    if k == 0 {
      if j == n {
        assert SquaredDistance(c, d) == 0.0;
      }
    } else if SquaredDistance(c, d) > DirectionTolerance {
      assert j < n;
      assert NudgeDirection(c, d, q) == LerpDirection(c0, q, j + 1);
      DirectionConverges(c0, d, n, j + 1, k - 1);
    } else {
      DirectionSettled(c, d, q, k);
    }
  }
}
